=== FILE: README.md ===
# SOMATRAP site: a Dafny model of its client-side logic

The SOMATRAP site is a React marketing site for an aluminium and PVC joinery company, plus an admin back-office. Its logic lives in small, deterministic pieces inside component handlers. This project models those pieces as immutable datatypes and pure functions and proves their properties:

- **Hero slider** (`HeroSlider`): a state record over abstract events.
  - Events: the autoplay timeout fires, next or previous is clicked, the progress tween completes, the component unmounts.
  - Texture loading is a parameter `net: map<string, TexId>`. A URL missing from it is a failed load.
- **Admin sidebar** (`NavItems`): active-state recomputation over the nav-item tree.
- **Admin list pages**: gallery, products, partners, testimonials, quote requests, messages, blog, hero slides, new images.
  - Each page is a record of its React state.
  - Each handler is a function from page to page.
  - The shared edit-by-id, delete-by-id and `max(id) + 1` rules live once in `Records`.
- **Public pages**:
  - portfolio filtering and pagination;
  - the services carousel;
  - the header's link matching;
  - the contact form's nested field names and submit states;
  - the home-page blog carousel;
  - the article page;
  - the "who are we" paragraph.

Shared helpers:

- `Wrappers`: `Option`.
- `Seqs`: filter, first index, `[...new Set(xs)]`, slice, flatMap, remove-at.
- `Text`: JavaScript's `indexOf`, `split`, `join`, `trim`, `startsWith`, `endsWith` on `seq<char>`.
- `Records`: the id-keyed list edits.

## Model

| member | source | states |
|---|---|---|
| HeroSlider.ConfigOf | src/components/HeroSlider/HeroSlider.tsx:51-57 | Destructuring defaults apply only to an absent prop: 7000 ms autoplay, 2 s transition, intensity 0.7, the fluid map; autoplay is on unless explicitly false |
| HeroSlider.SlideEffectOf | src/components/HeroSlider/HeroSlider.tsx:417-425 | Each effect field is the slide's override when it is truthy, otherwise the component default; the timing comes from autoplayDuration |
| HeroSlider.FalsyOverrideFallsBack | src/components/HeroSlider/HeroSlider.tsx:417-425 | Overrides of 0 and "" resolve exactly like no override at all |
| HeroSlider.NextTarget | src/components/HeroSlider/HeroSlider.tsx:353 | The forward target stays in range, is 0 exactly for the last slide, and is i + 1 otherwise |
| HeroSlider.PrevTarget | src/components/HeroSlider/HeroSlider.tsx:564 | The backward target stays in range, is the last slide exactly for slide 0, and is i - 1 otherwise |
| HeroSlider.TargetsInverse | src/components/HeroSlider/HeroSlider.tsx:523-564 | Forward then backward returns to the start and vice versa; with one slide both targets are that slide |
| HeroSlider.LoadMap | src/components/HeroSlider/HeroSlider.tsx:427-446 | A cached URL returns its texture and leaves the cache unchanged; a miss that loads adds exactly that URL; a failed load changes nothing; existing entries are never altered |
| HeroSlider.LoadMapIdempotent | src/components/HeroSlider/HeroSlider.tsx:427-446 | Loading the same URL twice gives the same texture and the same cache as loading it once |
| HeroSlider.Init | src/components/HeroSlider/HeroSlider.tsx:192-304 | Init is skipped when the slider is not visible. An empty slide list makes init fail, a path the page never reaches because its render reads the current slide first (see Left out). A ready slider has one texture per slide, the default map cached, uniforms for slides 0 and 1 with progress 0, index 0, and a pending timeout exactly when autoplay is on |
| HeroSlider.SingleSlideInit | src/components/HeroSlider/HeroSlider.tsx:273 | With a single slide the initial next texture falls back to the first texture |
| HeroSlider.Teardown | src/components/HeroSlider/HeroSlider.tsx:96-139 | Unmount kills the timeline, clears the timeout and drops the material; the texture list and the cache end up empty |
| HeroSlider.TeardownIdempotent | src/components/HeroSlider/HeroSlider.tsx:96-139 | Tearing down twice is tearing down once |
| HeroSlider.BeginTransition | src/components/HeroSlider/HeroSlider.tsx:448-501 | The transition starts iff both the from-slide's and the to-slide's maps are cached or served by the network, and each such map ends up cached even when the other fails. A map this start loads is stored with the texture the network serves, and cached maps keep theirs. A start writes textures[from] and textures[to], the from-slide's map and intensity, and progress 0; the tween lasts the from-slide's transition duration. A failed start leaves the uniforms as they were |
| HeroSlider.StartAutoplay | src/components/HeroSlider/HeroSlider.tsx:331-415 | With material and textures, autoplay clears any pending timeout and arms exactly one for autoplayDuration; otherwise it changes nothing |
| HeroSlider.OnTimer | src/components/HeroSlider/HeroSlider.tsx:349-402 | A firing timeout starts the transition to the next slide exactly when both maps can be loaded; if the start fails, autoplay re-arms anyway; the index never changes here |
| HeroSlider.OnManual | src/components/HeroSlider/HeroSlider.tsx:508-590 | A click without material or textures, or while a timeline runs, changes nothing. Otherwise it cancels the pending timeout and starts a transition to the next or previous slide exactly when both maps can be loaded |
| HeroSlider.OnComplete | src/components/HeroSlider/HeroSlider.tsx:380-390 | The tween's completion is the only place the index changes, and it changes to that transition's target; autoplay re-arms only when enabled |
| HeroSlider.Step | src/components/HeroSlider/HeroSlider.tsx:331-590 | Every event keeps the state valid and keeps the configuration. The index changes only on completion, to the running target. A pending timeout is always autoplayDuration. The cache only grows, except at unmount |
| HeroSlider.ClickIgnoredWhileRunning | src/components/HeroSlider/HeroSlider.tsx:509-521 | Next and previous clicks during a running transition leave the state untouched |
| HeroSlider.NextMapLoadedButUnused | src/components/HeroSlider/HeroSlider.tsx:448-486 | When a transition starts, the shader's map and intensity are the from-slide's, whatever the target's effect says |
| HeroSlider.AutoplayRearmsAfterFailure | src/components/HeroSlider/HeroSlider.tsx:390-402 | An autoplay transition whose map cannot load leaves the timeline idle and the index unchanged, and still arms the next timeout |
| HeroSlider.ManualFailureStopsAutoplay | src/components/HeroSlider/HeroSlider.tsx:508-549 | A manual transition whose map cannot load leaves no timeout pending, so autoplay stops |
| HeroSlider.Caption | src/components/HeroSlider/HeroSlider.tsx:595-602 | The caption is the current slide's title and description; the button shows only when both its text and its link are truthy |
| NavItems.DefaultNavItems | src/data/nav-items.ts:12-92 | Nine items, all inactive |
| NavItems.UpdateItem | src/data/nav-items.ts:97-130 | Identity fields are kept. The dashboard is active iff the path is exactly /admin and keeps its sub-menu. Any other item is active iff its own path test holds or a recomputed child is active, and its sub-menu, when present, is the list of its children each recomputed |
| NavItems.UpdateAll | src/data/nav-items.ts:97-130 | Same length, and position by position the recomputed item |
| NavItems.InertNeverActive | src/data/nav-items.ts:108 | A "#!" item without children is never active |
| NavItems.UpdateItemIdempotent | src/data/nav-items.ts:98-129 | Recomputing an item twice equals recomputing it once, because incoming flags are ignored |
| NavItems.UpdateAllIdempotent | src/data/nav-items.ts:98-129 | Recomputing a list twice equals recomputing it once |
| NavItems.PartnersChildActive | src/data/nav-items.ts:36-56 | On /admin/about/partners, child 42 is active and child 41 is not |
| NavItems.PartnersPageExample | src/data/nav-items.ts:108-121 | On /admin/about/partners, item 4 is active through child 42, and the dashboard is not |
| Gallery.CategoryTabs | src/components/PortfolioSection/Portfolio.tsx:38 | The "all" label first, then every image category exactly once, in order of first appearance |
| Gallery.FilterByCategory | src/components/PortfolioSection/Portfolio.tsx:40-44 | The "all" label yields the whole gallery. Any other category yields exactly the images of that category, each as often as in the gallery |
| Gallery.FilterByCategoryConcat | src/components/PortfolioSection/Portfolio.tsx:40-44 | Filtering two galleries shown one after the other gives the two filtered lists one after the other, so kept images stay in gallery order |
| Gallery.FilterByCategoryOne | src/components/PortfolioSection/Portfolio.tsx:40-44 | A single image is kept iff the label is "all" or the image has the selected category |
| Portfolio.TotalPages | src/components/PortfolioSection/Portfolio.tsx:46 | The smallest page count whose six-image pages hold every filtered image |
| Portfolio.Buttons | src/components/PortfolioSection/Portfolio.tsx:38 | No contract of its own: the category buttons are Gallery.CategoryTabs over the gallery with "Tous" |
| Portfolio.Filtered | src/components/PortfolioSection/Portfolio.tsx:40-44 | No contract of its own: the filtered images are Gallery.FilterByCategory with "Tous", whose contract and lemmas state the result |
| Portfolio.PageOf | src/components/PortfolioSection/Portfolio.tsx:47-50 | Page p holds at most six images: the filtered images from (p - 1) * 6 on, in order. It is non-empty iff p is within the page count |
| Portfolio.CurrentImages | src/components/PortfolioSection/Portfolio.tsx:47-50 | No contract of its own: the cards on screen are Portfolio.PageOf of the filtered images at the current page |
| Portfolio.PagesUpToPrefix | src/components/PortfolioSection/Portfolio.tsx:46-50 | Pages 1 to k read in order are the first 6k filtered images |
| Portfolio.PagesReassemble | src/components/PortfolioSection/Portfolio.tsx:46-50 | All pages read in order reproduce the filtered list exactly |
| Portfolio.SelectCategory | src/components/PortfolioSection/Portfolio.tsx:77-80 | Choosing a category selects it and goes back to page 1 |
| Portfolio.SelectPage | src/components/PortfolioSection/Portfolio.tsx:125-130 | A page button selects an existing page, which shows at least one image |
| Portfolio.PagerIffOverflow | src/components/PortfolioSection/Portfolio.tsx:125 | Page buttons appear iff more than six images pass the filter |
| Portfolio.ShowsPager | src/components/PortfolioSection/Portfolio.tsx:125 | No contract of its own: Portfolio.PagerIffOverflow states when the pager shows |
| Portfolio.OpenLightbox | src/components/PortfolioSection/Portfolio.tsx:52-55 | Clicking a card opens the lightbox on that card's index |
| Portfolio.LightboxIndexIsPageRelative | src/components/PortfolioSection/Portfolio.tsx:105-107 | Card i of page p opens the lightbox on filtered image (p - 1) * 6 + i, because the lightbox receives only the page's images |
| PortfolioAdmin.Mount | src/pages/admin/Gallery/PortfolioListPage.tsx:52-71 | Mounting loads the images, selects "all" and computes the tabs from them |
| PortfolioAdmin.EditClick | src/pages/admin/Gallery/PortfolioListPage.tsx:73-77 | The clicked image becomes both the selection and the edited copy, and the edit dialog opens |
| PortfolioAdmin.DeleteClick | src/pages/admin/Gallery/PortfolioListPage.tsx:79-82 | The clicked image is selected and the delete dialog opens |
| PortfolioAdmin.EditSave | src/pages/admin/Gallery/PortfolioListPage.tsx:84-93 | Every image with the selected id becomes the edited copy; the length and all other images are unchanged |
| PortfolioAdmin.Delete | src/pages/admin/Gallery/PortfolioListPage.tsx:95-100 | Exactly the images with the selected id are removed; the others stay, in order and as often as before (the list is Records.RemoveWhere's), the delete dialog closes, and every other field of the page is unchanged. Without a selection nothing changes |
| PortfolioAdmin.AddSave | src/pages/admin/Gallery/PortfolioListPage.tsx:132-139 | A draft with src, title and category is appended with the corrected next id (Records.NextId, see Findings): one more than the largest existing id, or 1 on an empty gallery. The draft is cleared. An incomplete draft changes nothing |
| PortfolioAdmin.SelectTab | src/pages/admin/Gallery/PortfolioListPage.tsx:146 | Choosing a tab selects its category |
| PortfolioAdmin.Visible | src/pages/admin/Gallery/PortfolioListPage.tsx:102-104 | The "all" tab shows every image; another tab shows exactly the images of its category, each as often as in the gallery |
| PortfolioAdmin.VisibleKeepsOrder | src/pages/admin/Gallery/PortfolioListPage.tsx:102-104 | A gallery made of two parts shows the visible images of the first part, then those of the second: the grid keeps gallery order |
| PortfolioAdmin.TabsComputedOnce | src/pages/admin/Gallery/PortfolioListPage.tsx:68-69 | The tabs are computed once at mount, so an added image with a new category gets no tab |
| PortfolioAdmin.AddThenDeleteRestores | src/pages/admin/Gallery/PortfolioListPage.tsx:95-100 | Deleting the image an add just created restores the gallery |
| PortfolioAdmin.EditUnchangedIsNoChange | src/pages/admin/Gallery/PortfolioListPage.tsx:84-93 | Saving an edit without changes leaves the gallery as it was when every image sharing its id equals it |
| Records.UpdateWhere | src/pages/admin/Gallery/PortfolioListPage.tsx:86-89 | Exactly the elements with the key are transformed; the length is kept |
| Records.ReplaceWhere | src/pages/admin/Gallery/PortfolioListPage.tsx:86-89 | Exactly the elements with the key are replaced; the length is kept |
| Records.RemoveWhere | src/pages/admin/Gallery/PortfolioListPage.tsx:97 | An element survives iff its key differs |
| Records.RemoveWhereExact | src/pages/admin/Gallery/PortfolioListPage.tsx:97 | Survivors keep their multiplicity and their order |
| Records.NextId | src/pages/admin/Gallery/PortfolioListPage.tsx:134 | The id an add assigns: above every existing id and one more than the largest; 1 for an empty list, where the code as written yields no usable number (see Findings) |
| Records.JsMax | src/pages/admin/Gallery/PortfolioListPage.tsx:134 | JavaScript's Math.max: -Infinity iff every argument is -Infinity (in particular for no argument), otherwise one of the arguments and at least every finite one |
| Records.NextIdAsWritten | src/pages/admin/Gallery/PortfolioListPage.tsx:134 | Math.max(...ids) + 1 as written: -Infinity iff every id is -Infinity, including the empty list; otherwise above every finite id |
| Records.EmptyListIdsCollide | src/pages/admin/Gallery/PortfolioListPage.tsx:134 | On an empty list the first add gets -Infinity and the next add gets -Infinity again: two records share an id |
| Records.NextIdAgreesWhenNonEmpty | src/pages/admin/Gallery/PortfolioListPage.tsx:134 | On a non-empty list of finite ids the corrected numbering and the code as written agree |
| Records.SuccessiveIdsDistinct | src/pages/admin/Gallery/PortfolioListPage.tsx:134 | Two adds in a row get different ids, on any list including the empty one |
| Records.RemoveWhereAbsent | src/pages/admin/Gallery/PortfolioListPage.tsx:97 | Removing a key no element has leaves the list unchanged |
| Records.ReplaceWhereSame | src/pages/admin/Gallery/PortfolioListPage.tsx:86-89 | Replacing a key's elements with the value they already hold leaves the list unchanged |
| Records.AppendThenRemove | src/pages/admin/Gallery/PortfolioListPage.tsx:95-100 | Appending a record with a fresh key and deleting that key restores the list |
| ProductsAdmin.Filtered | src/pages/admin/Services/ProductsListPage.tsx:118-126 | "all" shows every product; any other value shows exactly the products whose title equals it, each as often as in the list, and never more products than the list has |
| ProductsAdmin.FilteredConcat | src/pages/admin/Services/ProductsListPage.tsx:118-126 | Filtering two lists one after the other gives the two filtered lists one after the other, so kept products stay in list order |
| ProductsAdmin.FilteredOne | src/pages/admin/Services/ProductsListPage.tsx:118-126 | A single product is kept iff the filter is "all" or its title equals the filter |
| ProductsAdmin.EditClick | src/pages/admin/Services/ProductsListPage.tsx:128-132 | The product is selected and copied for editing, and the edit dialog opens |
| ProductsAdmin.DeleteClick | src/pages/admin/Services/ProductsListPage.tsx:134-137 | The product is selected and the delete dialog opens |
| ProductsAdmin.EditSave | src/pages/admin/Services/ProductsListPage.tsx:139-148 | Every product with the selected id becomes the edited copy; the others and the length are unchanged |
| ProductsAdmin.Delete | src/pages/admin/Services/ProductsListPage.tsx:150-157 | Exactly the products with the selected id are removed; the others stay, in order and as often as before (the list is Records.RemoveWhere's), the delete dialog closes, and every other field of the page is unchanged. Without a selection nothing changes |
| ProductsAdmin.AddSave | src/pages/admin/Services/ProductsListPage.tsx:182-194 | A draft with image, title and description is appended with the corrected next id (Records.NextId, see Findings): one more than the largest existing id, or 1 on an empty list. The draft then resets to empty fields with the link "services-details.html" |
| ProductsAdmin.LinkNotRequired | src/pages/admin/Services/ProductsListPage.tsx:183 | An empty link does not block an add |
| ProductsAdmin.AddThenDeleteRestores | src/pages/admin/Services/ProductsListPage.tsx:150-157 | Deleting the product an add just created restores the list |
| ProductsAdmin.EditUnchangedIsNoChange | src/pages/admin/Services/ProductsListPage.tsx:139-148 | Saving an edit without changes leaves the list as it was when every product sharing its id equals it |
| PartnersAdmin.EditClick | src/pages/admin/About/PartnersPage.tsx:85-89 | The partner is selected and copied for editing, and the edit dialog opens |
| PartnersAdmin.DeleteClick | src/pages/admin/About/PartnersPage.tsx:91-94 | The partner is selected and the delete dialog opens |
| PartnersAdmin.EditSave | src/pages/admin/About/PartnersPage.tsx:96-105 | Every partner whose optional id equals the selected one becomes the edited copy |
| PartnersAdmin.Delete | src/pages/admin/About/PartnersPage.tsx:107-114 | Exactly the partners whose optional id equals the selected one are removed; the others stay, in order and as often as before (the list is Records.RemoveWhere's), the delete dialog closes, and every other field of the page is unchanged. Without a selection nothing changes |
| PartnersAdmin.AbsentIdsMatchEachOther | src/pages/admin/About/PartnersPage.tsx:24-110 | With an absent selected id, every partner without an id is overwritten by an edit and removed by a delete |
| PartnersAdmin.NewId | src/pages/admin/About/PartnersPage.tsx:141 | max(id or 0) + 1 is above every defined id, at least 1 when some id is absent or non-negative, and 1 for an empty list |
| PartnersAdmin.AddSave | src/pages/admin/About/PartnersPage.tsx:139-150 | A draft with image and title is appended with the new id. The draft then resets with the link "./Gallery.html" |
| PartnersAdmin.AddThenDeleteRestores | src/pages/admin/About/PartnersPage.tsx:107-114 | Deleting the partner an add just created restores the list |
| PartnersAdmin.EditUnchangedIsNoChange | src/pages/admin/About/PartnersPage.tsx:96-105 | Saving an edit without changes leaves the list as it was when every partner sharing its id equals it |
| TestimonialsAdmin.EditClick | src/pages/admin/About/TestimonialsPage.tsx:67-71 | The testimonial is selected and copied for editing, and the edit dialog opens |
| TestimonialsAdmin.DeleteClick | src/pages/admin/About/TestimonialsPage.tsx:73-76 | The testimonial is selected and the delete dialog opens |
| TestimonialsAdmin.EditSave | src/pages/admin/About/TestimonialsPage.tsx:78-87 | Every testimonial whose optional id equals the selected one becomes the edited copy |
| TestimonialsAdmin.Delete | src/pages/admin/About/TestimonialsPage.tsx:89-96 | Exactly the testimonials whose optional id equals the selected one are removed; the others stay, in order and as often as before (the list is Records.RemoveWhere's), the delete dialog closes, and every other field of the page is unchanged. Without a selection nothing changes |
| TestimonialsAdmin.NewId | src/pages/admin/About/TestimonialsPage.tsx:104 | max(id or 0) + 1 is above every defined id, and 1 for an empty list |
| TestimonialsAdmin.AddSave | src/pages/admin/About/TestimonialsPage.tsx:102-113 | A draft with text, name and position is appended with the id NewId gives, which differs from every existing id, and the draft is cleared |
| TestimonialsAdmin.AddThenDeleteRestores | src/pages/admin/About/TestimonialsPage.tsx:89-96 | Deleting the testimonial an add just created restores the list |
| TestimonialsAdmin.EditUnchangedIsNoChange | src/pages/admin/About/TestimonialsPage.tsx:78-87 | Saving an edit without changes leaves the list as it was when every testimonial sharing its id equals it |
| SliderAdmin.Initial | src/pages/admin/Slider/SliderPage.tsx:128-140 | The dialog starts closed with an empty draft |
| SliderAdmin.Open | src/pages/admin/Slider/SliderPage.tsx:143-160 | Opening with a slide edits it at its index with its image as preview; opening without one starts an empty draft; either way the error is cleared and the page stays valid, open or not before |
| SliderAdmin.Close | src/pages/admin/Slider/SliderPage.tsx:162-173 | Closing clears the edit index, the draft, the preview and the error |
| SliderAdmin.Upload | src/pages/admin/Slider/SliderPage.tsx:175-212 | Only JPEG, PNG and WebP files of at most 5 MiB are accepted. A rejected file sets its error and keeps the draft. An accepted file becomes the preview and the image URL, or sets the upload error when compression fails. Whatever the file, the upload flag is clear at the end |
| SliderAdmin.UploadBegin | src/pages/admin/Slider/SliderPage.tsx:175-195 | Up to the await: the upload flag is raised iff the file is accepted; a rejected type or size sets its error, an accepted file clears the error; the draft and preview are untouched |
| SliderAdmin.UploadEnd | src/pages/admin/Slider/SliderPage.tsx:195-211 | After compression: the data URL becomes the preview and the image URL, or the upload error is set; the flag is cleared |
| SliderAdmin.SaveDisabledWhileUploading | src/pages/admin/Slider/SliderPage.tsx:441 | While an accepted file is being compressed, the Save button is disabled |
| SliderAdmin.SizeLimitInclusive | src/pages/admin/Slider/SliderPage.tsx:22-23 | Exactly 5 * 1024 * 1024 bytes passes and one byte more fails |
| SliderAdmin.SetField | src/pages/admin/Slider/SliderPage.tsx:262-264 | An input change updates only the named draft field |
| SliderAdmin.SaveError | src/pages/admin/Slider/SliderPage.tsx:219-230 | The first failing check, in order: trimmed title, trimmed type, image |
| SliderAdmin.Save | src/pages/admin/Slider/SliderPage.tsx:214-246 | A failed check sets its message and keeps the list. Otherwise the slide at the edit index is replaced, or the draft is appended, and the dialog closes |
| SliderAdmin.Store | src/pages/admin/Slider/SliderPage.tsx:232-240 | Only the edit index is replaced and the length is kept; without an index the draft goes at the end |
| SliderAdmin.BlankTitleEnabledButRefused | src/pages/admin/Slider/SliderPage.tsx:441 | A whitespace title enables the Save button, yet the save is refused with "Title is required" |
| SliderAdmin.SaveEnabled | src/pages/admin/Slider/SliderPage.tsx:441 | No contract of its own: the button needs no upload in flight, a preview, a title and a type, untrimmed; SliderAdmin.BlankTitleEnabledButRefused and SaveDisabledWhileUploading state its consequences |
| SliderAdmin.AskDelete | src/pages/admin/Slider/SliderPage.tsx:248-251 | A delete click records the index and opens the confirmation; the slides, the edit dialog, the draft, the preview, the error and the upload flag are untouched |
| SliderAdmin.ConfirmDelete | src/pages/admin/Slider/SliderPage.tsx:253-260 | Exactly the slide at the recorded index is removed, the rest keep their order, and the index is cleared |
| SliderAdmin.AskThenConfirmRemoves | src/pages/admin/Slider/SliderPage.tsx:248-260 | Asking to delete slide i and confirming leaves the slides before i followed by the slides after i, and closes the confirmation |
| ReviewStatus.ParseKey | src/pages/admin/Devis/DevisListPage.tsx:48 | Exactly the three status keys parse, each to its own status |
| ReviewStatus.Label | src/pages/admin/Devis/DevisListPage.tsx:216-220 | No contract of its own: "En attente", "Traité", "Rejeté"; ReviewStatus.KeysLabelsColoursDistinct states they are non-empty and distinct |
| ReviewStatus.Colour | src/pages/admin/Devis/DevisListPage.tsx:211-215 | No contract of its own: orange, green, red; ReviewStatus.KeysLabelsColoursDistinct states they are non-empty and distinct |
| ReviewStatus.KeysLabelsColoursDistinct | src/pages/admin/Devis/DevisListPage.tsx:211-220 | Every status has a non-empty label and colour, distinct statuses differ in all three, and keys round-trip |
| DevisAdmin.Initial | src/pages/admin/Devis/DevisListPage.tsx:115-119 | The list starts with an empty search, no selection and "pending" as the pending status |
| DevisAdmin.ViewDetails | src/pages/admin/Devis/DevisListPage.tsx:125-129 | Opening details selects the record and seeds the new status with its own |
| DevisAdmin.StatusChange | src/pages/admin/Devis/DevisListPage.tsx:135-140 | The select records the pending status; the records, the search, the selection and the dialog are untouched |
| DevisAdmin.UpdateStatus | src/pages/admin/Devis/DevisListPage.tsx:142-151 | Without a selection nothing changes. Otherwise only the status of records with the selected id changes, to the new status |
| DevisAdmin.Delete | src/pages/admin/Devis/DevisListPage.tsx:131-133 | Exactly the records with the given id are removed; the others stay, in order and as often as before (the list is Records.RemoveWhere's), and the rest of the page is unchanged |
| DevisAdmin.ProjectTypeShown | src/pages/admin/Devis/DevisListPage.tsx:187-189 | The free-text type is shown iff the type is "autre" and the text is non-empty; otherwise the type itself |
| DevisAdmin.SetSearch | src/pages/admin/Devis/DevisListPage.tsx:121-123 | The search box stores its text and changes nothing else |
| DevisAdmin.SearchNeverFilters | src/pages/admin/Devis/DevisListPage.tsx:297 | The rows are the same whatever the search text |
| DevisAdmin.UpdateStatusIdempotent | src/pages/admin/Devis/DevisListPage.tsx:142-151 | Saving the same status twice equals saving it once |
| DevisAdmin.ChosenStatusIsSaved | src/pages/admin/Devis/DevisListPage.tsx:125-151 | Opening a request, picking a status and saving gives every request with that id the picked status, leaves the others as they were, and closes the dialog |
| MessagesAdmin.ViewDetails | src/pages/admin/Contact/MessagesListPage.tsx:75-79 | Opening details selects the message and seeds the new status with its own |
| MessagesAdmin.StatusChange | src/pages/admin/Contact/MessagesListPage.tsx:85-90 | The select records the pending status; the messages, the selection and the dialog are untouched |
| MessagesAdmin.UpdateStatus | src/pages/admin/Contact/MessagesListPage.tsx:92-101 | Without a selection nothing changes. Otherwise only the status of messages with the selected id changes |
| MessagesAdmin.Delete | src/pages/admin/Contact/MessagesListPage.tsx:81-83 | Exactly the messages with the given id are removed; the others stay, in order and as often as before (the list is Records.RemoveWhere's), and the rest of the page is unchanged |
| MessagesAdmin.ViewThenUpdateIsNoChange | src/pages/admin/Contact/MessagesListPage.tsx:75-101 | With distinct ids, viewing a message and saving without changing the status leaves the list as it was |
| MessagesAdmin.ChosenStatusIsSaved | src/pages/admin/Contact/MessagesListPage.tsx:75-101 | Opening a message, picking a status and saving gives every message with that id the picked status, leaves the others as they were, and closes the dialog |
| BlogAdmin.DraftOf | src/pages/Blog/BlogListPage.tsx:82-87 | A post copied into a draft carries every field: merged over a blank post it gives the post back |
| BlogAdmin.Merge | src/pages/Blog/BlogListPage.tsx:110-116 | For each of the eight fields (id, date, author, title, description, content, image, tags), a value present in the draft wins and an absent one keeps the post's value |
| BlogAdmin.MergeWholeDraft | src/pages/Blog/BlogListPage.tsx:110-116 | Merging a whole post's draft replaces the post entirely |
| BlogAdmin.ViewDetails | src/pages/Blog/BlogListPage.tsx:76-80 | Viewing selects the post in view mode and opens the dialog |
| BlogAdmin.EditClick | src/pages/Blog/BlogListPage.tsx:82-87 | Editing selects the post, copies it to the draft and enters edit mode |
| BlogAdmin.AddClick | src/pages/Blog/BlogListPage.tsx:89-97 | A new draft holds only today's date and an empty tag list |
| BlogAdmin.Delete | src/pages/Blog/BlogListPage.tsx:99-101 | Exactly the posts with the given id are removed; the others stay, in order and as often as before (the list is Records.RemoveWhere's), and the rest of the page is unchanged |
| BlogAdmin.NewPost | src/pages/Blog/BlogListPage.tsx:104-109 | The added post is the draft over an id taken from the clock |
| BlogAdmin.Save | src/pages/Blog/BlogListPage.tsx:103-118 | Add appends one post. Edit merges the draft over the posts with the selected id and keeps the others. View changes nothing. The dialog closes in every mode |
| BlogAdmin.EditWithoutChangesKeepsPost | src/pages/Blog/BlogListPage.tsx:82-118 | Opening a post for edit and saving without changes leaves the list as it was |
| BlogAdmin.SetField | src/pages/Blog/BlogListPage.tsx:120-125 | An input change updates only the named draft field |
| BlogAdmin.TagField | src/pages/Blog/BlogListPage.tsx:433-434 | The tag field shows the tags joined with ", ", or "" when the draft has none |
| BlogAdmin.ParseTags | src/pages/Blog/BlogListPage.tsx:433-434 | Typed text gives one tag per comma-separated piece, each trimmed |
| BlogAdmin.SetTags | src/pages/Blog/BlogListPage.tsx:433-434 | Typing into the tag field stores the parsed tags in the draft and changes nothing else in it |
| BlogAdmin.TagsRoundTrip | src/pages/Blog/BlogListPage.tsx:433-434 | Showing a non-empty list of clean tags and reading the field back gives the same tags |
| BlogAdmin.EmptyTagsReadBackAsOneEmptyTag | src/pages/Blog/BlogListPage.tsx:433-434 | An empty tag list shows as "" and reads back as one empty tag |
| NewImage.Initial | src/pages/admin/Gallery/NewImagePage.tsx:20-33 | The form starts with empty src, title and category and no previews |
| NewImage.Drop | src/pages/admin/Gallery/NewImagePage.tsx:37-42 | One preview per dropped file is appended, in order, and src becomes the file names joined with ", " |
| NewImage.EmptyDropClearsSrc | src/pages/admin/Gallery/NewImagePage.tsx:41 | Dropping nothing clears src and adds no preview |
| NewImage.InputChange | src/pages/admin/Gallery/NewImagePage.tsx:46-56 | Only the named field changes |
| NewImage.RemoveImage | src/pages/admin/Gallery/NewImagePage.tsx:63-65 | Exactly the preview at the index goes; the others keep their order |
| NewImage.DropThenRemoveRestores | src/pages/admin/Gallery/NewImagePage.tsx:37-65 | Dropping one file and removing its preview restores the previews |
| ServicesCarousel.Next | src/components/AboutUsSection/ServicesSection.tsx:41-45 | The last index wraps to 0 and any other steps up, as the hero slider's forward target |
| ServicesCarousel.Prev | src/components/AboutUsSection/ServicesSection.tsx:47-51 | Index 0 wraps to the last index and any other steps down |
| ServicesCarousel.NextPrevInverse | src/components/AboutUsSection/ServicesSection.tsx:41-51 | Next then previous, and previous then next, return to the start |
| ServicesCarousel.Clicks | src/components/AboutUsSection/ServicesSection.tsx:15-51 | Any sequence of clicks keeps the index in range |
| ServicesCarousel.ForwardClicks | src/components/AboutUsSection/ServicesSection.tsx:41-45 | k forward clicks, k at most n, advance by k and wrap at most once |
| ServicesCarousel.FullTurn | src/components/AboutUsSection/ServicesSection.tsx:41-45 | n forward clicks come back to the start |
| ServicesCarousel.ActiveClasses | src/components/AboutUsSection/ServicesSection.tsx:85-86 | Exactly the item at the active index carries the active class |
| Header.Initial | src/layouts/landing-layout/Header/Header.tsx:7-9 | The menu starts collapsed, and it is mobile iff the width is at most 768 |
| Header.Toggle | src/layouts/landing-layout/Header/Header.tsx:12 | The toggle flips the collapsed state |
| Header.ToggleTwice | src/layouts/landing-layout/Header/Header.tsx:12 | Toggling twice restores the header |
| Header.LinkClick | src/layouts/landing-layout/Header/Header.tsx:49-51 | A link click always collapses the menu |
| Header.MouseDown | src/layouts/landing-layout/Header/Header.tsx:28-32 | A click outside the menu collapses it; inside, nothing changes |
| Header.Resize | src/layouts/landing-layout/Header/Header.tsx:34-36 | A resize recomputes the mobile flag from the width |
| Header.IsActive | src/layouts/landing-layout/Header/Header.tsx:14-17 | No contract of its own: a link is active iff the cleaned path equals the cleaned href; Header.HomeActive, NavLinkActiveOnItsPath, PageFileHrefActive and AtMostOneNavLinkActive state what it decides |
| Header.ShowsActive | src/layouts/landing-layout/Header/Header.tsx:98 | No contract of its own: the class needs desktop and an active link; Header.NoActiveClassOnMobile states the mobile case |
| Header.CleanHref | src/layouts/landing-layout/Header/Header.tsx:15 | A leading "./" and a trailing ".html" are each removed on their own: both, only the prefix, only the suffix, or neither is stripped as the href has them |
| Header.CleanPath | src/layouts/landing-layout/Header/Header.tsx:16 | One leading and one trailing "/" are each removed on their own: "/" becomes "", "/about" becomes "about", "about/" becomes "about", "/about/" becomes "about", and a path with neither is kept |
| Header.PlainHref | src/layouts/landing-layout/Header/Header.tsx:15 | An href without a dot is its own cleaned form |
| Header.HomeActive | src/layouts/landing-layout/Header/Header.tsx:14-17 | The home link matches "/" |
| Header.SlashedPath | src/layouts/landing-layout/Header/Header.tsx:16 | A path with or without a trailing slash cleans to its word |
| Header.NavLinkActiveOnItsPath | src/layouts/landing-layout/Header/Header.tsx:14-17 | Every landing link but home is active on its own path "/p", and on "/p/" too |
| Header.PageFileHrefActive | src/layouts/landing-layout/Header/Header.tsx:15 | "./about.html" matches "/about" |
| Header.NoActiveClassOnMobile | src/layouts/landing-layout/Header/Header.tsx:98 | On mobile no link carries the active class |
| Header.AtMostOneNavLinkActive | src/layouts/landing-layout/Header/Header.tsx:97-98 | For any path at most one landing link is active |
| Header.NavHrefClean | src/layouts/landing-layout/Header/Header.tsx:97 | Every landing link's path is already clean |
| Header.NavPathsDistinct | src/layouts/landing-layout/Header/Header.tsx:97 | The five landing paths are pairwise distinct |
| ContactCta.EmptyForm | src/components/ServicesSection/ContactCTA.tsx:28-36 | Name, email, message, phone and subject start empty, with no uploaded file |
| ContactCta.NestedKey | src/components/ServicesSection/ContactCTA.tsx:89-98 | A name addresses the text after its first "[" up to the next bracket; a name without "[" addresses nothing, and a dzOther[ name always addresses something |
| ContactCta.NestedKeyOfBracketed | src/components/ServicesSection/ContactCTA.tsx:89-98 | pre[key]tail addresses key when no "[" precedes it and it holds no bracket |
| ContactCta.NestedKeyExample | src/components/ServicesSection/ContactCTA.tsx:92-94 | dzOther[Phone] addresses "Phone" |
| ContactCta.HandleChange | src/components/ServicesSection/ContactCTA.tsx:101-145 | A file input stores the file name, or "", under its nested key. A nested text input updates its nested key. Any other input and the textarea update the top-level key. Nothing else changes |
| ContactCta.ChangeThenRead | src/components/ServicesSection/ContactCTA.tsx:89-137 | Typing into a field and reading it back gives what was typed |
| ContactCta.FieldValue | src/components/ServicesSection/ContactCTA.tsx:89-98 | No contract of its own: a nested name reads the dzOther key, any other name the top level, a missing key ""; ContactCta.ChangeThenRead states what it reads back |
| ContactCta.ChangeLeavesOtherKeys | src/components/ServicesSection/ContactCTA.tsx:132-136 | A top-level change leaves every other top-level field as it was |
| ContactCta.PayloadOf | src/components/ServicesSection/ContactCTA.tsx:187-197 | The payload carries "Contact" and the form's fields; the upload defaults to "" |
| ContactCta.SubmitStart | src/components/ServicesSection/ContactCTA.tsx:182-183 | A submit sets the submitting flag and clears the status |
| ContactCta.SubmitFinish | src/components/ServicesSection/ContactCTA.tsx:208-232 | An ok response clears the form and reports success. Any other outcome keeps the fields and reports the error. The submitting flag is off afterwards |
| ContactCta.SuccessDropsUpload | src/components/ServicesSection/ContactCTA.tsx:212-218 | After a success the uploaded file name is gone from the next payload |
| BlogHome.DatePartsOf | src/components/content/blog.tsx:113-114 | The day is the text before the first space. The month exists iff the date has a space, and is the text after it up to the next space |
| BlogHome.DatePartsOfWords | src/components/content/blog.tsx:113-114 | "day month year" shows its day and month |
| BlogHome.Extended | src/components/content/blog.tsx:52-54 | Up to three posts are shown three times over; more are shown once; the cards are always the posts |
| BlogHome.ExtendedCycles | src/components/content/blog.tsx:53 | Card i of a short list is post i mod n |
| BlogDetails.Find | src/pages/landing/BlogDetailsPage.tsx:87-90 | The first article with the route's id, or none when no article has it or the route gives no id |
| BlogDetails.FindUnique | src/pages/landing/BlogDetailsPage.tsx:88 | With unique ids, looking up an article's id finds that article |
| BlogDetails.Initial | src/pages/landing/BlogDetailsPage.tsx:85 | The page starts with no article |
| BlogDetails.OnRoute | src/pages/landing/BlogDetailsPage.tsx:87-94 | A route change shows the article found, which comes from the list |
| BlogDetails.RecentLinks | src/pages/landing/BlogDetailsPage.tsx:143-149 | One link per article at /blog/id with its title, active iff its id is the shown article's |
| BlogDetails.OneActiveLink | src/pages/landing/BlogDetailsPage.tsx:145 | With unique ids, exactly the shown article's link is active |
| BlogDetails.TagCloud | src/pages/landing/BlogDetailsPage.tsx:155 | Every tag of every article once and nothing else, ordered by where each tag first appears among the articles' tags |
| BlogDetails.TagCloudOfOne | src/pages/landing/BlogDetailsPage.tsx:155 | A single article's distinct tags appear unchanged and in order |
| BlogDetails.DateHeader | src/pages/landing/BlogDetailsPage.tsx:116-117 | No contract of its own: the header shows BlogHome.DatePartsOf of the date; BlogDetails.DateHeaderOfWords states the result for a "day month year" date |
| BlogDetails.DateHeaderOfWords | src/pages/landing/BlogDetailsPage.tsx:116-117 | An article dated "day month year" shows its day in bold and its month beside it |
| WhoAreWe.SentencePiece | src/components/AboutUsSection/WhoAreWe.tsx:64-74 | A sentence is highlighted iff it names the company. The bold name follows the text before the first mention, and the text after it holds no further mention. The rendered text is a prefix of the sentence, and what the render drops is empty or starts with a second mention |
| WhoAreWe.SplitPrefix | src/components/AboutUsSection/WhoAreWe.tsx:64-74 | A sentence naming the company starts with its first two split pieces joined by the name; the second piece has no mention, and the rest of the sentence is empty or starts with the name |
| WhoAreWe.SingleBrandKeepsText | src/components/AboutUsSection/WhoAreWe.tsx:64-74 | A sentence that names the company at most once renders in full |
| WhoAreWe.SecondBrandDropsText | src/components/AboutUsSection/WhoAreWe.tsx:66-70 | A sentence that names the company twice renders shorter than itself |
| WhoAreWe.SecondBrandExample | src/components/AboutUsSection/WhoAreWe.tsx:66-70 | "SOMATRAP et SOMATRAP encore" does not render in full |
| WhoAreWe.Lines | src/components/AboutUsSection/WhoAreWe.tsx:62-75 | One line per sentence, with ". " after every line but the last |
| WhoAreWe.LinesJoin | src/components/AboutUsSection/WhoAreWe.tsx:64-75 | When no sentence names the company twice, the lines read in order are the sentences joined with ". " |
| WhoAreWe.Paragraph | src/components/AboutUsSection/WhoAreWe.tsx:62 | There is one line more than the description has ". " separators |
| WhoAreWe.ParagraphKeepsDescription | src/components/AboutUsSection/WhoAreWe.tsx:62-75 | The lines read in order give back the description, when no sentence names the company twice |

## Findings

| source | as written | input that shows it | evidently intended | confidence | as-written member | corrected member |
|---|---|---|---|---|---|---|
| src/pages/admin/Gallery/PortfolioListPage.tsx:134 | `Math.max(...ids) + 1`; the same line is at ProductsListPage.tsx:184, PartnersPage.tsx:141 and TestimonialsPage.tsx:104 | delete every record, then add two: `Math.max()` is `-Infinity`, so both new records get the id `-Infinity` and an edit or delete of one hits both | 1 for an empty list, otherwise the largest id plus 1 | medium, not executed | Records.EmptyListIdsCollide | Records.NextId |

## Left out

- Three.js, WebGL and the GLSL shader's colour blending are not modelled: they are floating-point rendering. GSAP easing and tween timing, `requestAnimationFrame` and window resizing are left out too. The tween is a `Running` timeline that completes on an explicit event.
- Asynchronous texture loading is left out. Each load is looked up in the `net` parameter, and a start, its loads and its uniform writes happen in one step. In the source, a click first installs a fresh, empty `gsap.timeline()` and then awaits the loads (HeroSlider.tsx:523-526). An empty timeline is not active, so a second click during that wait passes the guard. It kills the first timeline and starts a second transition, and the first call's late uniform writes can land on top of the second's. This window is not represented.
- HeroSlider.ClickIgnoredWhileRunning holds only for the modelled `Running` state, the tween itself. During the load window described above, the source accepts the click.
- React closure timing is not modelled. `animateNext` reads the `currentIndex` captured when `startAutoplay` was created, so the source can compute the autoplay target from a stale index. The model reads the current index.
- HeroSlider.Init: texture disposal at unmount and WebGL context loss are not modelled; only the bookkeeping of the texture list and the cache is.
- HeroSlider.SlideEffectOf: NaN is not modelled; numbers are `real`.
- The network submit of the contact form and `fetch` in general are replaced by an `Outcome` parameter.
- `FileReader`, `URL.createObjectURL` and image compression on a canvas are left out. Their results are parameters: a data URL, or `None` when compression fails.
- `Date.now()` for blog ids and today's date for a new post are parameters.
- HeroSlider.Caption requires `Valid`, hence a non-empty slide list. The source's render reads `slides[currentIndex].title` with no guard, so an empty list throws during the first render, before the init effect could run; the model does not represent a render that throws.
- PartnersAdmin.NewId: ids are arbitrary integers, so "at least 1" is stated only when some id is absent or non-negative.
- SliderAdmin.Upload: the `FileReader` callback that stores the data URL runs after the `finally` has cleared the upload flag. The model folds that callback into UploadEnd, so the short window with the flag clear and the preview not yet set is not represented.
- SliderAdmin.ConfirmDelete requires the edit dialog to be closed. The dialogs are modal, so a delete cannot be confirmed while a slide is being edited.
- SliderAdmin.Valid excludes an edit index outside the list. In JavaScript such an index would leave a hole in the array.
- BlogAdmin.NewPost: a field absent from the draft becomes "" or the empty tag list. JavaScript would store `undefined`.
- ContactCta.HandleChange: a top-level input named "dzOther" would overwrite the nested object with a string. The form has no such field, so the model keeps the two maps apart.
- ContactCta.FieldValue carries no contract of its own; ContactCta.ChangeThenRead states what it reads.
- Static content, animation-only sections, routing and layouts hold no stateable logic beyond field copies, and are not modelled.

=== FILE: blog_admin.dfy ===
/** The admin blog list (src/pages/Blog/BlogListPage.tsx): a dialog in
    view, edit or add mode over a partial draft, delete by id, the save
    that appends or merges, and the comma-separated tag field. The clock
    (`Date.now()` for ids, today's date for new drafts) is a parameter. */
module BlogAdmin {
  import opened Wrappers
  import Records
  import Text

  datatype Post = Post(
    id: string,
    date: string,
    author: string,
    title: string,
    description: string,
    content: string,
    image: string,
    tags: seq<string>)

  /** `Partial<BlogPost>`: every field may be absent. */
  datatype Draft = Draft(
    id: Option<string>,
    date: Option<string>,
    author: Option<string>,
    title: Option<string>,
    description: Option<string>,
    content: Option<string>,
    image: Option<string>,
    tags: Option<seq<string>>)

  datatype Mode = ViewMode | EditMode | AddMode

  datatype Field = Date | Author | Title | Description | Content | Image

  datatype Page = Page(blogs: seq<Post>, selected: Option<Post>, dialogOpen: bool, mode: Mode, edited: Draft)

  const EmptyDraft := Draft(None, None, None, None, None, None, None, None)

  function PostId(b: Post): string { b.id }

  /** A whole post as a draft: every field present. */
  function DraftOf(b: Post): (d: Draft)
    ensures Merge(Post("", "", "", "", "", "", "", []), d) == b
  {
    Draft(Some(b.id), Some(b.date), Some(b.author), Some(b.title), Some(b.description), Some(b.content), Some(b.image), Some(b.tags))
  }

  /** `{ ...item, ...editedBlog }`: present draft fields win, absent ones
      keep the post's value. */
  function Merge(b: Post, d: Draft): (r: Post)
    ensures d == EmptyDraft ==> r == b
    ensures d.title.None? ==> r.title == b.title
    ensures d.title.Some? ==> r.title == d.title.value
    ensures d.tags.None? ==> r.tags == b.tags
    ensures d.tags.Some? ==> r.tags == d.tags.value
    ensures d.id.None? ==> r.id == b.id
    ensures d.id.Some? ==> r.id == d.id.value
    ensures d.date.None? ==> r.date == b.date
    ensures d.date.Some? ==> r.date == d.date.value
    ensures d.author.None? ==> r.author == b.author
    ensures d.author.Some? ==> r.author == d.author.value
    ensures d.description.None? ==> r.description == b.description
    ensures d.description.Some? ==> r.description == d.description.value
    ensures d.content.None? ==> r.content == b.content
    ensures d.content.Some? ==> r.content == d.content.value
    ensures d.image.None? ==> r.image == b.image
    ensures d.image.Some? ==> r.image == d.image.value
  {
    Post(d.id.GetOr(b.id), d.date.GetOr(b.date), d.author.GetOr(b.author), d.title.GetOr(b.title),
         d.description.GetOr(b.description), d.content.GetOr(b.content), d.image.GetOr(b.image), d.tags.GetOr(b.tags))
  }

  /** Merging a whole draft replaces the post entirely. */
  lemma MergeWholeDraft(b: Post, c: Post)
    ensures Merge(b, DraftOf(c)) == c
  {
  }

  function ViewDetails(p: Page, b: Post): (r: Page)
    ensures r.selected == Some(b) && r.mode == ViewMode && r.dialogOpen && r.blogs == p.blogs
  {
    p.(selected := Some(b), mode := ViewMode, dialogOpen := true)
  }

  function EditClick(p: Page, b: Post): (r: Page)
    ensures r.selected == Some(b) && r.edited == DraftOf(b) && r.mode == EditMode && r.dialogOpen && r.blogs == p.blogs
  {
    p.(selected := Some(b), edited := DraftOf(b), mode := EditMode, dialogOpen := true)
  }

  /** `handleAdd`: a new draft holds only today's date and no tags. */
  function AddClick(p: Page, today: string): (r: Page)
    ensures r.selected.None? && r.mode == AddMode && r.dialogOpen && r.blogs == p.blogs
    ensures r.edited == EmptyDraft.(date := Some(today), tags := Some([]))
  {
    p.(selected := None, edited := EmptyDraft.(date := Some(today), tags := Some([])), mode := AddMode, dialogOpen := true)
  }

  function Delete(p: Page, id: string): (r: Page)
    ensures forall b :: b in r.blogs <==> b in p.blogs && b.id != id
    ensures r.blogs == Records.RemoveWhere(p.blogs, PostId, id)
    ensures r.selected == p.selected && r.mode == p.mode && r.edited == p.edited && r.dialogOpen == p.dialogOpen
  {
    p.(blogs := Records.RemoveWhere(p.blogs, PostId, id))
  }

  /** The post an add creates: the draft over a fresh id from the clock. A
      field the draft lacks is empty. */
  function NewPost(d: Draft, now: string): (r: Post)
    ensures d.id.None? ==> r.id == now
    ensures r == Merge(Post(now, "", "", "", "", "", "", []), d)
  {
    Post(d.id.GetOr(now), d.date.GetOr(""), d.author.GetOr(""), d.title.GetOr(""),
         d.description.GetOr(""), d.content.GetOr(""), d.image.GetOr(""), d.tags.GetOr([]))
  }

  /** `handleSave`: add appends one post, edit merges the draft over every
      post with the selected id, view changes nothing; the dialog closes. */
  function Save(p: Page, now: string): (r: Page)
    ensures !r.dialogOpen
    ensures p.mode == AddMode ==> r.blogs == p.blogs + [NewPost(p.edited, now)]
    ensures p.mode == EditMode && p.selected.Some? ==>
              && |r.blogs| == |p.blogs|
              && (forall i :: 0 <= i < |p.blogs| ==>
                    r.blogs[i] == if p.blogs[i].id == p.selected.value.id then Merge(p.blogs[i], p.edited) else p.blogs[i])
    ensures p.mode == ViewMode || (p.mode == EditMode && p.selected.None?) ==> r == p.(dialogOpen := false)
  {
    var blogs :=
      if p.mode == AddMode then p.blogs + [NewPost(p.edited, now)]
      else if p.mode == EditMode && p.selected.Some? then
        Records.UpdateWhere(p.blogs, PostId, p.selected.value.id, (b: Post) => Merge(b, p.edited))
      else p.blogs;
    p.(blogs := blogs, dialogOpen := false)
  }

  /** Opening a post for edit and saving without changes leaves it as it was. */
  lemma EditWithoutChangesKeepsPost(p: Page, i: nat, now: string)
    requires i < |p.blogs|
    requires forall j :: 0 <= j < |p.blogs| && p.blogs[j].id == p.blogs[i].id ==> j == i
    ensures Save(EditClick(p, p.blogs[i]), now).blogs == p.blogs
  {
    var r := Save(EditClick(p, p.blogs[i]), now);
    forall j | 0 <= j < |p.blogs|
      ensures r.blogs[j] == p.blogs[j]
    {
      MergeWholeDraft(p.blogs[j], p.blogs[i]);
    }
  }

  function SetField(p: Page, field: Field, value: string): (r: Page)
    ensures r.blogs == p.blogs && r.mode == p.mode && r.selected == p.selected
    ensures field == Title ==> r.edited == p.edited.(title := Some(value))
    ensures field == Image ==> r.edited == p.edited.(image := Some(value))
    ensures field != Title ==> r.edited.title == p.edited.title
    ensures r.edited.tags == p.edited.tags && r.edited.id == p.edited.id
  {
    match field
    case Date => p.(edited := p.edited.(date := Some(value)))
    case Author => p.(edited := p.edited.(author := Some(value)))
    case Title => p.(edited := p.edited.(title := Some(value)))
    case Description => p.(edited := p.edited.(description := Some(value)))
    case Content => p.(edited := p.edited.(content := Some(value)))
    case Image => p.(edited := p.edited.(image := Some(value)))
  }

  // ---------------------------------------------------------------------
  // The tag field

  /** Tags are displayed joined with ", ". */
  function TagsText(tags: seq<string>): string {
    Text.Join(tags, ", ")
  }

  /** The tag field shown for a draft: its joined tags, or "" without any. */
  function TagField(d: Draft): (r: string)
    ensures d.tags.None? ==> r == ""
    ensures d.tags.Some? ==> r == TagsText(d.tags.value)
  {
    if d.tags.Some? then TagsText(d.tags.value) else ""
  }

  /** Typed text becomes tags by splitting on "," and trimming each piece. */
  function ParseTags(text: string): (r: seq<string>)
    ensures |r| == |Text.Split(text, ",")|
    ensures forall i :: 0 <= i < |r| ==> r[i] == Text.Trim(Text.Split(text, ",")[i])
  {
    var pieces := Text.Split(text, ",");
    seq(|pieces|, i requires 0 <= i < |pieces| => Text.Trim(pieces[i]))
  }

  function SetTags(p: Page, text: string): (r: Page)
    ensures r.edited == p.edited.(tags := Some(ParseTags(text)))
    ensures r.blogs == p.blogs && r.mode == p.mode
  {
    p.(edited := p.edited.(tags := Some(ParseTags(text))))
  }

  /** A tag the field can reproduce: no comma, no whitespace at either end. */
  predicate CleanTag(t: string) {
    ',' !in t && (t == "" || (!Text.IsWhitespace(t[0]) && !Text.IsWhitespace(t[|t| - 1])))
  }

  function Spaced(ts: seq<string>): (r: seq<string>)
    ensures |r| == |ts|
    ensures forall i :: 0 <= i < |ts| ==> r[i] == " " + ts[i]
  {
    seq(|ts|, i requires 0 <= i < |ts| => " " + ts[i])
  }

  lemma {:induction false} SpacedJoin(ts: seq<string>)
    requires |ts| >= 1
    ensures " " + Text.Join(ts, ", ") == Text.Join(Spaced(ts), ",")
  {
    if |ts| > 1 {
      SpacedJoin(ts[1..]);
      assert Spaced(ts)[1..] == Spaced(ts[1..]);
      assert " " + Text.Join(ts, ", ") == (" " + ts[0]) + "," + (" " + Text.Join(ts[1..], ", "));
    }
  }

  /** Joining with ", " is joining with "," after a space is put in front
      of every tag but the first. */
  lemma {:induction false} JoinAsCommaPieces(tags: seq<string>)
    requires |tags| >= 1
    ensures TagsText(tags) == Text.Join(CommaPieces(tags), ",")
  {
    var pieces := CommaPieces(tags);
    if |tags| > 1 {
      SpacedJoin(tags[1..]);
      assert pieces[1..] == Spaced(tags[1..]);
      assert TagsText(tags) == tags[0] + "," + (" " + Text.Join(tags[1..], ", "));
    }
  }

  /** Displaying a non-empty list of clean tags and reading the field back
      gives the same tags. */
  lemma {:induction false} TagsRoundTrip(tags: seq<string>)
    requires |tags| >= 1
    requires forall i :: 0 <= i < |tags| ==> CleanTag(tags[i])
    ensures ParseTags(TagsText(tags)) == tags
  {
    var pieces := CommaPieces(tags);
    JoinAsCommaPieces(tags);
    CommaPiecesFree(tags);
    Text.SplitJoin(pieces, ",");
    var r := ParseTags(TagsText(tags));
    forall i | 0 <= i < |tags|
      ensures r[i] == tags[i]
    {
      PieceTrimsToTag(tags, i);
    }
  }

  /** The comma-separated pieces of a displayed tag list. */
  function CommaPieces(tags: seq<string>): (r: seq<string>)
    requires |tags| >= 1
    ensures |r| == |tags|
    ensures r[0] == tags[0]
    ensures forall i :: 1 <= i < |tags| ==> r[i] == " " + tags[i]
  {
    [tags[0]] + Spaced(tags[1..])
  }

  lemma CommaPiecesFree(tags: seq<string>)
    requires |tags| >= 1
    requires forall i :: 0 <= i < |tags| ==> CleanTag(tags[i])
    ensures forall k :: 0 <= k < |tags| ==> Text.SepFree(CommaPieces(tags)[k], ",")
  {
    var pieces := CommaPieces(tags);
    forall k | 0 <= k < |pieces|
      ensures Text.SepFree(pieces[k], ",")
    {
      Text.SepFreeChar(pieces[k], ',');
    }
  }

  lemma PieceTrimsToTag(tags: seq<string>, i: nat)
    requires |tags| >= 1 && i < |tags| && CleanTag(tags[i])
    ensures Text.Trim(CommaPieces(tags)[i]) == tags[i]
  {
    Text.TrimNoEdges(tags[i]);
    if i > 0 {
      assert CommaPieces(tags)[i] == [' '] + tags[i];
      Text.TrimSkipsLeadingWhitespace(' ', tags[i]);
    }
  }

  /** An empty tag list shows as "" and reads back as one empty tag. */
  lemma EmptyTagsReadBackAsOneEmptyTag()
    ensures TagsText([]) == ""
    ensures ParseTags(TagsText([])) == [""]
  {
    assert Text.Split("", ",") == [""];
  }
}

=== FILE: blog_details.dfy ===
/** The article page (src/pages/landing/BlogDetailsPage.tsx): the article
    named by the route parameter, the recent-articles list with the current
    one marked, and the tag cloud of all articles. */
module BlogDetails {
  import opened Wrappers
  import Seqs
  import BlogHome

  datatype Article = Article(
    id: string,
    date: string,
    author: string,
    title: string,
    description: string,
    content: string,
    image: string,
    tags: seq<string>)

  /** A line of the recent-articles list. */
  datatype RecentLink = RecentLink(href: string, title: string, active: bool)

  /** `blogPosts.find(p => p.id === id) || null`: the first article with the
      route's id; an absent route parameter matches nothing. */
  function Find(articles: seq<Article>, id: Option<string>): (r: Option<Article>)
    ensures r.None? <==> id.None? || forall i :: 0 <= i < |articles| ==> articles[i].id != id.value
    ensures r.Some? ==> id.Some? && r.value.id == id.value &&
                        exists i :: 0 <= i < |articles| && articles[i] == r.value &&
                                    forall j :: 0 <= j < i ==> articles[j].id != id.value
  {
    if id.None? || articles == [] then None
    else if articles[0].id == id.value then
      Some(articles[0])
    else
      var r := Find(articles[1..], id);
      assert forall i :: 1 <= i < |articles| ==> articles[i] == articles[1..][i - 1];
      if r.Some? then
        var k :| 0 <= k < |articles[1..]| && articles[1..][k] == r.value &&
                 forall j :: 0 <= j < k ==> articles[1..][j].id != id.value;
        assert articles[k + 1] == r.value;
        r
      else r
  }

  /** When ids are unique, the article found is the one carrying the id. */
  lemma FindUnique(articles: seq<Article>, k: nat)
    requires k < |articles|
    requires forall i, j :: 0 <= i < j < |articles| ==> articles[i].id != articles[j].id
    ensures Find(articles, Some(articles[k].id)) == Some(articles[k])
  {
    var r := Find(articles, Some(articles[k].id));
    var i :| 0 <= i < |articles| && articles[i] == r.value &&
             forall j :: 0 <= j < i ==> articles[j].id != articles[k].id;
    assert i == k;
  }

  /** The page: "Article non trouvé" until an article is found. */
  datatype Page = Page(post: Option<Article>)

  function Initial(): (p: Page)
    ensures p.post.None?
  {
    Page(None)
  }

  /** The effect that runs whenever the route parameter changes. */
  function OnRoute(p: Page, articles: seq<Article>, id: Option<string>): (r: Page)
    ensures r.post == Find(articles, id)
    ensures r.post.Some? ==> r.post.value in articles
  {
    Page(Find(articles, id))
  }

  /** The recent-articles list: every article, linked at `/blog/<id>`,
      marked active when its id is the shown article's id. */
  function RecentLinks(articles: seq<Article>, shown: Article): (r: seq<RecentLink>)
    ensures |r| == |articles|
    ensures forall i :: 0 <= i < |r| ==>
              && r[i].href == "/blog/" + articles[i].id
              && r[i].title == articles[i].title
              && (r[i].active <==> articles[i].id == shown.id)
  {
    seq(|articles|, i requires 0 <= i < |articles| =>
      RecentLink("/blog/" + articles[i].id, articles[i].title, articles[i].id == shown.id))
  }

  /** With unique ids, the shown article is the one active line. */
  lemma OneActiveLink(articles: seq<Article>, k: nat)
    requires k < |articles|
    requires forall i, j :: 0 <= i < j < |articles| ==> articles[i].id != articles[j].id
    ensures var r := RecentLinks(articles, articles[k]);
            r[k].active && forall i :: 0 <= i < |r| && i != k ==> !r[i].active
  {
    var r := RecentLinks(articles, articles[k]);
    forall i | 0 <= i < |r| && i != k ensures !r[i].active {
      if i < k {
        assert articles[i].id != articles[k].id;
      } else {
        assert articles[k].id != articles[i].id;
      }
    }
  }

  /** `blogPosts.flatMap(p => p.tags)`: every article's tags, article by
      article. */
  function AllTags(articles: seq<Article>): seq<string> {
    Seqs.FlatMap(articles, (a: Article) => a.tags)
  }

  /** `Array.from(new Set(blogPosts.flatMap(p => p.tags)))`: each tag once,
      ordered by where it first appears among the articles' tags. */
  function TagCloud(articles: seq<Article>): (r: seq<string>)
    ensures Seqs.NoDuplicates(r)
    ensures forall t :: t in r <==> exists i :: 0 <= i < |articles| && t in articles[i].tags
    ensures forall t :: t in r <==> t in AllTags(articles)
    ensures forall i, j :: 0 <= i < j < |r| ==>
              Seqs.FirstIndex(AllTags(articles), r[i]) < Seqs.FirstIndex(AllTags(articles), r[j])
  {
    Seqs.Distinct(AllTags(articles))
  }

  /** A single article whose tags are already distinct shows them unchanged,
      in order. */
  lemma {:induction false} TagCloudOfOne(a: Article)
    requires Seqs.NoDuplicates(a.tags)
    ensures TagCloud([a]) == a.tags
  {
    assert [a][1..] == [];
    assert AllTags([a]) == a.tags + AllTags([]);
    assert a.tags + [] == a.tags;
    Seqs.DistinctKeepsDistinct(a.tags);
  }

  /** The date block of the article header: the first word of the date in
      bold, the second beside it. */
  function DateHeader(a: Article): BlogHome.DateParts {
    BlogHome.DatePartsOf(a.date)
  }

  /** For a date written as three space-free words, the header shows the
      day and the month. */
  lemma DateHeaderOfWords(a: Article, day: string, month: string, year: string)
    requires a.date == day + " " + month + " " + year
    requires ' ' !in day && ' ' !in month && ' ' !in year
    ensures DateHeader(a) == BlogHome.DateParts(day, Some(month))
  {
    BlogHome.DatePartsOfWords(day, month, year);
  }
}

=== FILE: blog_home.dfy ===
/** The "Latest blog post" carousel of the home page
    (src/components/content/blog.tsx): a short list is repeated so the
    looping carousel has enough cards, and each card shows the day and
    month tokens of its date. */
module BlogHome {
  import opened Wrappers
  import Text

  datatype Card = Card(id: string, date: string, author: string, title: string, description: string, image: string, link: string)

  /** The day and month shown on a card: the first two space-separated
      tokens of the date. A date without a space has no second token
      (JavaScript gives `undefined`, which renders nothing). */
  datatype DateParts = DateParts(day: string, month: Option<string>)

  function DatePartsOf(date: string): (r: DateParts)
    ensures r.day <= date && ' ' !in r.day
    ensures |r.day| < |date| ==> date[|r.day|] == ' '
    ensures r.month.Some? <==> ' ' in date
    ensures r.month.Some? ==>
              && |r.day| < |date|
              && var rest := date[|r.day| + 1..];
                 r.month.value <= rest && ' ' !in r.month.value
                 && (|r.month.value| < |rest| ==> rest[|r.month.value|] == ' ')
  {
    Text.SplitOnChar(date, ' ');
    var parts := Text.Split(date, " ");
    if |parts| < 2 then DateParts(parts[0], None)
    else
      Text.SplitOnChar(date[|parts[0]| + 1..], ' ');
      DateParts(parts[0], Some(parts[1]))
  }

  /** A date written "day month year" with space-free tokens shows its
      day and month. */
  lemma {:induction false} DatePartsOfWords(day: string, month: string, year: string)
    requires ' ' !in day && ' ' !in month && ' ' !in year
    ensures DatePartsOf(day + " " + month + " " + year) == DateParts(day, Some(month))
  {
    var parts := [day, month, year];
    Text.SepFreeChar(day, ' ');
    Text.SepFreeChar(month, ' ');
    Text.SepFreeChar(year, ' ');
    assert Text.Join(parts, " ") == day + " " + month + " " + year by {
      assert Text.Join([year], " ") == year;
      assert Text.Join([month, year], " ") == month + " " + year by {
        assert [month, year][1..] == [year];
      }
      assert parts[1..] == [month, year];
    }
    Text.SplitJoin(parts, " ");
  }

  /** `posts.length <= 3 ? [...posts, ...posts, ...posts].slice(0,
      Math.max(3, posts.length * 3)) : posts`: the slice never cuts, so a
      short list is shown three times over. */
  function Extended(posts: seq<Card>): (r: seq<Card>)
    ensures |posts| <= 3 ==> r == posts + posts + posts
    ensures |posts| > 3 ==> r == posts
    ensures forall c :: c in r <==> c in posts
  {
    var n := |posts|;
    if n <= 3 then
      var tripled := posts + posts + posts;
      var limit := if 3 < n * 3 then n * 3 else 3;
      if limit <= |tripled| then tripled[..limit] else tripled
    else posts
  }

  /** In a short list's carousel, card `i` is post `i mod n`. */
  lemma {:induction false} ExtendedCycles(posts: seq<Card>, i: nat)
    requires |posts| <= 3 && i < |Extended(posts)|
    ensures Extended(posts)[i] == posts[i % |posts|]
  {
    var n := |posts|;
    if i < n {
      assert i % n == i;
    } else if i < 2 * n {
      assert (i - n) % n == i - n;
      assert i % n == i - n;
    } else {
      assert (i - 2 * n) % n == i - 2 * n;
      assert i % n == i - 2 * n;
    }
  }
}

=== FILE: contact_cta.dfy ===
/** The contact form of the services page
    (src/components/ServicesSection/ContactCTA.tsx): top-level fields and
    the nested `dzOther` fields addressed by names such as
    `dzOther[Phone]`, the JSON payload, and the submit status. The network
    round trip is a parameter: its outcome. */
module ContactCta {
  import opened Wrappers
  import Seqs
  import Text

  datatype Form = Form(top: map<string, string>, other: map<string, string>)

  /** What fired the change handler. */
  datatype Input =
    | TextInput(name: string, value: string)
    | FileInput(name: string, fileName: Option<string>)
    | TextArea(name: string, value: string)

  datatype Payload = Payload(
    toDo: string,
    name: string,
    email: string,
    phone: string,
    subject: string,
    uploadFile: string,
    message: string)

  datatype Outcome = ResponseOk | ResponseNotOk | RequestThrew

  datatype Cta = Cta(form: Form, submitting: bool, status: string)

  const NestedPrefix := "dzOther["
  const SuccessStatus := "Votre message a été envoyé avec succès !"
  const ErrorStatus := "Une erreur s'est produite lors de l'envoi de votre message. Veuillez réessayer."

  function EmptyForm(): (f: Form)
    ensures Valid(f)
    ensures forall k :: k in f.top ==> f.top[k] == ""
    ensures forall k :: k in f.other ==> f.other[k] == ""
    ensures "UploadFile" !in f.other
  {
    Form(map["dzName" := "", "dzEmail" := "", "dzMessage" := ""], map["Phone" := "", "Subject" := ""])
  }

  /** The fields the payload reads are always present. */
  ghost predicate Valid(f: Form) {
    "dzName" in f.top && "dzEmail" in f.top && "dzMessage" in f.top && "Phone" in f.other && "Subject" in f.other
  }

  /** `name.split("[")[1].split("]")[0]`: the text after the first "[" up
      to the next "[" or "]". Without a "[" the expression throws, which
      is None here. */
  function NestedKey(name: string): (r: Option<string>)
    ensures r.None? <==> '[' !in name
    ensures Text.StartsWith(name, NestedPrefix) ==> r.Some?
    ensures r.Some? ==>
              var b := Seqs.FirstIndex(name, '[');
              var rest := name[b + 1..];
              && r.value <= rest
              && '[' !in r.value && ']' !in r.value
              && (|r.value| < |rest| ==> rest[|r.value|] == '[' || rest[|r.value|] == ']')
  {
    assert Text.StartsWith(name, NestedPrefix) ==> name[7] == '[';
    Text.SplitOnChar(name, '[');
    var parts := Text.Split(name, "[");
    if |parts| < 2 then None
    else
      var b := |parts[0]|;
      assert Seqs.FirstIndex(name, '[') == b by {
        assert forall j :: 0 <= j < b ==> name[j] == parts[0][j];
      }
      var rest := name[b + 1..];
      Text.SplitOnChar(rest, '[');
      var inner := parts[1];
      assert inner <= rest && '[' !in inner && (|inner| < |rest| ==> rest[|inner|] == '[');
      Text.SplitOnChar(inner, ']');
      Some(Text.Split(inner, "]")[0])
  }

  /** A name written `pre[key]tail`, with no "[" before the key and no
      bracket inside it, addresses `key`. */
  lemma {:induction false} NestedKeyOfBracketed(pre: string, key: string, tail: string)
    requires '[' !in pre && '[' !in key && ']' !in key
    ensures NestedKey(pre + "[" + key + "]" + tail) == Some(key)
  {
    var name := pre + "[" + key + "]" + tail;
    assert name[|pre|] == '[';
    assert forall j :: 0 <= j < |pre| ==> name[j] == pre[j];
    var b := Seqs.FirstIndex(name, '[');
    assert b == |pre|;
    var rest := name[b + 1..];
    assert rest == key + "]" + tail;
    var k := NestedKey(name).value;
    assert rest[|key|] == ']';
    assert forall i :: 0 <= i < |key| ==> rest[i] == key[i];
    assert forall i :: 0 <= i < |k| ==> k[i] == rest[i];
    if |k| < |key| {
      assert false;
    } else if |k| > |key| {
      assert false;
    }
    assert k == rest[..|key|] == key;
  }

  /** `dzOther[Phone]` addresses the nested key "Phone". */
  lemma NestedKeyExample()
    ensures NestedKey("dzOther[Phone]") == Some("Phone")
  {
    assert "dzOther[Phone]" == "dzOther" + "[" + "Phone" + "]" + "";
    NestedKeyOfBracketed("dzOther", "Phone", "");
  }

  /** `getFieldValue`: a nested name reads `dzOther`, any other name reads
      the top level; a missing key reads as "". */
  function FieldValue(f: Form, name: string): string {
    if Text.StartsWith(name, NestedPrefix) then
      match NestedKey(name)
      case Some(k) => if k in f.other then f.other[k] else ""
      case None => ""
    else if name in f.top then f.top[name] else ""
  }

  /** `handleChange`: a file input stores the chosen file's name (or "")
      under its nested key; a text input with a nested name updates that
      nested key; any other text input and the textarea update the
      top-level key. A file input whose name has no "[" throws and changes
      nothing. */
  function HandleChange(f: Form, input: Input): (r: Form)
    ensures Valid(f) ==> Valid(r)
    ensures input.FileInput? ==>
              && r.top == f.top
              && (NestedKey(input.name).Some? ==> r.other == f.other[NestedKey(input.name).value := input.fileName.GetOr("")])
              && (NestedKey(input.name).None? ==> r == f)
    ensures input.TextInput? && Text.StartsWith(input.name, NestedPrefix) ==>
              r.top == f.top && r.other == f.other[NestedKey(input.name).value := input.value]
    ensures input.TextInput? && !Text.StartsWith(input.name, NestedPrefix) ==>
              r.other == f.other && r.top == f.top[input.name := input.value]
    ensures input.TextArea? ==> r.other == f.other && r.top == f.top[input.name := input.value]
  {
    match input
    case FileInput(name, fileName) =>
      (match NestedKey(name)
       case Some(k) => f.(other := f.other[k := fileName.GetOr("")])
       case None => f)
    case TextInput(name, value) =>
      if Text.StartsWith(name, NestedPrefix) then
        f.(other := f.other[NestedKey(name).value := value])
      else f.(top := f.top[name := value])
    case TextArea(name, value) => f.(top := f.top[name := value])
  }

  /** Typing into a text field and reading that field back gives what was
      typed, whether the name is nested or not. */
  lemma ChangeThenRead(f: Form, name: string, value: string)
    ensures FieldValue(HandleChange(f, TextInput(name, value)), name) == value
  {
  }

  /** Only the addressed key changes. */
  lemma ChangeLeavesOtherKeys(f: Form, name: string, value: string, other: string)
    requires !Text.StartsWith(name, NestedPrefix) && !Text.StartsWith(other, NestedPrefix) && other != name
    ensures FieldValue(HandleChange(f, TextInput(name, value)), other) == FieldValue(f, other)
  {
  }

  /** The body sent to the server. */
  function PayloadOf(f: Form): (p: Payload)
    requires Valid(f)
    ensures p.toDo == "Contact"
    ensures p.name == f.top["dzName"] && p.email == f.top["dzEmail"] && p.message == f.top["dzMessage"]
    ensures p.phone == f.other["Phone"] && p.subject == f.other["Subject"]
    ensures "UploadFile" !in f.other ==> p.uploadFile == ""
    ensures "UploadFile" in f.other ==> p.uploadFile == f.other["UploadFile"]
  {
    Payload("Contact", f.top["dzName"], f.top["dzEmail"], f.other["Phone"], f.other["Subject"],
            if "UploadFile" in f.other then f.other["UploadFile"] else "", f.top["dzMessage"])
  }

  /** The start of `handleSubmit`. */
  function SubmitStart(c: Cta): (r: Cta)
    ensures r.submitting && r.status == "" && r.form == c.form
  {
    c.(submitting := true, status := "")
  }

  /** The end of `handleSubmit`: an ok response clears the form and reports
      success; a failed response or a thrown request keeps the form and
      reports the error. Submitting is false in every case. */
  function SubmitFinish(c: Cta, outcome: Outcome): (r: Cta)
    ensures !r.submitting
    ensures outcome == ResponseOk ==> r.form == EmptyForm() && r.status == SuccessStatus
    ensures outcome != ResponseOk ==> r.form == c.form && r.status == ErrorStatus
  {
    if outcome == ResponseOk then Cta(EmptyForm(), false, SuccessStatus)
    else c.(submitting := false, status := ErrorStatus)
  }

  /** A successful submit clears even an uploaded file name. */
  lemma SuccessDropsUpload(c: Cta)
    ensures "UploadFile" !in SubmitFinish(SubmitStart(c), ResponseOk).form.other
    ensures PayloadOf(SubmitFinish(SubmitStart(c), ResponseOk).form).uploadFile == ""
  {
  }
}

=== FILE: devis_admin.dfy ===
/** The admin quote-request list (src/pages/admin/Devis/DevisListPage.tsx):
    details view, status update by id, delete by id and the project-type
    display rule. */
module DevisAdmin {
  import opened Wrappers
  import opened ReviewStatus
  import Records

  datatype Devis = Devis(
    id: int,
    firstName: string,
    lastName: string,
    phoneNumber: string,
    email: string,
    projectType: string,
    otherProjectType: Option<string>,
    estimateBudget: string,
    maxTimeProject: string,
    companyName: Option<string>,
    country: string,
    message: string,
    file: Option<string>,
    createdAt: string,
    status: Status)

  datatype Page = Page(devis: seq<Devis>, search: string, selected: Option<Devis>, dialogOpen: bool, newStatus: Status)

  const OtherProject := "autre"

  function DevisId(d: Devis): int { d.id }

  function Initial(devis: seq<Devis>): (p: Page)
    ensures p.devis == devis && p.search == "" && p.selected.None? && !p.dialogOpen && p.newStatus == Pending
  {
    Page(devis, "", None, false, Pending)
  }

  /** Opening the details seeds the pending status with the record's own. */
  function ViewDetails(p: Page, d: Devis): (r: Page)
    ensures r.selected == Some(d) && r.newStatus == d.status && r.dialogOpen && r.devis == p.devis
  {
    p.(selected := Some(d), newStatus := d.status, dialogOpen := true)
  }

  /** The status select only records its value: nothing is saved until
      `UpdateStatus` (see `ChosenStatusIsSaved`). */
  function StatusChange(p: Page, s: Status): (r: Page)
    ensures r.newStatus == s
    ensures r.devis == p.devis && r.search == p.search && r.selected == p.selected && r.dialogOpen == p.dialogOpen
  {
    p.(newStatus := s)
  }

  /** `handleUpdateStatus`: without a selection nothing happens; otherwise
      every record with the selected id takes the new status and nothing
      else changes. */
  function UpdateStatus(p: Page): (r: Page)
    ensures p.selected.None? ==> r == p
    ensures p.selected.Some? ==>
              && !r.dialogOpen
              && |r.devis| == |p.devis|
              && (forall i :: 0 <= i < |p.devis| ==> r.devis[i].(status := p.devis[i].status) == p.devis[i])
              && (forall i :: 0 <= i < |p.devis| ==>
                    r.devis[i].status == if p.devis[i].id == p.selected.value.id then p.newStatus else p.devis[i].status)
  {
    if p.selected.None? then p
    else
      var updated := Records.UpdateWhere(p.devis, DevisId, p.selected.value.id, (d: Devis) => d.(status := p.newStatus));
      p.(devis := updated, dialogOpen := false)
  }

  /** `handleDelete(id)`: the records with that id go, the rest stay. */
  function Delete(p: Page, id: int): (r: Page)
    ensures forall d :: d in r.devis <==> d in p.devis && d.id != id
    ensures r.devis == Records.RemoveWhere(p.devis, DevisId, id)
    ensures r.search == p.search && r.selected == p.selected && r.dialogOpen == p.dialogOpen && r.newStatus == p.newStatus
  {
    p.(devis := Records.RemoveWhere(p.devis, DevisId, id))
  }

  /** The free-text project type is shown only for "autre" with a
      non-empty value. */
  function ProjectTypeShown(d: Devis): (r: string)
    ensures (d.projectType == OtherProject && d.otherProjectType.Some? && d.otherProjectType.value != "")
              ==> (r == d.otherProjectType.value)
    ensures (d.projectType != OtherProject || d.otherProjectType.None? || d.otherProjectType.value == "")
              ==> (r == d.projectType)
    ensures r == d.projectType || Some(r) == d.otherProjectType
  {
    if d.projectType == OtherProject && d.otherProjectType.Some? && d.otherProjectType.value != "" then d.otherProjectType.value
    else d.projectType
  }

  /** The search box stores its text. */
  function SetSearch(p: Page, text: string): (r: Page)
    ensures r.search == text
    ensures r.devis == p.devis && r.selected == p.selected && r.dialogOpen == p.dialogOpen && r.newStatus == p.newStatus
  {
    p.(search := text)
  }

  /** The grid's rows. */
  function Rows(p: Page): seq<Devis> { p.devis }

  /** The search text never filters the rows. */
  lemma SearchNeverFilters(p: Page, text: string)
    ensures Rows(SetSearch(p, text)) == Rows(p)
  {
  }

  /** The dialog's whole flow: open a request, pick a status in the select,
      save. Every request with that id then carries the picked status, the
      other requests are untouched, and the dialog is closed. */
  lemma ChosenStatusIsSaved(p: Page, d: Devis, s: Status)
    ensures var r := UpdateStatus(StatusChange(ViewDetails(p, d), s));
            && !r.dialogOpen
            && |r.devis| == |p.devis|
            && (forall i :: 0 <= i < |p.devis| && p.devis[i].id == d.id ==> r.devis[i] == p.devis[i].(status := s))
            && (forall i :: 0 <= i < |p.devis| && p.devis[i].id != d.id ==> r.devis[i] == p.devis[i])
  {
    var r := UpdateStatus(StatusChange(ViewDetails(p, d), s));
    forall i | 0 <= i < |p.devis|
      ensures r.devis[i] == if p.devis[i].id == d.id then p.devis[i].(status := s) else p.devis[i]
    {
      assert r.devis[i].(status := p.devis[i].status) == p.devis[i];
    }
  }

  /** Updating twice with the same selection and status is the same as once. */
  lemma UpdateStatusIdempotent(p: Page)
    ensures UpdateStatus(UpdateStatus(p)).devis == UpdateStatus(p).devis
  {
  }
}

=== FILE: gallery.dfy ===
/** The gallery image record shared by the public portfolio
    (src/components/PortfolioSection/Portfolio.tsx) and its admin page
    (src/pages/admin/Gallery/PortfolioListPage.tsx), with the category
    tabs and the category filter both screens compute. */
module Gallery {
  import Seqs

  datatype GalleryImage = GalleryImage(id: int, src: string, title: string, category: string)

  function Categories(images: seq<GalleryImage>): (r: seq<string>)
    ensures |r| == |images|
    ensures forall i :: 0 <= i < |images| ==> r[i] == images[i].category
  {
    seq(|images|, i requires 0 <= i < |images| => images[i].category)
  }

  /** `[allLabel, ...new Set(images.map(img => img.category))]`. */
  function CategoryTabs(allLabel: string, images: seq<GalleryImage>): (r: seq<string>)
    ensures |r| >= 1 && r[0] == allLabel
    ensures Seqs.NoDuplicates(r[1..])
    ensures forall c :: c in r[1..] <==> c in Categories(images)
    ensures forall i, j :: 0 <= i < j < |r| - 1 ==>
              Seqs.FirstIndex(Categories(images), r[1..][i]) < Seqs.FirstIndex(Categories(images), r[1..][j])
  {
    var cats := Categories(images);
    var d := Seqs.Distinct(cats);
    assert ([allLabel] + d)[1..] == d;
    [allLabel] + d
  }

  /** The category test `img.category === selected`, as one value. */
  function InCategory(selected: string): GalleryImage -> bool {
    (img: GalleryImage) => img.category == selected
  }

  /** The whole gallery for the "all" label, otherwise exactly the images of
      the selected category, in gallery order. */
  function FilterByCategory(images: seq<GalleryImage>, allLabel: string, selected: string): (r: seq<GalleryImage>)
    ensures selected == allLabel ==> r == images
    ensures selected != allLabel ==> forall img :: img in r <==> img in images && img.category == selected
    ensures selected != allLabel ==> forall img :: Seqs.Count(r, img) == if img.category == selected then Seqs.Count(images, img) else 0
  {
    if selected == allLabel then images
    else
      var keep := InCategory(selected);
      forall img ensures Seqs.Count(Seqs.Filter(images, keep), img) == if keep(img) then Seqs.Count(images, img) else 0 {
        Seqs.FilterCount(images, keep, img);
      }
      Seqs.Filter(images, keep)
  }

  /** Filtering works piecewise: the images of two galleries shown one after
      the other filter to the two filtered lists one after the other. With
      `FilterByCategoryOne` this fixes the result's order: the kept images
      appear in gallery order. */
  lemma FilterByCategoryConcat(a: seq<GalleryImage>, b: seq<GalleryImage>, allLabel: string, selected: string)
    ensures FilterByCategory(a + b, allLabel, selected)
            == FilterByCategory(a, allLabel, selected) + FilterByCategory(b, allLabel, selected)
  {
    if selected != allLabel {
      Seqs.FilterConcat(a, b, InCategory(selected));
    }
  }

  /** A single image is kept exactly when it is in the category. */
  lemma FilterByCategoryOne(img: GalleryImage, allLabel: string, selected: string)
    ensures FilterByCategory([img], allLabel, selected)
            == if selected == allLabel || img.category == selected then [img] else []
  {
    if selected != allLabel {
      assert [img][1..] == [];
    }
  }
}

=== FILE: header.dfy ===
/** The landing-page header (src/layouts/landing-layout/Header/Header.tsx):
    the collapsible menu, the mobile flag and which nav link is marked
    active for the current path. */
module Header {
  import Text

  datatype Header = Header(collapsed: bool, mobile: bool)

  const MobileMaxWidth: int := 768

  /** The five landing links, by path. */
  function NavPaths(): seq<string> { ["", "about", "services", "gallery", "contact"] }

  function Initial(windowWidth: int): (h: Header)
    ensures h.collapsed
    ensures h.mobile <==> windowWidth <= 768
  {
    Header(true, windowWidth <= MobileMaxWidth)
  }

  function Toggle(h: Header): (r: Header)
    ensures r.collapsed == !h.collapsed && r.mobile == h.mobile
  {
    h.(collapsed := !h.collapsed)
  }

  lemma ToggleTwice(h: Header)
    ensures Toggle(Toggle(h)) == h
  {
  }

  /** Any link click collapses the menu. */
  function LinkClick(h: Header): (r: Header)
    ensures r.collapsed && r.mobile == h.mobile
  {
    h.(collapsed := true)
  }

  /** A mouse-down outside the menu collapses it; inside, nothing changes. */
  function MouseDown(h: Header, insideNav: bool): (r: Header)
    ensures insideNav ==> r == h
    ensures !insideNav ==> r.collapsed && r.mobile == h.mobile
  {
    if insideNav then h else h.(collapsed := true)
  }

  function Resize(h: Header, windowWidth: int): (r: Header)
    ensures r.collapsed == h.collapsed
    ensures r.mobile <==> windowWidth <= 768
  {
    h.(mobile := windowWidth <= MobileMaxWidth)
  }

  /** `href.replace(/^\.\/|\.html$/g, "")`. No string both starts with "./"
      and ends with ".html" with the two overlapping, so the global
      replace is a prefix strip followed by a suffix strip. */
  function CleanHref(href: string): (r: string)
    ensures Text.StartsWith(href, "./") && Text.EndsWith(href, ".html") && |href| >= 7 ==> href == "./" + r + ".html"
    ensures Text.StartsWith(href, "./") && !Text.EndsWith(href, ".html") ==> r == href[2..]
    ensures !Text.StartsWith(href, "./") && Text.EndsWith(href, ".html") ==> r == href[..|href| - 5]
    ensures !Text.StartsWith(href, "./") && !Text.EndsWith(href, ".html") ==> r == href
  {
    Text.StripSuffix(Text.StripPrefix(href, "./"), ".html")
  }

  /** `pathname.replace(/^\/|\/$/g, "")`: one leading and one trailing "/"
      are removed. */
  function CleanPath(pathname: string): (r: string)
    ensures |pathname| >= 2 && pathname[0] == '/' && pathname[|pathname| - 1] == '/' ==> pathname == "/" + r + "/"
    ensures pathname == "/" ==> r == ""
    ensures |pathname| >= 1 && pathname[0] == '/' && pathname[|pathname| - 1] != '/' ==> r == pathname[1..]
    ensures |pathname| >= 1 && pathname[0] != '/' && pathname[|pathname| - 1] == '/' ==> r == pathname[..|pathname| - 1]
    ensures (pathname == "" || pathname[0] != '/') && (pathname == "" || pathname[|pathname| - 1] != '/') ==> r == pathname
  {
    Text.StripSuffix(Text.StripPrefix(pathname, "/"), "/")
  }

  predicate IsActive(pathname: string, href: string) {
    CleanPath(pathname) == CleanHref(href)
  }

  /** The active class is shown only on desktop. */
  predicate ShowsActive(h: Header, pathname: string, path: string) {
    !h.mobile && IsActive(pathname, path)
  }

  /** A path without a dot is its own clean href. */
  lemma PlainHref(href: string)
    requires '.' !in href
    ensures CleanHref(href) == href
  {
  }

  /** The home link matches "/". */
  lemma HomeActive()
    ensures IsActive("/", "")
  {
  }

  /** A path is its own word once the slashes around it are gone. */
  lemma SlashedPath(w: string, trailing: bool)
    requires w != "" && w[|w| - 1] != '/'
    ensures CleanPath("/" + w + (if trailing then "/" else "")) == w
  {
    var p := "/" + w + (if trailing then "/" else "");
    assert Text.StartsWith(p, "/");
    var q := Text.StripPrefix(p, "/");
    assert q == w + (if trailing then "/" else "") by {
      assert p == "/" + (w + (if trailing then "/" else ""));
    }
    if trailing {
      assert Text.EndsWith(q, "/");
    } else {
      assert q[|q| - 1] != '/';
      assert !Text.EndsWith(q, "/");
    }
  }

  /** Every landing link but home is active on its own path, with or
      without a trailing slash. */
  lemma NavLinkActiveOnItsPath(k: nat)
    requires 1 <= k < |NavPaths()|
    ensures IsActive("/" + NavPaths()[k], NavPaths()[k])
    ensures IsActive("/" + NavPaths()[k] + "/", NavPaths()[k])
  {
    var p := NavPaths()[k];
    NavHrefClean(k);
    assert p != "" && p[|p| - 1] != '/' by {
      assert k == 1 || k == 2 || k == 3 || k == 4;
    }
    assert "/" + p == "/" + p + "";
    SlashedPath(p, false);
    SlashedPath(p, true);
  }

  /** An href written as a page file matches the bare path. */
  lemma PageFileHrefActive()
    ensures IsActive("/about", "./about.html")
  {
  }

  /** On mobile no link carries the active class. */
  lemma NoActiveClassOnMobile(h: Header, pathname: string, path: string)
    requires h.mobile
    ensures !ShowsActive(h, pathname, path)
  {
  }

  /** At most one landing link is active for any path, since their paths
      are distinct. */
  lemma AtMostOneNavLinkActive(pathname: string, i: nat, j: nat)
    requires i < |NavPaths()| && j < |NavPaths()|
    requires IsActive(pathname, NavPaths()[i]) && IsActive(pathname, NavPaths()[j])
    ensures i == j
  {
    NavHrefClean(i);
    NavHrefClean(j);
    NavPathsDistinct(i, j);
  }

  /** Every landing link's href is already clean. */
  lemma NavHrefClean(k: nat)
    requires k < |NavPaths()|
    ensures CleanHref(NavPaths()[k]) == NavPaths()[k]
  {
    var p := NavPaths()[k];
    if k == 0 { assert p == ""; }
    else if k == 1 { assert p == "about"; }
    else if k == 2 { assert p == "services"; }
    else if k == 3 { assert p == "gallery"; }
    else { assert p == "contact"; }
    PlainHref(p);
  }

  lemma NavPathsDistinct(i: nat, j: nat)
    requires i < |NavPaths()| && j < |NavPaths()| && NavPaths()[i] == NavPaths()[j]
    ensures i == j
  {
    var lens := [0, 5, 8, 7, 7];
    assert forall k :: 0 <= k < 5 ==> |NavPaths()[k]| == lens[k];
    if |NavPaths()[i]| == 7 {
      assert NavPaths()[i][0] == NavPaths()[j][0];
      assert i == 3 || i == 4;
      assert j == 3 || j == 4;
    }
  }
}

=== FILE: hero_slider.dfy ===
/** The hero slider controller (src/components/HeroSlider/HeroSlider.tsx).
    WebGL, GSAP and timers become a state record stepped by abstract
    events: a pending autoplay timeout firing, a next/prev click, the
    running timeline completing, and unmount. Texture loads are a `net`
    map from URL to texture: a URL absent from it fails to load. */
module HeroSlider {
  import opened Wrappers

  type TexId = int

  const DefaultDisplacementMap := "/images/Displacements/fluid.jpg"
  const DefaultTransitionDuration: real := 2.0
  const DefaultAutoplayDuration: real := 7000.0
  const DefaultIntensity: real := 0.7

  /** Per-slide overrides; every field is optional. */
  datatype SlideEffect = SlideEffect(
    displacementMap: Option<string>,
    intensity: Option<real>,
    duration: Option<real>,
    transitionDuration: Option<real>)

  datatype Slide = Slide(
    imageUrl: string,
    title: string,
    description: string,
    buttonText: Option<string>,
    buttonLink: Option<string>,
    effect: Option<SlideEffect>)

  /** The component's props, before defaults are applied. */
  datatype Props = Props(
    slides: seq<Slide>,
    autoplayDuration: Option<real>,
    defaultTransitionDuration: Option<real>,
    displacementIntensity: Option<real>,
    defaultDisplacementMap: Option<string>,
    autoplay: Option<bool>)

  datatype Config = Config(
    slides: seq<Slide>,
    autoplayDuration: real,
    defaultTransitionDuration: real,
    displacementIntensity: real,
    defaultDisplacementMap: string,
    autoplay: bool)

  /** A fully resolved effect. */
  datatype Effect = Effect(displacementMap: string, intensity: real, duration: real, transitionDuration: real)

  datatype Uniforms = Uniforms(
    currentTexture: TexId,
    nextTexture: TexId,
    displacementMap: TexId,
    progress: real,
    intensity: real)

  /** Which code path started the running transition. */
  datatype Trigger = Autoplay | Manual

  /** `timelineRef`: either nothing active, or a running progress tween. */
  datatype Timeline = Idle | Running(from: nat, to: nat, duration: real, trigger: Trigger)

  datatype Slider = Slider(
    cfg: Config,
    material: bool,
    textures: seq<TexId>,
    cache: map<string, TexId>,
    uniforms: Uniforms,
    currentIndex: nat,
    timeline: Timeline,
    timer: Option<real>)

  datatype InitError = SlideLoadFailed | NoTexturesLoaded | DisplacementLoadFailed

  datatype InitOutcome = NotVisible | InitFailed(error: InitError) | Ready(slider: Slider)

  datatype Event =
    | TimerFires(net: map<string, TexId>)
    | NextClicked(net: map<string, TexId>)
    | PrevClicked(net: map<string, TexId>)
    | TimelineCompletes
    | Unmount

  // ---------------------------------------------------------------------
  // Configuration and effect resolution

  /** Destructuring defaults replace only an absent prop: an explicit 0 or
      `false` is kept. */
  function ConfigOf(p: Props): (c: Config)
    ensures c.slides == p.slides
    ensures p.autoplayDuration.None? ==> c.autoplayDuration == 7000.0
    ensures p.autoplayDuration.Some? ==> c.autoplayDuration == p.autoplayDuration.value
    ensures p.defaultTransitionDuration.Some? ==> c.defaultTransitionDuration == p.defaultTransitionDuration.value
    ensures p.defaultTransitionDuration.None? ==> c.defaultTransitionDuration == 2.0
    ensures p.displacementIntensity.Some? ==> c.displacementIntensity == p.displacementIntensity.value
    ensures p.displacementIntensity.None? ==> c.displacementIntensity == 0.7
    ensures p.defaultDisplacementMap.None? ==> c.defaultDisplacementMap == "/images/Displacements/fluid.jpg"
    ensures p.defaultDisplacementMap.Some? ==> c.defaultDisplacementMap == p.defaultDisplacementMap.value
    ensures c.autoplay <==> p.autoplay != Some(false)
  {
    Config(p.slides,
           p.autoplayDuration.GetOr(DefaultAutoplayDuration),
           p.defaultTransitionDuration.GetOr(DefaultTransitionDuration),
           p.displacementIntensity.GetOr(DefaultIntensity),
           p.defaultDisplacementMap.GetOr(DefaultDisplacementMap),
           p.autoplay.GetOr(true))
  }

  /** JavaScript `o || d` on an optional number: 0 is falsy. */
  function OrReal(o: Option<real>, d: real): real {
    if o.Some? && o.value != 0.0 then o.value else d
  }

  /** JavaScript `o || d` on an optional string: "" is falsy. */
  function OrString(o: Option<string>, d: string): string {
    if o.Some? && o.value != "" then o.value else d
  }

  /** `getSlideEffect`: each field is the slide's override when that is
      truthy, otherwise the component default. */
  function SlideEffectOf(cfg: Config, i: nat): (e: Effect)
    requires i < |cfg.slides|
    ensures var ov := cfg.slides[i].effect;
            && (e.displacementMap != cfg.defaultDisplacementMap ==> ov.Some? && ov.value.displacementMap == Some(e.displacementMap) && e.displacementMap != "")
            && (e.intensity != cfg.displacementIntensity ==> ov.Some? && ov.value.intensity == Some(e.intensity) && e.intensity != 0.0)
            && (e.duration != cfg.autoplayDuration ==> ov.Some? && ov.value.duration == Some(e.duration) && e.duration != 0.0)
            && (e.transitionDuration != cfg.defaultTransitionDuration ==> ov.Some? && ov.value.transitionDuration == Some(e.transitionDuration) && e.transitionDuration != 0.0)
    ensures var ov := cfg.slides[i].effect;
            ov.Some? ==>
              && (ov.value.displacementMap.Some? && ov.value.displacementMap.value != "" ==> e.displacementMap == ov.value.displacementMap.value)
              && (ov.value.intensity.Some? && ov.value.intensity.value != 0.0 ==> e.intensity == ov.value.intensity.value)
              && (ov.value.duration.Some? && ov.value.duration.value != 0.0 ==> e.duration == ov.value.duration.value)
              && (ov.value.transitionDuration.Some? && ov.value.transitionDuration.value != 0.0 ==> e.transitionDuration == ov.value.transitionDuration.value)
  {
    var ov := cfg.slides[i].effect;
    if ov.None? then
      Effect(cfg.defaultDisplacementMap, cfg.displacementIntensity, cfg.autoplayDuration, cfg.defaultTransitionDuration)
    else
      Effect(OrString(ov.value.displacementMap, cfg.defaultDisplacementMap),
             OrReal(ov.value.intensity, cfg.displacementIntensity),
             OrReal(ov.value.duration, cfg.autoplayDuration),
             OrReal(ov.value.transitionDuration, cfg.defaultTransitionDuration))
  }

  /** An override of 0 or "" resolves exactly as no override at all. */
  lemma FalsyOverrideFallsBack(cfg: Config, i: nat)
    requires i < |cfg.slides|
    requires cfg.slides[i].effect == Some(SlideEffect(Some(""), Some(0.0), Some(0.0), Some(0.0)))
    ensures SlideEffectOf(cfg, i)
         == Effect(cfg.defaultDisplacementMap, cfg.displacementIntensity, cfg.autoplayDuration, cfg.defaultTransitionDuration)
  {
  }

  // ---------------------------------------------------------------------
  // Index arithmetic

  function NextTarget(i: nat, n: nat): (r: nat)
    requires n > 0
    ensures r < n
    ensures i < n ==> (r == 0 <==> i == n - 1)
    ensures i < n - 1 ==> r == i + 1
  {
    (i + 1) % n
  }

  function PrevTarget(i: nat, n: nat): (r: nat)
    requires n > 0 && i < n
    ensures r < n
    ensures r == n - 1 <==> i == 0
    ensures 0 < i ==> r == i - 1
  {
    (i - 1 + n) % n
  }

  /** Forward then backward (and backward then forward) returns to the
      start; with one slide both directions target that slide. */
  lemma TargetsInverse(i: nat, n: nat)
    requires 0 < n && i < n
    ensures PrevTarget(NextTarget(i, n), n) == i
    ensures NextTarget(PrevTarget(i, n), n) == i
    ensures n == 1 ==> NextTarget(i, n) == PrevTarget(i, n) == i
  {
  }

  // ---------------------------------------------------------------------
  // Displacement-map cache

  /** `loadDisplacementMap`: a hit returns the stored texture and leaves the
      cache alone; a miss that loads stores exactly that URL; a miss that
      fails changes nothing. */
  function LoadMap(cache: map<string, TexId>, net: map<string, TexId>, url: string): (r: (Option<TexId>, map<string, TexId>))
    ensures url in cache ==> r == (Some(cache[url]), cache)
    ensures url !in cache && url !in net ==> r == (None, cache)
    ensures url !in cache && url in net ==> r.0 == Some(net[url]) && r.1.Keys == cache.Keys + {url}
    ensures forall k :: k in cache ==> k in r.1 && r.1[k] == cache[k]
    ensures r.0.Some? <==> url in r.1
    ensures r.0.Some? ==> r.1[url] == r.0.value
  {
    if url in cache then (Some(cache[url]), cache)
    else if url in net then (Some(net[url]), cache[url := net[url]])
    else (None, cache)
  }

  /** A second load of the same URL is a cache hit that changes nothing. */
  lemma LoadMapIdempotent(cache: map<string, TexId>, net: map<string, TexId>, url: string)
    ensures var (t1, c1) := LoadMap(cache, net, url);
            t1.Some? ==> LoadMap(c1, net, url) == (t1, c1)
  {
  }

  // ---------------------------------------------------------------------
  // State

  ghost predicate Valid(s: Slider) {
    && |s.cfg.slides| > 0
    && s.currentIndex < |s.cfg.slides|
    && (s.material ==> |s.textures| == |s.cfg.slides|)
    && (s.timeline.Running? ==>
          && s.material
          && s.timeline.from == s.currentIndex
          && s.timeline.to < |s.cfg.slides|
          && s.timer.None?)
    && (s.timer.Some? ==> s.material && s.cfg.autoplay && s.timer.value == s.cfg.autoplayDuration)
  }

  /** `init`: loads every slide texture, then the default map; the cache is
      seeded with that map, and with autoplay on one timeout is armed. */
  function Init(cfg: Config, visible: bool, net: map<string, TexId>): (r: InitOutcome)
    ensures !visible <==> r.NotVisible?
    ensures visible && |cfg.slides| == 0 ==> r == InitFailed(NoTexturesLoaded)
    ensures r.Ready? ==>
              && Valid(r.slider)
              && r.slider.material
              && cfg.defaultDisplacementMap in net
              && (forall i :: 0 <= i < |cfg.slides| ==> cfg.slides[i].imageUrl in net)
              && |r.slider.textures| == |cfg.slides|
              && r.slider.cache == map[cfg.defaultDisplacementMap := net[cfg.defaultDisplacementMap]]
              && (forall i :: 0 <= i < |cfg.slides| ==> r.slider.textures[i] == net[cfg.slides[i].imageUrl])
              && r.slider.currentIndex == 0
              && r.slider.uniforms.currentTexture == r.slider.textures[0]
              && r.slider.uniforms.nextTexture == (if |cfg.slides| > 1 then r.slider.textures[1] else r.slider.textures[0])
              && r.slider.uniforms.displacementMap == net[cfg.defaultDisplacementMap]
              && r.slider.uniforms.progress == 0.0
              && r.slider.uniforms.intensity == cfg.displacementIntensity
              && r.slider.timeline.Idle?
              && (r.slider.timer.Some? <==> cfg.autoplay)
    ensures (&& visible && |cfg.slides| > 0 && cfg.defaultDisplacementMap in net
             && (forall i :: 0 <= i < |cfg.slides| ==> cfg.slides[i].imageUrl in net)) ==> r.Ready?
  {
    if !visible then NotVisible
    else if exists i :: 0 <= i < |cfg.slides| && cfg.slides[i].imageUrl !in net then InitFailed(SlideLoadFailed)
    else if |cfg.slides| == 0 then InitFailed(NoTexturesLoaded)
    else if cfg.defaultDisplacementMap !in net then InitFailed(DisplacementLoadFailed)
    else
      var textures := seq(|cfg.slides|, i requires 0 <= i < |cfg.slides| => net[cfg.slides[i].imageUrl]);
      var dmap := net[cfg.defaultDisplacementMap];
      var u := Uniforms(textures[0], if |textures| > 1 then textures[1] else textures[0], dmap, 0.0, cfg.displacementIntensity);
      Ready(Slider(cfg, true, textures, map[cfg.defaultDisplacementMap := dmap], u, 0, Idle,
                   if cfg.autoplay then Some(cfg.autoplayDuration) else None))
  }

  /** With a single slide the initial next texture falls back to the first. */
  lemma SingleSlideInit(cfg: Config, net: map<string, TexId>)
    requires |cfg.slides| == 1
    requires Init(cfg, true, net).Ready?
    ensures Init(cfg, true, net).slider.uniforms.nextTexture == Init(cfg, true, net).slider.uniforms.currentTexture
  {
  }

  /** Unmount: kill the timeline, clear the timeout, drop the material and
      empty both the texture list and the cache. */
  function Teardown(s: Slider): (r: Slider)
    requires Valid(s)
    ensures Valid(r)
    ensures r.textures == [] && r.cache == map[] && !r.material
    ensures r.timeline.Idle? && r.timer.None?
    ensures r.currentIndex == s.currentIndex && r.cfg == s.cfg
  {
    s.(material := false, textures := [], cache := map[], timeline := Idle, timer := None)
  }

  lemma TeardownIdempotent(s: Slider)
    requires Valid(s)
    ensures Teardown(Teardown(s)) == Teardown(s)
  {
  }

  /** A displacement map the slider can obtain: already cached, or served
      by the network. */
  predicate Loadable(s: Slider, net: map<string, TexId>, url: string) {
    url in s.cache || url in net
  }

  /** The displacement map of slide `i`'s effect. */
  function MapOf(cfg: Config, i: nat): string
    requires i < |cfg.slides|
  {
    SlideEffectOf(cfg, i).displacementMap
  }

  /** `updateSlideEffect` followed by the start of the progress tween. Both
      maps are requested; a map that loads is cached even when the other
      fails. On success the uniforms come from the FROM slide's effect and
      the tween lasts that effect's transition duration; on failure the
      uniforms are untouched and nothing is running. */
  function BeginTransition(s: Slider, to: nat, trigger: Trigger, net: map<string, TexId>): (r: Slider)
    requires Valid(s) && s.material && s.timeline.Idle? && s.timer.None?
    requires to < |s.cfg.slides|
    ensures Valid(r)
    ensures r.cfg == s.cfg && r.material && r.textures == s.textures && r.currentIndex == s.currentIndex && r.timer.None?
    ensures forall k :: k in s.cache ==> k in r.cache && r.cache[k] == s.cache[k]
    ensures forall u :: u in r.cache && u !in s.cache ==> u in net && r.cache[u] == net[u]
    ensures var fromMap := SlideEffectOf(s.cfg, s.currentIndex).displacementMap;
            var toMap := SlideEffectOf(s.cfg, to).displacementMap;
            && r.cache.Keys <= s.cache.Keys + {fromMap, toMap}
            && (fromMap in r.cache <==> Loadable(s, net, fromMap))
            && (toMap in r.cache <==> Loadable(s, net, toMap))
            && (r.timeline.Running? <==> fromMap in r.cache && toMap in r.cache)
            && (r.timeline.Running? <==> Loadable(s, net, fromMap) && Loadable(s, net, toMap))
    ensures r.timeline.Running? ==>
              var ce := SlideEffectOf(s.cfg, s.currentIndex);
              && r.timeline == Running(s.currentIndex, to, ce.transitionDuration, trigger)
              && r.uniforms == Uniforms(s.textures[s.currentIndex], s.textures[to], r.cache[ce.displacementMap], 0.0, ce.intensity)
    ensures r.timeline.Idle? ==> r.uniforms == s.uniforms
  {
    var ce := SlideEffectOf(s.cfg, s.currentIndex);
    var ne := SlideEffectOf(s.cfg, to);
    var (cm, c1) := LoadMap(s.cache, net, ce.displacementMap);
    var (nm, c2) := LoadMap(c1, net, ne.displacementMap);
    if cm.Some? && nm.Some? then
      s.(cache := c2,
         uniforms := Uniforms(s.textures[s.currentIndex], s.textures[to], cm.value, 0.0, ce.intensity),
         timeline := Running(s.currentIndex, to, ce.transitionDuration, trigger))
    else
      s.(cache := c2)
  }

  /** `startAutoplay`: with material and textures, kill the timeline, clear
      any pending timeout and arm exactly one new one. */
  function StartAutoplay(s: Slider): (r: Slider)
    requires Valid(s) && s.cfg.autoplay && s.timeline.Idle?
    ensures Valid(r)
    ensures s.material && |s.textures| > 0 ==> r == s.(timer := Some(s.cfg.autoplayDuration))
    ensures !(s.material && |s.textures| > 0) ==> r == s
  {
    if !s.material || |s.textures| == 0 then s
    else s.(timeline := Idle, timer := Some(s.cfg.autoplayDuration))
  }

  /** `animateNext`, run when the pending timeout fires. A failed start is
      caught and the loop re-arms with `autoplayDuration`; the slide's own
      `duration` is never used. */
  function OnTimer(s: Slider, net: map<string, TexId>): (r: Slider)
    requires Valid(s)
    ensures Valid(r)
    ensures r.currentIndex == s.currentIndex
    ensures s.timer.None? ==> r == s
    ensures s.timer.Some? && r.timeline.Running? ==>
              r.timeline.from == s.currentIndex && r.timeline.to == NextTarget(s.currentIndex, |s.cfg.slides|)
              && r.timeline.trigger == Autoplay && r.timer.None?
    ensures s.timer.Some? && r.timeline.Idle? ==> r.timer == Some(s.cfg.autoplayDuration)
    ensures s.timer.Some? ==>
              (r.timeline.Running? <==>
                 Loadable(s, net, MapOf(s.cfg, s.currentIndex))
                 && Loadable(s, net, MapOf(s.cfg, NextTarget(s.currentIndex, |s.cfg.slides|))))
  {
    if s.timer.None? then s
    else
      var s1 := s.(timer := None);
      if !s1.material || |s1.textures| == 0 then s1
      else
        var s2 := BeginTransition(s1.(timeline := Idle), NextTarget(s.currentIndex, |s.cfg.slides|), Autoplay, net);
        if s2.timeline.Running? then s2
        else s2.(timer := if s.cfg.autoplay then Some(s.cfg.autoplayDuration) else None)
  }

  /** `goToNextSlide` / `goToPrevSlide`: refused without material or
      textures or while a timeline runs; otherwise the pending timeout is
      cleared first and never re-armed if the start fails. */
  function OnManual(s: Slider, forward: bool, net: map<string, TexId>): (r: Slider)
    requires Valid(s)
    ensures Valid(r)
    ensures r.currentIndex == s.currentIndex
    ensures !s.material || |s.textures| == 0 || s.timeline.Running? ==> r == s
    ensures s.material && |s.textures| > 0 && s.timeline.Idle? ==>
              && r.timer.None?
              && (r.timeline.Running? ==>
                    && r.timeline.trigger == Manual
                    && r.timeline.to == (if forward then NextTarget(s.currentIndex, |s.cfg.slides|)
                                         else PrevTarget(s.currentIndex, |s.cfg.slides|)))
              && (r.timeline.Running? <==>
                    var to := if forward then NextTarget(s.currentIndex, |s.cfg.slides|)
                              else PrevTarget(s.currentIndex, |s.cfg.slides|);
                    Loadable(s, net, MapOf(s.cfg, s.currentIndex)) && Loadable(s, net, MapOf(s.cfg, to)))
  {
    if !s.material || |s.textures| == 0 || s.timeline.Running? then s
    else
      var n := |s.cfg.slides|;
      var to := if forward then NextTarget(s.currentIndex, n) else PrevTarget(s.currentIndex, n);
      BeginTransition(s.(timer := None), to, Manual, net)
  }

  /** The tween's `onComplete`: the only place the index changes, and only
      to the running transition's target. An autoplay completion re-arms
      the loop; a manual one calls `startAutoplay` only when enabled. */
  function OnComplete(s: Slider): (r: Slider)
    requires Valid(s)
    ensures Valid(r)
    ensures s.timeline.Idle? ==> r == s
    ensures s.timeline.Running? ==>
              && r.currentIndex == s.timeline.to
              && r.timeline.Idle?
              && r.uniforms.progress == 1.0
              && (r.timer.Some? <==> s.cfg.autoplay)
  {
    match s.timeline
    case Idle => s
    case Running(_, to, _, trigger) =>
      var s1 := s.(currentIndex := to, timeline := Idle, uniforms := s.uniforms.(progress := 1.0));
      if trigger == Autoplay then
        s1.(timer := if s.cfg.autoplay then Some(s.cfg.autoplayDuration) else None)
      else if s.cfg.autoplay then StartAutoplay(s1)
      else s1
  }

  function Step(s: Slider, e: Event): (r: Slider)
    requires Valid(s)
    ensures Valid(r)
    ensures r.cfg == s.cfg
    ensures r.currentIndex != s.currentIndex ==> e == TimelineCompletes && s.timeline.Running? && r.currentIndex == s.timeline.to
    ensures r.timer.Some? ==> r.timer.value == s.cfg.autoplayDuration
    ensures !e.Unmount? ==> forall k :: k in s.cache ==> k in r.cache && r.cache[k] == s.cache[k]
  {
    match e
    case TimerFires(net) => OnTimer(s, net)
    case NextClicked(net) => OnManual(s, true, net)
    case PrevClicked(net) => OnManual(s, false, net)
    case TimelineCompletes => OnComplete(s)
    case Unmount => Teardown(s)
  }

  /** A manual click while a transition runs changes nothing. */
  lemma ClickIgnoredWhileRunning(s: Slider, net: map<string, TexId>)
    requires Valid(s) && s.timeline.Running?
    ensures Step(s, NextClicked(net)) == s && Step(s, PrevClicked(net)) == s
  {
  }

  /** When a transition starts, the shader reads the from-slide's map and
      intensity, even though the to-slide's map was loaded too. */
  lemma NextMapLoadedButUnused(s: Slider, net: map<string, TexId>)
    requires Valid(s) && s.timeline.Idle?
    requires Step(s, NextClicked(net)).timeline.Running?
    ensures var r := Step(s, NextClicked(net));
            var ce := SlideEffectOf(s.cfg, s.currentIndex);
            var ne := SlideEffectOf(s.cfg, r.timeline.to);
            && ne.displacementMap in r.cache
            && ce.displacementMap in r.cache
            && r.uniforms.displacementMap == r.cache[ce.displacementMap]
            && r.uniforms.intensity == ce.intensity
            && r.timeline.duration == ce.transitionDuration
  {
    var n := |s.cfg.slides|;
    assert s.material && |s.textures| > 0 && s.timeline.Idle?;
    var to := NextTarget(s.currentIndex, n);
    assert Step(s, NextClicked(net)) == BeginTransition(s.(timer := None), to, Manual, net);
  }

  /** Autoplay keeps going after a failed transition: when the maps cannot
      load, the timeout is re-armed and the index stays. */
  lemma AutoplayRearmsAfterFailure(s: Slider, net: map<string, TexId>)
    requires Valid(s) && s.timer.Some? && |s.textures| > 0
    requires SlideEffectOf(s.cfg, s.currentIndex).displacementMap !in s.cache
    requires SlideEffectOf(s.cfg, s.currentIndex).displacementMap !in net
    ensures Step(s, TimerFires(net)).timer == Some(s.cfg.autoplayDuration)
    ensures Step(s, TimerFires(net)).timeline.Idle?
    ensures Step(s, TimerFires(net)).currentIndex == s.currentIndex
  {
  }

  /** A failed manual start leaves no timeout pending: autoplay stops. */
  lemma ManualFailureStopsAutoplay(s: Slider, net: map<string, TexId>)
    requires Valid(s) && s.material && s.timeline.Idle?
    requires SlideEffectOf(s.cfg, s.currentIndex).displacementMap !in s.cache
    requires SlideEffectOf(s.cfg, s.currentIndex).displacementMap !in net
    ensures Step(s, NextClicked(net)).timer.None? && Step(s, NextClicked(net)).timeline.Idle?
  {
  }

  // ---------------------------------------------------------------------
  // Rendering

  /** The caption shows the current slide's title and description; the
      button renders only when both its text and link are non-empty. */
  function Caption(s: Slider): (r: (string, string, Option<(string, string)>))
    requires Valid(s)
    ensures r.0 == s.cfg.slides[s.currentIndex].title && r.1 == s.cfg.slides[s.currentIndex].description
    ensures var sl := s.cfg.slides[s.currentIndex];
            r.2.Some? <==> sl.buttonText.Some? && sl.buttonText.value != "" && sl.buttonLink.Some? && sl.buttonLink.value != ""
    ensures r.2.Some? ==> r.2.value == (s.cfg.slides[s.currentIndex].buttonText.value, s.cfg.slides[s.currentIndex].buttonLink.value)
  {
    var sl := s.cfg.slides[s.currentIndex];
    var button :=
      if sl.buttonText.Some? && sl.buttonText.value != "" && sl.buttonLink.Some? && sl.buttonLink.value != ""
      then Some((sl.buttonText.value, sl.buttonLink.value)) else None;
    (sl.title, sl.description, button)
  }
}

=== FILE: messages_admin.dfy ===
/** The admin contact-message list
    (src/pages/admin/Contact/MessagesListPage.tsx): details view, status
    update by id and delete by id. */
module MessagesAdmin {
  import opened Wrappers
  import opened ReviewStatus
  import Records

  datatype Message = Message(
    id: int,
    name: string,
    email: string,
    phone: string,
    subject: string,
    message: string,
    createdAt: string,
    status: Status)

  datatype Page = Page(messages: seq<Message>, selected: Option<Message>, dialogOpen: bool, newStatus: Status)

  function MessageId(m: Message): int { m.id }

  function ViewDetails(p: Page, m: Message): (r: Page)
    ensures r.selected == Some(m) && r.newStatus == m.status && r.dialogOpen && r.messages == p.messages
  {
    p.(selected := Some(m), newStatus := m.status, dialogOpen := true)
  }

  /** The status select only records its value: nothing is saved until
      `UpdateStatus` (see `ChosenStatusIsSaved`). */
  function StatusChange(p: Page, s: Status): (r: Page)
    ensures r.newStatus == s
    ensures r.messages == p.messages && r.selected == p.selected && r.dialogOpen == p.dialogOpen
  {
    p.(newStatus := s)
  }

  /** Only the status of messages with the selected id changes. */
  function UpdateStatus(p: Page): (r: Page)
    ensures p.selected.None? ==> r == p
    ensures p.selected.Some? ==>
              && !r.dialogOpen
              && |r.messages| == |p.messages|
              && (forall i :: 0 <= i < |p.messages| ==> r.messages[i].(status := p.messages[i].status) == p.messages[i])
              && (forall i :: 0 <= i < |p.messages| ==>
                    r.messages[i].status == if p.messages[i].id == p.selected.value.id then p.newStatus else p.messages[i].status)
  {
    if p.selected.None? then p
    else
      var updated := Records.UpdateWhere(p.messages, MessageId, p.selected.value.id, (m: Message) => m.(status := p.newStatus));
      p.(messages := updated, dialogOpen := false)
  }

  function Delete(p: Page, id: int): (r: Page)
    ensures forall m :: m in r.messages <==> m in p.messages && m.id != id
    ensures r.messages == Records.RemoveWhere(p.messages, MessageId, id)
    ensures r.selected == p.selected && r.dialogOpen == p.dialogOpen && r.newStatus == p.newStatus
  {
    p.(messages := Records.RemoveWhere(p.messages, MessageId, id))
  }

  /** The dialog's whole flow: open a message, pick a status in the select,
      save. Every message with that id then carries the picked status, the
      other messages are untouched, and the dialog is closed. */
  lemma ChosenStatusIsSaved(p: Page, m: Message, s: Status)
    ensures var r := UpdateStatus(StatusChange(ViewDetails(p, m), s));
            && !r.dialogOpen
            && |r.messages| == |p.messages|
            && (forall i :: 0 <= i < |p.messages| && p.messages[i].id == m.id ==> r.messages[i] == p.messages[i].(status := s))
            && (forall i :: 0 <= i < |p.messages| && p.messages[i].id != m.id ==> r.messages[i] == p.messages[i])
  {
    var r := UpdateStatus(StatusChange(ViewDetails(p, m), s));
    forall i | 0 <= i < |p.messages|
      ensures r.messages[i] == if p.messages[i].id == m.id then p.messages[i].(status := s) else p.messages[i]
    {
      assert r.messages[i].(status := p.messages[i].status) == p.messages[i];
    }
  }

  /** With distinct ids, viewing a message and saving without touching the
      select leaves the list as it was. */
  lemma ViewThenUpdateIsNoChange(p: Page, i: nat)
    requires i < |p.messages|
    requires forall j, k :: 0 <= j < k < |p.messages| ==> p.messages[j].id != p.messages[k].id
    ensures UpdateStatus(ViewDetails(p, p.messages[i])).messages == p.messages
  {
    var r := UpdateStatus(ViewDetails(p, p.messages[i]));
    assert forall j :: 0 <= j < |p.messages| ==> r.messages[j] == p.messages[j] by {
      forall j | 0 <= j < |p.messages|
        ensures r.messages[j] == p.messages[j]
      {
        assert r.messages[j].(status := p.messages[j].status) == p.messages[j];
      }
    }
  }
}

=== FILE: nav_items.dfy ===
/** The admin sidebar's active-state computation (src/data/nav-items.ts):
    `updateActiveStates` recomputes every item's `active` flag from the
    current path, recursing into sub-menus. */
module NavItems {
  import Text

  datatype NavItem = NavItem(id: int, path: string, title: string, icon: string, active: bool, subMenu: SubMenu)

  /** The optional `subMenu` field; present-but-empty is a real case. */
  datatype SubMenu = NoSubMenu | Menu(children: seq<NavItem>)

  const DashboardPath := "/admin"
  /** The placeholder path of an item that never matches by itself. */
  const InertPath := "#!"

  function Item(id: int, path: string, title: string, icon: string): NavItem {
    NavItem(id, path, title, icon, false, NoSubMenu)
  }

  /** `defaultNavItems`: every flag starts false; only "A Propos" has children. */
  function DefaultNavItems(): (items: seq<NavItem>)
    ensures |items| == 9
    ensures forall i :: 0 <= i < |items| ==> !items[i].active
  {
    [ Item(1, "/admin", "Dashboard", "lucide:layout-dashboard"),
      Item(2, "gallery/list", "Portfolio", "lucide:briefcase"),
      Item(3, "services/products", "Services", "lucide:wrench"),
      NavItem(4, "about", "A Propos", "lucide:info", false, Menu(AboutChildren())),
      Item(5, "slider", "Slider", "lucide:image"),
      Item(6, "devis", "Devis", "lucide:file-text"),
      Item(7, "messages", "Contactez Nous", "lucide:mail"),
      Item(8, "blogs", "Blog", "lucide:pencil"),
      Item(9, "#!", "Settings", "lucide:settings") ]
  }

  function AboutChildren(): seq<NavItem> {
    [ Item(41, "about/testimonials", "Testimonials", "lucide:quote"),
      Item(42, "about/partners", "Partners", "lucide:users") ]
  }

  /** An item's own match: not the placeholder, and the path is either the
      item's path or starts with "/admin/" followed by it. */
  predicate SelfActive(path: string, currentPath: string) {
    path != InertPath && (currentPath == path || Text.StartsWith(currentPath, "/admin/" + path))
  }

  predicate SomeActive(items: seq<NavItem>) {
    exists j :: 0 <= j < |items| && items[j].active
  }

  /** Identity fields agree; only `active` and the sub-menu's contents may differ. */
  predicate SameIdentity(a: NavItem, b: NavItem) {
    a.id == b.id && a.path == b.path && a.title == b.title && a.icon == b.icon
  }

  function UpdateItem(item: NavItem, currentPath: string): (r: NavItem)
    decreases item
    ensures SameIdentity(r, item)
    ensures item.path == DashboardPath ==> r.active == (currentPath == "/admin") && r.subMenu == item.subMenu
    ensures item.path != DashboardPath ==>
              && (r.subMenu.Menu? <==> item.subMenu.Menu?)
              && (r.subMenu.Menu? ==> |r.subMenu.children| == |item.subMenu.children|)
              && (item.subMenu.Menu? ==> r.subMenu == Menu(UpdateAll(item.subMenu.children, currentPath)))
              && (r.active <==> SelfActive(item.path, currentPath) || (r.subMenu.Menu? && SomeActive(r.subMenu.children)))
  {
    if item.path == DashboardPath then
      item.(active := currentPath == DashboardPath)
    else
      match item.subMenu
      case Menu(children) =>
        var sub := UpdateAll(children, currentPath);
        item.(active := SelfActive(item.path, currentPath) || SomeActive(sub), subMenu := Menu(sub))
      case NoSubMenu =>
        item.(active := SelfActive(item.path, currentPath))
  }

  /** `updateActiveStates`: position by position the same items, with
      recomputed flags. */
  function UpdateAll(items: seq<NavItem>, currentPath: string): (r: seq<NavItem>)
    decreases items
    ensures |r| == |items|
    ensures forall i :: 0 <= i < |items| ==> r[i] == UpdateItem(items[i], currentPath)
  {
    if |items| == 0 then []
    else [UpdateItem(items[0], currentPath)] + UpdateAll(items[1..], currentPath)
  }

  /** A placeholder item without children is never active. */
  lemma InertNeverActive(item: NavItem, currentPath: string)
    requires item.path == InertPath && item.subMenu.NoSubMenu?
    ensures !UpdateItem(item, currentPath).active
  {
  }

  /** Incoming flags are ignored, so recomputing twice equals once. */
  lemma {:induction false} UpdateItemIdempotent(item: NavItem, currentPath: string)
    decreases item
    ensures UpdateItem(UpdateItem(item, currentPath), currentPath) == UpdateItem(item, currentPath)
  {
    if item.path != DashboardPath {
      match item.subMenu
      case Menu(children) => UpdateAllIdempotent(children, currentPath);
      case NoSubMenu =>
    }
  }

  lemma {:induction false} UpdateAllIdempotent(items: seq<NavItem>, currentPath: string)
    decreases items
    ensures UpdateAll(UpdateAll(items, currentPath), currentPath) == UpdateAll(items, currentPath)
  {
    var once := UpdateAll(items, currentPath);
    var twice := UpdateAll(once, currentPath);
    forall i | 0 <= i < |items|
      ensures twice[i] == once[i]
    {
      UpdateItemIdempotent(items[i], currentPath);
    }
  }

  /** On the partners page the "Partners" child is active and the
      "Testimonials" child is not. */
  lemma PartnersChildActive()
    ensures var sub := UpdateAll(AboutChildren(), "/admin/about/partners");
            sub[1].id == 42 && sub[1].active && sub[0].id == 41 && !sub[0].active
  {
    var p := "/admin/about/partners";
    var children := AboutChildren();
    assert Text.StartsWith(p, "/admin/" + children[1].path);
    assert !Text.StartsWith(p, "/admin/" + children[0].path) by {
      assert p[13] != ("/admin/" + children[0].path)[13];
    }
  }

  /** On the partners page, "A Propos" is active through its child and the
      dashboard is not. */
  lemma PartnersPageExample()
    ensures var r := UpdateAll(DefaultNavItems(), "/admin/about/partners");
            && r[3].id == 4 && r[3].active
            && r[3].subMenu.Menu? && |r[3].subMenu.children| == 2
            && r[3].subMenu.children[1].id == 42 && r[3].subMenu.children[1].active
            && r[3].subMenu.children[0].id == 41 && !r[3].subMenu.children[0].active
            && !r[0].active
  {
    var items := DefaultNavItems();
    var p := "/admin/about/partners";
    var r := UpdateAll(items, p);
    PartnersChildActive();
    assert r[3] == UpdateItem(items[3], p);
    assert items[3].subMenu == Menu(AboutChildren());
    assert r[3].subMenu == Menu(UpdateAll(AboutChildren(), p));
  }
}

=== FILE: new_image.dfy ===
/** The admin "new images" form (src/pages/admin/Gallery/NewImagePage.tsx):
    a field record keyed by input name, a drop zone that appends previews
    and names the dropped files in `src`, and removal of one preview. The
    object URL a browser mints for each file travels with the file. */
module NewImage {
  import Seqs
  import Text

  datatype DroppedFile = DroppedFile(name: string, objectUrl: string)

  datatype Form = Form(fields: map<string, string>, previews: seq<string>)

  const SrcField := "src"

  function Initial(): (f: Form)
    ensures f.fields.Keys == {"src", "title", "category"}
    ensures forall k :: k in f.fields ==> f.fields[k] == ""
    ensures f.previews == []
  {
    Form(map["src" := "", "title" := "", "category" := ""], [])
  }

  function Names(files: seq<DroppedFile>): (r: seq<string>)
    ensures |r| == |files| && forall i :: 0 <= i < |files| ==> r[i] == files[i].name
  {
    seq(|files|, i requires 0 <= i < |files| => files[i].name)
  }

  function Urls(files: seq<DroppedFile>): (r: seq<string>)
    ensures |r| == |files| && forall i :: 0 <= i < |files| ==> r[i] == files[i].objectUrl
  {
    seq(|files|, i requires 0 <= i < |files| => files[i].objectUrl)
  }

  /** `onDrop`: one preview per file is appended in order, and `src` is
      overwritten with the dropped names joined by ", ". */
  function Drop(f: Form, files: seq<DroppedFile>): (r: Form)
    ensures |r.previews| == |f.previews| + |files|
    ensures r.previews[..|f.previews|] == f.previews
    ensures forall i :: 0 <= i < |files| ==> r.previews[|f.previews| + i] == files[i].objectUrl
    ensures r.fields == f.fields[SrcField := Text.Join(Names(files), ", ")]
  {
    Form(f.fields[SrcField := Text.Join(Names(files), ", ")], f.previews + Urls(files))
  }

  /** An empty drop clears `src` and adds no preview. */
  lemma EmptyDropClearsSrc(f: Form)
    ensures Drop(f, []).fields[SrcField] == "" && Drop(f, []).previews == f.previews
  {
  }

  /** `handleInputChange`: only the named field changes (a new name adds a
      field). */
  function InputChange(f: Form, name: string, value: string): (r: Form)
    ensures r.fields.Keys == f.fields.Keys + {name}
    ensures r.fields[name] == value
    ensures forall k :: k in f.fields && k != name ==> r.fields[k] == f.fields[k]
    ensures r.previews == f.previews
  {
    f.(fields := f.fields[name := value])
  }

  /** `handleRemoveImage`: exactly the preview at `index` goes. */
  function RemoveImage(f: Form, index: nat): (r: Form)
    ensures r.fields == f.fields
    ensures index < |f.previews| ==> |r.previews| == |f.previews| - 1
    ensures index >= |f.previews| ==> r.previews == f.previews
    ensures forall i :: 0 <= i < |r.previews| ==> r.previews[i] == (if i < index then f.previews[i] else f.previews[i + 1])
  {
    f.(previews := Seqs.RemoveAt(f.previews, index))
  }

  /** Dropping one file and removing its preview restores the previews. */
  lemma DropThenRemoveRestores(f: Form, file: DroppedFile)
    ensures RemoveImage(Drop(f, [file]), |f.previews|).previews == f.previews
  {
    var r := RemoveImage(Drop(f, [file]), |f.previews|);
    assert |r.previews| == |f.previews|;
    assert forall i :: 0 <= i < |f.previews| ==> r.previews[i] == f.previews[i];
  }
}

=== FILE: partners_admin.dfy ===
/** The admin partner list (src/pages/admin/About/PartnersPage.tsx). A
    partner's id is optional, so edit and delete compare optional ids: all
    partners without an id match one another. */
module PartnersAdmin {
  import opened Wrappers
  import Seqs
  import Records

  datatype Partner = Partner(id: Option<int>, image: string, title: string, link: string)

  datatype Draft = Draft(image: string, title: string, link: string)

  const DefaultLink := "./Gallery.html"
  const EmptyDraft := Draft("", "", DefaultLink)

  datatype Page = Page(
    partners: seq<Partner>,
    editOpen: bool,
    deleteOpen: bool,
    addOpen: bool,
    selected: Option<Partner>,
    edited: Option<Partner>,
    draft: Draft)

  function PartnerId(p: Partner): Option<int> { p.id }

  /** `part.id || 0`: an absent id counts as 0 when numbering. */
  function IdOrZero(p: Partner): int { p.id.GetOr(0) }

  function EditClick(pg: Page, p: Partner): (q: Page)
    ensures q.selected == Some(p) && q.edited == Some(p) && q.editOpen && q.partners == pg.partners
  {
    pg.(selected := Some(p), edited := Some(p), editOpen := true)
  }

  function DeleteClick(pg: Page, p: Partner): (q: Page)
    ensures q.selected == Some(p) && q.deleteOpen && q.partners == pg.partners
  {
    pg.(selected := Some(p), deleteOpen := true)
  }

  function EditSave(pg: Page): (q: Page)
    ensures pg.edited.Some? && pg.selected.Some? ==>
              && |q.partners| == |pg.partners|
              && (forall i :: 0 <= i < |pg.partners| ==>
                    q.partners[i] == if pg.partners[i].id == pg.selected.value.id then pg.edited.value else pg.partners[i])
              && !q.editOpen
    ensures !(pg.edited.Some? && pg.selected.Some?) ==> q == pg
  {
    if pg.edited.Some? && pg.selected.Some? then
      pg.(partners := Records.ReplaceWhere(pg.partners, PartnerId, pg.selected.value.id, pg.edited.value), editOpen := false)
    else pg
  }

  function Delete(pg: Page): (q: Page)
    ensures pg.selected.Some? ==>
              && (forall p :: p in q.partners <==> p in pg.partners && p.id != pg.selected.value.id)
              && q.partners == Records.RemoveWhere(pg.partners, PartnerId, pg.selected.value.id)
              && !q.deleteOpen
              && q == pg.(partners := q.partners, deleteOpen := false)
    ensures pg.selected.None? ==> q == pg
  {
    if pg.selected.Some? then
      pg.(partners := Records.RemoveWhere(pg.partners, PartnerId, pg.selected.value.id), deleteOpen := false)
    else pg
  }

  /** Editing a partner without an id overwrites every partner without an
      id, since `undefined === undefined`. */
  lemma AbsentIdsMatchEachOther(pg: Page, i: nat)
    requires pg.edited.Some? && pg.selected.Some? && pg.selected.value.id.None?
    requires i < |pg.partners| && pg.partners[i].id.None?
    ensures EditSave(pg).partners[i] == pg.edited.value
    ensures pg.partners[i] !in Delete(pg).partners
  {
  }

  predicate DraftComplete(d: Draft) {
    d.image != "" && d.title != ""
  }

  /** `Math.max(...partners.map(p => p.id || 0)) + 1`, with 1 for an empty
      list (see `Records.NextId`). */
  function NewId(partners: seq<Partner>): (r: int)
    ensures forall i :: 0 <= i < |partners| && partners[i].id.Some? ==> partners[i].id.value < r
    ensures (exists i :: 0 <= i < |partners| && (partners[i].id.None? || partners[i].id.value >= 0)) ==> r >= 1
    ensures |partners| == 0 ==> r == 1
  {
    var ids := Records.Keys(partners, IdOrZero);
    assert forall i :: 0 <= i < |partners| ==> ids[i] == IdOrZero(partners[i]);
    Records.NextId(ids)
  }

  /** A complete draft is appended with a fresh id; the draft then resets
      with the link "./Gallery.html". */
  function AddSave(pg: Page): (q: Page)
    ensures DraftComplete(pg.draft) ==>
              && |q.partners| == |pg.partners| + 1
              && q.partners[..|pg.partners|] == pg.partners
              && (var added := q.partners[|pg.partners|];
                  added.id == Some(NewId(pg.partners))
                  && added.image == pg.draft.image && added.title == pg.draft.title && added.link == pg.draft.link)
              && q.draft == EmptyDraft && q.draft.link == "./Gallery.html" && !q.addOpen
    ensures !DraftComplete(pg.draft) ==> q == pg
  {
    if DraftComplete(pg.draft) then
      var d := pg.draft;
      pg.(partners := pg.partners + [Partner(Some(NewId(pg.partners)), d.image, d.title, d.link)],
          addOpen := false, draft := EmptyDraft)
    else pg
  }

  /** Deleting the partner an add just created gives back the list as it
      was before the add: its id is defined and above every defined id. */
  lemma AddThenDeleteRestores(pg: Page)
    requires DraftComplete(pg.draft)
    ensures var q := AddSave(pg);
            Delete(DeleteClick(q, q.partners[|pg.partners|])).partners == pg.partners
  {
    var q := AddSave(pg);
    var added := q.partners[|pg.partners|];
    assert q.partners == pg.partners + [added];
    Records.AppendThenRemove(pg.partners, PartnerId, added);
  }

  /** Opening a partner for edit and saving it unchanged leaves the list as
      it was, provided no other partner shares its id (absent ids count as
      shared). */
  lemma EditUnchangedIsNoChange(pg: Page, p: Partner)
    requires forall i :: 0 <= i < |pg.partners| && pg.partners[i].id == p.id ==> pg.partners[i] == p
    ensures EditSave(EditClick(pg, p)).partners == pg.partners
  {
    Records.ReplaceWhereSame(pg.partners, PartnerId, p.id, p);
  }
}

=== FILE: portfolio.dfy ===
/** The public portfolio grid (src/components/PortfolioSection/Portfolio.tsx):
    category buttons, the filtered list, six-per-page pagination and the
    lightbox opened on a clicked card. */
module Portfolio {
  import Seqs
  import opened Gallery

  const ImagesPerPage: nat := 6
  const AllCategories := "Tous"

  /** The React state of the section. */
  datatype View = View(selectedCategory: string, currentPage: nat, isOpen: bool, imageIndex: nat)

  const Initial := View(AllCategories, 1, false, 0)

  /** The category buttons: "Tous", then each category once, in order of
      first appearance. */
  function Buttons(images: seq<GalleryImage>): seq<string> {
    CategoryTabs(AllCategories, images)
  }

  function Filtered(images: seq<GalleryImage>, v: View): seq<GalleryImage> {
    FilterByCategory(images, AllCategories, v.selectedCategory)
  }

  /** `Math.ceil(n / imagesPerPage)`. */
  function TotalPages(n: nat): (t: nat)
    ensures t * ImagesPerPage >= n
    ensures t > 0 ==> (t - 1) * ImagesPerPage < n
  {
    (n + ImagesPerPage - 1) / ImagesPerPage
  }

  /** `filtered.slice((page - 1) * 6, page * 6)`: the images of one page. */
  function PageOf<T>(filtered: seq<T>, page: nat): (r: seq<T>)
    requires page >= 1
    ensures |r| <= ImagesPerPage
    ensures forall i :: 0 <= i < |r| ==> (page - 1) * ImagesPerPage + i < |filtered|
                                         && r[i] == filtered[(page - 1) * ImagesPerPage + i]
    ensures page <= TotalPages(|filtered|) ==> |r| >= 1
    ensures page > TotalPages(|filtered|) ==> r == []
  {
    Seqs.Slice(filtered, (page - 1) * ImagesPerPage, page * ImagesPerPage)
  }

  /** Pages 1..k shown one after the other. */
  function PagesUpTo<T>(filtered: seq<T>, k: nat): seq<T> {
    if k == 0 then [] else PagesUpTo(filtered, k - 1) + PageOf(filtered, k)
  }

  lemma {:induction false} PagesUpToPrefix<T>(filtered: seq<T>, k: nat)
    ensures PagesUpTo(filtered, k) == Seqs.Take(filtered, k * ImagesPerPage)
  {
    if k > 0 {
      PagesUpToPrefix(filtered, k - 1);
      var a := (k - 1) * ImagesPerPage;
      var page := PageOf(filtered, k);
      if a < |filtered| {
        assert page == Seqs.Take(filtered, k * ImagesPerPage)[a..];
        assert Seqs.Take(filtered, k * ImagesPerPage) == Seqs.Take(filtered, a) + page;
      }
    }
  }

  /** The pages, read in order, reproduce the filtered list exactly: nothing
      is lost, repeated or reordered by pagination. */
  lemma PagesReassemble<T>(filtered: seq<T>)
    ensures PagesUpTo(filtered, TotalPages(|filtered|)) == filtered
  {
    PagesUpToPrefix(filtered, TotalPages(|filtered|));
  }

  /** The cards on screen. */
  function CurrentImages(images: seq<GalleryImage>, v: View): seq<GalleryImage>
    requires v.currentPage >= 1
  {
    PageOf(Filtered(images, v), v.currentPage)
  }

  /** Clicking a category button selects it and goes back to page 1. */
  function SelectCategory(v: View, c: string): (w: View)
    ensures w.selectedCategory == c && w.currentPage == 1
    ensures w.isOpen == v.isOpen && w.imageIndex == v.imageIndex
  {
    v.(selectedCategory := c, currentPage := 1)
  }

  /** Page buttons exist for 1..TotalPages, so a page click keeps the page in range. */
  function SelectPage(images: seq<GalleryImage>, v: View, p: nat): (w: View)
    requires 1 <= p <= TotalPages(|Filtered(images, v)|)
    ensures w.currentPage == p && |CurrentImages(images, w)| >= 1
    ensures w.selectedCategory == v.selectedCategory
  {
    v.(currentPage := p)
  }

  /** The page buttons are rendered only when there is more than one page. */
  predicate ShowsPager(images: seq<GalleryImage>, v: View) {
    TotalPages(|Filtered(images, v)|) > 1
  }

  lemma PagerIffOverflow(images: seq<GalleryImage>, v: View)
    ensures ShowsPager(images, v) <==> |Filtered(images, v)| > ImagesPerPage
  {
  }

  /** Clicking card `index` of the grid opens the lightbox on that card. */
  function OpenLightbox(v: View, index: nat): (w: View)
    ensures w.isOpen && w.imageIndex == index
    ensures w.selectedCategory == v.selectedCategory && w.currentPage == v.currentPage
  {
    v.(imageIndex := index, isOpen := true)
  }

  /** The lightbox receives the current page's images, so its index is a
      position within the page: card `i` of page `p` is filtered image
      `(p - 1) * 6 + i`. */
  lemma LightboxIndexIsPageRelative(images: seq<GalleryImage>, v: View, i: nat)
    requires v.currentPage >= 1 && i < |CurrentImages(images, v)|
    ensures CurrentImages(images, OpenLightbox(v, i))[OpenLightbox(v, i).imageIndex]
            == Filtered(images, v)[(v.currentPage - 1) * ImagesPerPage + i]
  {
  }
}

=== FILE: portfolio_admin.dfy ===
/** The admin gallery list (src/pages/admin/Gallery/PortfolioListPage.tsx):
    category tabs, edit-by-id, delete-by-id and the guarded add that
    numbers the new image `max(id) + 1`. */
module PortfolioAdmin {
  import opened Wrappers
  import Seqs
  import Records
  import opened Gallery

  const AllTab := "all"

  /** The add dialog's draft: an image without an id. */
  datatype Draft = Draft(src: string, title: string, category: string)

  const EmptyDraft := Draft("", "", "")

  datatype Page = Page(
    images: seq<GalleryImage>,
    selectedCategory: string,
    categories: seq<string>,
    editOpen: bool,
    deleteOpen: bool,
    addOpen: bool,
    selected: Option<GalleryImage>,
    edited: Option<GalleryImage>,
    draft: Draft)

  function ImageId(img: GalleryImage): int { img.id }

  /** The mount effect: the fetched images and their tabs, computed once. */
  function Mount(fetched: seq<GalleryImage>): (p: Page)
    ensures p.images == fetched && p.selectedCategory == AllTab
    ensures p.categories == CategoryTabs(AllTab, fetched)
    ensures p.selected == None && p.edited == None && p.draft == EmptyDraft
  {
    Page(fetched, AllTab, CategoryTabs(AllTab, fetched), false, false, false, None, None, EmptyDraft)
  }

  function EditClick(p: Page, img: GalleryImage): (q: Page)
    ensures q.selected == Some(img) && q.edited == Some(img) && q.editOpen
    ensures q.images == p.images
  {
    p.(selected := Some(img), edited := Some(img), editOpen := true)
  }

  function DeleteClick(p: Page, img: GalleryImage): (q: Page)
    ensures q.selected == Some(img) && q.deleteOpen && q.images == p.images
  {
    p.(selected := Some(img), deleteOpen := true)
  }

  /** Saving an edit replaces every image carrying the selected id by the
      edited copy; length and every other image are unchanged. */
  function EditSave(p: Page): (q: Page)
    ensures p.edited.Some? && p.selected.Some? ==>
              && |q.images| == |p.images|
              && (forall i :: 0 <= i < |p.images| ==>
                    q.images[i] == if p.images[i].id == p.selected.value.id then p.edited.value else p.images[i])
              && !q.editOpen
    ensures !(p.edited.Some? && p.selected.Some?) ==> q == p
  {
    if p.edited.Some? && p.selected.Some? then
      p.(images := Records.ReplaceWhere(p.images, ImageId, p.selected.value.id, p.edited.value), editOpen := false)
    else p
  }

  /** Deleting removes exactly the images carrying the selected id. */
  function Delete(p: Page): (q: Page)
    ensures p.selected.Some? ==>
              && (forall img :: img in q.images <==> img in p.images && img.id != p.selected.value.id)
              && q.images == Records.RemoveWhere(p.images, ImageId, p.selected.value.id)
              && !q.deleteOpen
              && q == p.(images := q.images, deleteOpen := false)
    ensures p.selected.None? ==> q == p
  {
    if p.selected.Some? then
      p.(images := Records.RemoveWhere(p.images, ImageId, p.selected.value.id), deleteOpen := false)
    else p
  }

  /** The three fields the add button requires. */
  predicate DraftComplete(d: Draft) {
    d.src != "" && d.title != "" && d.category != ""
  }

  /** A complete draft is appended with the next id (the largest id plus
      one, or 1 for an empty gallery: see `Records.NextId`), the dialog
      closes and the draft is cleared; an incomplete draft changes nothing. */
  function AddSave(p: Page): (q: Page)
    ensures DraftComplete(p.draft) ==>
              && |q.images| == |p.images| + 1
              && q.images[..|p.images|] == p.images
              && (var added := q.images[|p.images|];
                  added.src == p.draft.src && added.title == p.draft.title && added.category == p.draft.category
                  && added.id == Records.NextId(Records.Keys(p.images, ImageId))
                  && (forall i :: 0 <= i < |p.images| ==> p.images[i].id < added.id)
                  && (|p.images| > 0 ==> exists i :: 0 <= i < |p.images| && p.images[i].id == added.id - 1)
                  && (|p.images| == 0 ==> added.id == 1))
              && q.draft == EmptyDraft && !q.addOpen
    ensures !DraftComplete(p.draft) ==> q == p
    ensures q.categories == p.categories
  {
    if DraftComplete(p.draft) then
      var ids := Records.Keys(p.images, ImageId);
      var newId := Records.NextId(ids);
      var d := p.draft;
      p.(images := p.images + [GalleryImage(newId, d.src, d.title, d.category)], addOpen := false, draft := EmptyDraft)
    else p
  }

  function SelectTab(p: Page, c: string): (q: Page)
    ensures q.selectedCategory == c && q.images == p.images
  {
    p.(selectedCategory := c)
  }

  /** The grid: all images on the "all" tab, otherwise only those of the
      selected category. */
  function Visible(p: Page): (r: seq<GalleryImage>)
    ensures p.selectedCategory == AllTab ==> r == p.images
    ensures p.selectedCategory != AllTab ==>
              forall img :: img in r <==> img in p.images && img.category == p.selectedCategory
    ensures p.selectedCategory != AllTab ==>
              forall img :: Seqs.Count(r, img) == if img.category == p.selectedCategory then Seqs.Count(p.images, img) else 0
  {
    FilterByCategory(p.images, AllTab, p.selectedCategory)
  }

  /** The grid keeps the list's order: a list made of two parts shows the
      visible images of the first part, then those of the second. */
  lemma VisibleKeepsOrder(p: Page, a: seq<GalleryImage>, b: seq<GalleryImage>)
    requires p.images == a + b
    ensures Visible(p) == Visible(p.(images := a)) + Visible(p.(images := b))
  {
    FilterByCategoryConcat(a, b, AllTab, p.selectedCategory);
  }

  /** The tabs are computed once from the fetched images: an add with a new
      category does not produce a tab for it. */
  lemma TabsComputedOnce(fetched: seq<GalleryImage>, d: Draft)
    requires DraftComplete(d)
    requires d.category !in Categories(fetched) && d.category != AllTab
    ensures var q := AddSave(Mount(fetched).(draft := d));
            d.category in Categories(q.images) && d.category !in q.categories
  {
    var q := AddSave(Mount(fetched).(draft := d));
    assert Categories(q.images)[|fetched|] == d.category;
    var tabs := q.categories;
    assert tabs == [tabs[0]] + tabs[1..];
  }

  /** Deleting the image an add just created gives back the gallery as it
      was before the add. */
  lemma AddThenDeleteRestores(p: Page)
    requires DraftComplete(p.draft)
    ensures var q := AddSave(p);
            Delete(DeleteClick(q, q.images[|p.images|])).images == p.images
  {
    var q := AddSave(p);
    var added := q.images[|p.images|];
    assert q.images == p.images + [added];
    Records.AppendThenRemove(p.images, ImageId, added);
  }

  /** Opening an image for edit and saving it unchanged leaves the gallery
      as it was, provided no other image shares its id. */
  lemma EditUnchangedIsNoChange(p: Page, img: GalleryImage)
    requires forall i :: 0 <= i < |p.images| && p.images[i].id == img.id ==> p.images[i] == img
    ensures EditSave(EditClick(p, img)).images == p.images
  {
    Records.ReplaceWhereSame(p.images, ImageId, img.id, img);
  }
}

=== FILE: products_admin.dfy ===
/** The admin product list (src/pages/admin/Services/ProductsListPage.tsx):
    the title filter, edit-by-id, delete-by-id and the guarded add. */
module ProductsAdmin {
  import opened Wrappers
  import Seqs
  import Records

  datatype Product = Product(id: int, image: string, title: string, description: string, link: string)

  /** The add dialog's draft: a product without an id. */
  datatype Draft = Draft(image: string, title: string, description: string, link: string)

  const DefaultLink := "services-details.html"
  const EmptyDraft := Draft("", "", "", DefaultLink)
  const AllFilter := "all"

  datatype Page = Page(
    products: seq<Product>,
    selectedFilter: string,
    editOpen: bool,
    deleteOpen: bool,
    addOpen: bool,
    selected: Option<Product>,
    edited: Option<Product>,
    draft: Draft)

  function ProductId(p: Product): int { p.id }

  /** The filter effect: every product for "all", otherwise the products
      whose title equals the selected value, in list order. */
  function Filtered(products: seq<Product>, filter: string): (r: seq<Product>)
    ensures filter == AllFilter ==> r == products
    ensures filter != AllFilter ==> forall p :: p in r <==> p in products && p.title == filter
    ensures filter != AllFilter ==> forall p :: Seqs.Count(r, p) == if p.title == filter then Seqs.Count(products, p) else 0
    ensures |r| <= |products|
  {
    if filter == AllFilter then products
    else
      forall p ensures Seqs.Count(Seqs.Filter(products, TitleIs(filter)), p) == if p.title == filter then Seqs.Count(products, p) else 0 {
        Seqs.FilterCount(products, TitleIs(filter), p);
      }
      Seqs.Filter(products, TitleIs(filter))
  }

  /** The title test `p.title === filter`, as one value. */
  function TitleIs(filter: string): Product -> bool {
    (p: Product) => p.title == filter
  }

  /** The filter keeps list order: a list made of two parts filters to the
      first part's matches followed by the second part's. */
  lemma FilteredConcat(a: seq<Product>, b: seq<Product>, filter: string)
    ensures Filtered(a + b, filter) == Filtered(a, filter) + Filtered(b, filter)
  {
    if filter != AllFilter {
      Seqs.FilterConcat(a, b, TitleIs(filter));
    }
  }

  /** A single product is kept exactly when its title matches. */
  lemma FilteredOne(p: Product, filter: string)
    ensures Filtered([p], filter) == if filter == AllFilter || p.title == filter then [p] else []
  {
    if filter != AllFilter {
      assert [p][1..] == [];
    }
  }

  function EditClick(pg: Page, p: Product): (q: Page)
    ensures q.selected == Some(p) && q.edited == Some(p) && q.editOpen && q.products == pg.products
  {
    pg.(selected := Some(p), edited := Some(p), editOpen := true)
  }

  function DeleteClick(pg: Page, p: Product): (q: Page)
    ensures q.selected == Some(p) && q.deleteOpen && q.products == pg.products
  {
    pg.(selected := Some(p), deleteOpen := true)
  }

  /** Saving an edit replaces the products carrying the selected id and
      leaves the others and the length unchanged. */
  function EditSave(pg: Page): (q: Page)
    ensures pg.edited.Some? && pg.selected.Some? ==>
              && |q.products| == |pg.products|
              && (forall i :: 0 <= i < |pg.products| ==>
                    q.products[i] == if pg.products[i].id == pg.selected.value.id then pg.edited.value else pg.products[i])
              && !q.editOpen
    ensures !(pg.edited.Some? && pg.selected.Some?) ==> q == pg
  {
    if pg.edited.Some? && pg.selected.Some? then
      pg.(products := Records.ReplaceWhere(pg.products, ProductId, pg.selected.value.id, pg.edited.value), editOpen := false)
    else pg
  }

  /** Deleting removes exactly the products carrying the selected id. */
  function Delete(pg: Page): (q: Page)
    ensures pg.selected.Some? ==>
              && (forall p :: p in q.products <==> p in pg.products && p.id != pg.selected.value.id)
              && q.products == Records.RemoveWhere(pg.products, ProductId, pg.selected.value.id)
              && !q.deleteOpen
              && q == pg.(products := q.products, deleteOpen := false)
    ensures pg.selected.None? ==> q == pg
  {
    if pg.selected.Some? then
      pg.(products := Records.RemoveWhere(pg.products, ProductId, pg.selected.value.id), deleteOpen := false)
    else pg
  }

  /** Image, title and description are required; the link is not checked. */
  predicate DraftComplete(d: Draft) {
    d.image != "" && d.title != "" && d.description != ""
  }

  /** A complete draft is appended with the next id (the largest id plus
      one, or 1 for an empty list: see `Records.NextId`); the draft then
      resets to empty fields and the default link. */
  function AddSave(pg: Page): (q: Page)
    ensures DraftComplete(pg.draft) ==>
              && |q.products| == |pg.products| + 1
              && q.products[..|pg.products|] == pg.products
              && (var added := q.products[|pg.products|];
                  added == Product(added.id, pg.draft.image, pg.draft.title, pg.draft.description, pg.draft.link)
                  && added.id == Records.NextId(Records.Keys(pg.products, ProductId))
                  && (forall i :: 0 <= i < |pg.products| ==> pg.products[i].id < added.id)
                  && (|pg.products| > 0 ==> exists i :: 0 <= i < |pg.products| && pg.products[i].id == added.id - 1)
                  && (|pg.products| == 0 ==> added.id == 1))
              && q.draft == EmptyDraft && q.draft.link == "services-details.html" && !q.addOpen
    ensures !DraftComplete(pg.draft) ==> q == pg
  {
    if DraftComplete(pg.draft) then
      var newId := Records.NextId(Records.Keys(pg.products, ProductId));
      var d := pg.draft;
      pg.(products := pg.products + [Product(newId, d.image, d.title, d.description, d.link)],
          addOpen := false, draft := EmptyDraft)
    else pg
  }

  /** The link is never validated: a draft with an empty link is still added. */
  lemma LinkNotRequired(d: Draft)
    requires d.image != "" && d.title != "" && d.description != "" && d.link == ""
    ensures DraftComplete(d)
  {
  }

  /** Deleting the product an add just created gives back the list as it
      was before the add. */
  lemma AddThenDeleteRestores(pg: Page)
    requires DraftComplete(pg.draft)
    ensures var q := AddSave(pg);
            Delete(DeleteClick(q, q.products[|pg.products|])).products == pg.products
  {
    var q := AddSave(pg);
    var added := q.products[|pg.products|];
    assert q.products == pg.products + [added];
    Records.AppendThenRemove(pg.products, ProductId, added);
  }

  /** Opening a product for edit and saving it unchanged leaves the list as
      it was, provided no other product shares its id. */
  lemma EditUnchangedIsNoChange(pg: Page, p: Product)
    requires forall i :: 0 <= i < |pg.products| && pg.products[i].id == p.id ==> pg.products[i] == p
    ensures EditSave(EditClick(pg, p)).products == pg.products
  {
    Records.ReplaceWhereSame(pg.products, ProductId, p.id, p);
  }
}

=== FILE: records.dfy ===
/** Id-keyed list editing shared by the admin pages: edit-by-id
    (`xs.map(x => x.id === sel.id ? edited : x)`), delete-by-id
    (`xs.filter(x => x.id !== sel.id)`), and the `Math.max(...ids) + 1`
    rule that numbers a new record. The key is a parameter so that pages
    with required and with optional ids share one definition. */
module Records {
  import Seqs

  /** Applies `f` to exactly the elements whose key is `k`. */
  function UpdateWhere<T, K(==)>(xs: seq<T>, key: T -> K, k: K, f: T -> T): (r: seq<T>)
    ensures |r| == |xs|
    ensures forall i :: 0 <= i < |xs| ==> r[i] == (if key(xs[i]) == k then f(xs[i]) else xs[i])
  {
    if xs == [] then []
    else [if key(xs[0]) == k then f(xs[0]) else xs[0]] + UpdateWhere(xs[1..], key, k, f)
  }

  /** Replaces every element whose key is `k` by `v`. */
  function ReplaceWhere<T, K(==)>(xs: seq<T>, key: T -> K, k: K, v: T): (r: seq<T>)
    ensures |r| == |xs|
    ensures forall i :: 0 <= i < |xs| ==> r[i] == (if key(xs[i]) == k then v else xs[i])
  {
    UpdateWhere(xs, key, k, _ => v)
  }

  /** Drops every element whose key is `k`, keeping the others in order. */
  function RemoveWhere<T(!new), K(==)>(xs: seq<T>, key: T -> K, k: K): (r: seq<T>)
    ensures forall x :: x in r <==> x in xs && key(x) != k
    ensures |r| <= |xs|
  {
    Seqs.Filter(xs, x => key(x) != k)
  }

  /** Delete-by-id keeps each surviving record as often as it occurred and
      distributes over concatenation, so the survivors keep their order. */
  lemma RemoveWhereExact<T(!new), K>(xs: seq<T>, ys: seq<T>, key: T -> K, k: K, x: T)
    ensures Seqs.Count(RemoveWhere(xs, key, k), x) == if key(x) != k then Seqs.Count(xs, x) else 0
    ensures RemoveWhere(xs + ys, key, k) == RemoveWhere(xs, key, k) + RemoveWhere(ys, key, k)
  {
    Seqs.FilterCount(xs, x => key(x) != k, x);
    Seqs.FilterConcat(xs, ys, x => key(x) != k);
  }

  /** `Math.max(...xs)` on a non-empty list. */
  function Max(xs: seq<int>): (m: int)
    requires |xs| > 0
    ensures m in xs
    ensures forall i :: 0 <= i < |xs| ==> xs[i] <= m
  {
    if |xs| == 1 then xs[0]
    else
      var m := Max(xs[1..]);
      if xs[0] >= m then xs[0] else m
  }

  /** A JavaScript number as the id arithmetic sees it: `Math.max()` of no
      arguments is `-Infinity`, and `-Infinity + 1` is `-Infinity`. */
  datatype JsNumber = NegInfinity | Finite(value: int)

  /** `Math.max(...xs)` on JavaScript numbers, including the empty call. */
  function JsMax(xs: seq<JsNumber>): (m: JsNumber)
    ensures m.NegInfinity? <==> forall i :: 0 <= i < |xs| ==> xs[i].NegInfinity?
    ensures m.Finite? ==> m in xs && forall i :: 0 <= i < |xs| && xs[i].Finite? ==> xs[i].value <= m.value
  {
    if |xs| == 0 then NegInfinity
    else
      var m := JsMax(xs[1..]);
      assert forall i :: 1 <= i < |xs| ==> xs[i] == xs[1..][i - 1];
      match (xs[0], m)
      case (NegInfinity, _) => m
      case (Finite(a), NegInfinity) => xs[0]
      case (Finite(a), Finite(b)) => if a >= b then xs[0] else m
  }

  function JsPlusOne(x: JsNumber): JsNumber {
    match x
    case NegInfinity => NegInfinity
    case Finite(v) => Finite(v + 1)
  }

  /** The admin pages' numbering exactly as written, `Math.max(...ids) + 1`:
      on an empty list it yields `-Infinity`, and it keeps yielding it. */
  function NextIdAsWritten(ids: seq<JsNumber>): (r: JsNumber)
    ensures r.NegInfinity? <==> forall i :: 0 <= i < |ids| ==> ids[i].NegInfinity?
    ensures r.Finite? ==> forall i :: 0 <= i < |ids| && ids[i].Finite? ==> ids[i].value < r.value
  {
    JsPlusOne(JsMax(ids))
  }

  /** Adding to an emptied list twice gives both records the same id,
      `-Infinity`, so edit-by-id and delete-by-id then hit both. */
  lemma EmptyListIdsCollide()
    ensures var first := NextIdAsWritten([]);
            var second := NextIdAsWritten([first]);
            first == NegInfinity && second == first
  {
  }

  /** The intended numbering: one above the largest id, and 1 for an empty
      list. It is fresh for every list, so successive adds never share an
      id. */
  function NextId(ids: seq<int>): (r: int)
    ensures forall i :: 0 <= i < |ids| ==> ids[i] < r
    ensures |ids| > 0 ==> r - 1 in ids
    ensures |ids| == 0 ==> r == 1
  {
    if |ids| == 0 then 1 else Max(ids) + 1
  }

  /** On a non-empty list the corrected numbering is the written one. */
  lemma {:induction false} NextIdAgreesWhenNonEmpty(ids: seq<int>)
    requires |ids| > 0
    ensures NextIdAsWritten(seq(|ids|, i requires 0 <= i < |ids| => Finite(ids[i]))) == Finite(NextId(ids))
  {
    var js := seq(|ids|, i requires 0 <= i < |ids| => Finite(ids[i]));
    var m := JsMax(js);
    assert js[0].Finite?;
    assert m.Finite?;
    var k :| 0 <= k < |js| && js[k] == m;
    assert m.value == ids[k];
    assert forall i :: 0 <= i < |ids| ==> ids[i] <= m.value by {
      forall i | 0 <= i < |ids| ensures ids[i] <= m.value {
        assert js[i].Finite? && js[i].value == ids[i];
      }
    }
    assert Max(ids) == m.value;
  }

  /** Two successive adds with the corrected numbering get distinct ids. */
  lemma SuccessiveIdsDistinct(ids: seq<int>)
    ensures NextId(ids + [NextId(ids)]) != NextId(ids)
  {
    var a := NextId(ids);
    var ids2 := ids + [a];
    assert ids2[|ids|] == a;
  }

  /** The keys of a list, position by position. */
  function Keys<T, K>(xs: seq<T>, key: T -> K): (r: seq<K>)
    ensures |r| == |xs|
    ensures forall i :: 0 <= i < |xs| ==> r[i] == key(xs[i])
  {
    seq(|xs|, i requires 0 <= i < |xs| => key(xs[i]))
  }

  /** Deleting a key nobody carries changes nothing. */
  lemma RemoveWhereAbsent<T(!new), K>(xs: seq<T>, key: T -> K, k: K)
    requires forall i :: 0 <= i < |xs| ==> key(xs[i]) != k
    ensures RemoveWhere(xs, key, k) == xs
  {
    Seqs.FilterAll(xs, x => key(x) != k);
  }

  /** Replacing a key's records by the record they already are changes
      nothing. */
  lemma ReplaceWhereSame<T, K>(xs: seq<T>, key: T -> K, k: K, v: T)
    requires forall i :: 0 <= i < |xs| && key(xs[i]) == k ==> xs[i] == v
    ensures ReplaceWhere(xs, key, k, v) == xs
  {
  }

  /** Adding one record with a fresh key and then deleting that key gives
      back the original list. */
  lemma AppendThenRemove<T(!new), K>(xs: seq<T>, key: T -> K, x: T)
    requires forall i :: 0 <= i < |xs| ==> key(xs[i]) != key(x)
    ensures RemoveWhere(xs + [x], key, key(x)) == xs
  {
    RemoveWhereExact(xs, [x], key, key(x), x);
    RemoveWhereAbsent(xs, key, key(x));
    assert RemoveWhere([x], key, key(x)) == [];
  }
}

=== FILE: review_status.dfy ===
/** The three-valued review status shared by quote requests and contact
    messages (src/pages/admin/Devis/DevisListPage.tsx and
    src/pages/admin/Contact/MessagesListPage.tsx), with the label and colour
    tables both pages render. */
module ReviewStatus {
  import opened Wrappers

  datatype Status = Pending | Processed | Rejected

  /** The status's string value as stored on a record. */
  function Key(s: Status): string {
    match s
    case Pending => "pending"
    case Processed => "processed"
    case Rejected => "rejected"
  }

  function Label(s: Status): string {
    match s
    case Pending => "En attente"
    case Processed => "Traité"
    case Rejected => "Rejeté"
  }

  function Colour(s: Status): string {
    match s
    case Pending => "#FFA500"
    case Processed => "#4CAF50"
    case Rejected => "#F44336"
  }

  /** The select's value cast back to a status: exactly the three keys parse. */
  function ParseKey(v: string): (r: Option<Status>)
    ensures r.Some? ==> Key(r.value) == v
    ensures r.None? ==> forall s: Status :: Key(s) != v
  {
    if v == "pending" then Some(Pending)
    else if v == "processed" then Some(Processed)
    else if v == "rejected" then Some(Rejected)
    else None
  }

  /** Keys round-trip through parsing, and distinct statuses never share a
      key, a label or a colour. */
  lemma KeysLabelsColoursDistinct(s: Status, t: Status)
    ensures ParseKey(Key(s)) == Some(s)
    ensures s != t ==> Key(s) != Key(t) && Label(s) != Label(t) && Colour(s) != Colour(t)
    ensures Label(s) != "" && Colour(s) != ""
  {
  }
}

=== FILE: seqs.dfy ===
/** Sequence helpers shared by the list-shaping code of the site: the
    JavaScript `Array.filter`, `[...new Set(xs)]`, `slice(0, k)`,
    `flatMap` and `filter((_, i) => i !== k)` idioms. */
module Seqs {

  /** `xs.filter(keep)`. */
  function Filter<T(!new)>(xs: seq<T>, keep: T -> bool): (r: seq<T>)
    ensures |r| <= |xs|
    ensures forall x :: x in r <==> x in xs && keep(x)
    ensures multiset(r) <= multiset(xs)
  {
    if xs == [] then []
    else
      assert xs == [xs[0]] + xs[1..];
      if keep(xs[0]) then [xs[0]] + Filter(xs[1..], keep)
      else Filter(xs[1..], keep)
  }

  /** Filtering commutes with concatenation, so it keeps the relative order
      of the elements it retains. */
  lemma {:induction false} FilterConcat<T(!new)>(a: seq<T>, b: seq<T>, keep: T -> bool)
    ensures Filter(a + b, keep) == Filter(a, keep) + Filter(b, keep)
  {
    if a == [] {
      assert a + b == b;
    } else {
      assert (a + b)[1..] == a[1..] + b;
      FilterConcat(a[1..], b, keep);
    }
  }

  /** A predicate that holds everywhere keeps the whole list. */
  lemma {:induction false} FilterAll<T(!new)>(xs: seq<T>, keep: T -> bool)
    requires forall i :: 0 <= i < |xs| ==> keep(xs[i])
    ensures Filter(xs, keep) == xs
  {
    if xs != [] {
      FilterAll(xs[1..], keep);
    }
  }

  /** Number of occurrences of `x` in `xs`. */
  function Count<T(==)>(xs: seq<T>, x: T): (n: nat)
    ensures n <= |xs|
    ensures n == 0 <==> x !in xs
  {
    if xs == [] then 0 else (if xs[0] == x then 1 else 0) + Count(xs[1..], x)
  }

  /** Filtering keeps every kept element with its multiplicity and drops the
      others entirely. */
  lemma {:induction false} FilterCount<T(!new)>(xs: seq<T>, keep: T -> bool, x: T)
    ensures Count(Filter(xs, keep), x) == if keep(x) then Count(xs, x) else 0
  {
    if xs != [] {
      FilterCount(xs[1..], keep, x);
      if keep(xs[0]) {
        assert ([xs[0]] + Filter(xs[1..], keep))[1..] == Filter(xs[1..], keep);
      }
    }
  }

  /** Index of the first occurrence of `x` in `xs`. */
  function FirstIndex<T(==)>(xs: seq<T>, x: T): (i: nat)
    requires x in xs
    ensures i < |xs| && xs[i] == x
    ensures forall j :: 0 <= j < i ==> xs[j] != x
  {
    if xs[0] == x then 0 else 1 + FirstIndex(xs[1..], x)
  }

  lemma FirstIndexPrefix<T>(xs: seq<T>, y: T, x: T)
    requires x in xs
    ensures FirstIndex(xs + [y], x) == FirstIndex(xs, x)
  {
    var i := FirstIndex(xs, x);
    var k := FirstIndex(xs + [y], x);
    assert (xs + [y])[i] == x;
  }

  ghost predicate NoDuplicates<T>(xs: seq<T>) {
    forall i, j :: 0 <= i < j < |xs| ==> xs[i] != xs[j]
  }

  /** `[...new Set(xs)]`: every distinct element once, in the order of its
      first occurrence. */
  function Distinct<T(==,!new)>(xs: seq<T>): (r: seq<T>)
    ensures NoDuplicates(r)
    ensures forall x :: x in r <==> x in xs
    ensures forall i, j :: 0 <= i < j < |r| ==> FirstIndex(xs, r[i]) < FirstIndex(xs, r[j])
  {
    if xs == [] then []
    else
      var init := xs[..|xs| - 1];
      var last := xs[|xs| - 1];
      assert xs == init + [last];
      var r := Distinct(init);
      forall x | x in init ensures FirstIndex(xs, x) == FirstIndex(init, x) {
        FirstIndexPrefix(init, last, x);
      }
      if last in r then r
      else
        assert FirstIndex(xs, last) == |xs| - 1;
        r + [last]
  }

  /** A list without duplicates is its own `Distinct`. */
  lemma {:induction false} DistinctKeepsDistinct<T(!new)>(xs: seq<T>)
    requires NoDuplicates(xs)
    ensures Distinct(xs) == xs
    decreases |xs|
  {
    if xs != [] {
      var init := xs[..|xs| - 1];
      var last := xs[|xs| - 1];
      NoDuplicatesSplit(xs);
      DistinctKeepsDistinct(init);
      assert xs == init + [last];
      DistinctSnoc(init, last);
    }
  }

  /** Dropping the last element of a duplicate-free list keeps it
      duplicate-free, and that element does not occur in the rest. */
  lemma NoDuplicatesSplit<T>(xs: seq<T>)
    requires xs != [] && NoDuplicates(xs)
    ensures NoDuplicates(xs[..|xs| - 1])
    ensures xs[|xs| - 1] !in xs[..|xs| - 1]
  {
    var init := xs[..|xs| - 1];
    forall j | 0 <= j < |init|
      ensures init[j] == xs[j] && init[j] != xs[|xs| - 1]
    {
    }
  }

  /** An element not seen before is appended by `Distinct`. */
  lemma DistinctSnoc<T(!new)>(init: seq<T>, last: T)
    requires last !in init
    ensures Distinct(init + [last]) == Distinct(init) + [last]
  {
    var xs := init + [last];
    assert xs[..|xs| - 1] == init;
  }

  /** `xs.slice(0, k)` for a non-negative `k`: at most `k` leading elements. */
  function Take<T>(xs: seq<T>, k: nat): (r: seq<T>)
    ensures |r| == if k <= |xs| then k else |xs|
    ensures r <= xs
  {
    if k <= |xs| then xs[..k] else xs
  }

  /** `xs.slice(start, end)` for `0 <= start <= end`, clipped to the list. */
  function Slice<T>(xs: seq<T>, start: nat, end: nat): (r: seq<T>)
    requires start <= end
    ensures |r| <= end - start
    ensures start <= |xs| ==> |r| == (if end <= |xs| then end else |xs|) - start
    ensures forall i :: 0 <= i < |r| ==> start + i < |xs| && r[i] == xs[start + i]
  {
    if start >= |xs| then []
    else if end <= |xs| then xs[start..end]
    else xs[start..]
  }

  /** `xs.flatMap(f)`. */
  function FlatMap<T, U(!new)>(xs: seq<T>, f: T -> seq<U>): (r: seq<U>)
    ensures forall u :: u in r <==> exists i :: 0 <= i < |xs| && u in f(xs[i])
  {
    if xs == [] then []
    else
      var rest := FlatMap(xs[1..], f);
      assert forall i :: 1 <= i < |xs| ==> xs[i] == xs[1..][i - 1];
      f(xs[0]) + rest
  }

  /** `xs.filter((_, i) => i !== k)`: drops position `k`; an index outside
      the list drops nothing. */
  function RemoveAt<T>(xs: seq<T>, k: nat): (r: seq<T>)
    ensures k < |xs| ==> |r| == |xs| - 1
    ensures k >= |xs| ==> r == xs
    ensures forall i :: 0 <= i < |r| ==> r[i] == (if i < k then xs[i] else xs[i + 1])
  {
    if k < |xs| then xs[..k] + xs[k + 1..] else xs
  }
}

=== FILE: services_carousel.dfy ===
/** The image carousel of the "about" services section
    (src/components/AboutUsSection/ServicesSection.tsx): three items and an
    active index moved by next/prev with wrap-around. */
module ServicesCarousel {
  import HeroSlider

  const ItemCount: nat := 3

  /** `nextSlide`: the last index wraps to 0, any other steps up. */
  function Next(i: nat, n: nat): (r: nat)
    requires i < n
    ensures r < n
    ensures r == HeroSlider.NextTarget(i, n)
  {
    if i == n - 1 then 0 else i + 1
  }

  /** `prevSlide`: 0 wraps to the last index, any other steps down. */
  function Prev(i: nat, n: nat): (r: nat)
    requires i < n
    ensures r < n
    ensures r == HeroSlider.PrevTarget(i, n)
  {
    if i == 0 then n - 1 else i - 1
  }

  /** Next and prev undo each other. */
  lemma NextPrevInverse(i: nat, n: nat)
    requires i < n
    ensures Prev(Next(i, n), n) == i
    ensures Next(Prev(i, n), n) == i
  {
  }

  /** Starting from 0, any sequence of clicks keeps the index in range. */
  function Clicks(i: nat, n: nat, forward: seq<bool>): (r: nat)
    requires i < n
    ensures r < n
    decreases forward
  {
    if forward == [] then i
    else Clicks(if forward[0] then Next(i, n) else Prev(i, n), n, forward[1..])
  }

  /** k forward clicks (k at most n) advance the index by k, wrapping once. */
  lemma {:induction false} ForwardClicks(i: nat, n: nat, k: nat)
    requires i < n && k <= n
    ensures Clicks(i, n, seq(k, _ => true)) == if i + k < n then i + k else i + k - n
    decreases k
  {
    if k > 0 {
      var fs := seq(k, _ => true);
      assert fs[1..] == seq(k - 1, _ => true);
      ForwardClicks(Next(i, n), n, k - 1);
    }
  }

  /** A full turn of n forward clicks comes back to the start. */
  lemma FullTurn(i: nat, n: nat)
    requires i < n
    ensures Clicks(i, n, seq(n, _ => true)) == i
  {
    ForwardClicks(i, n, n);
  }

  /** The `active` class of each item. */
  function ActiveClasses(active: nat, n: nat): (r: seq<bool>)
    requires active < n
    ensures |r| == n
    ensures forall j :: 0 <= j < n ==> (r[j] <==> j == active)
  {
    seq(n, j => j == active)
  }
}

=== FILE: slider_admin.dfy ===
/** The admin hero-slide editor (src/pages/admin/Slider/SliderPage.tsx):
    upload validation, the dialog's draft, the ordered save checks,
    replace-at-index or append, and confirmed deletion by index. Image
    compression and file reading are a parameter: the data URL they
    produce, or None when they fail. */
module SliderAdmin {
  import opened Wrappers
  import Seqs
  import Text

  datatype Slide = Slide(imageUrl: string, title: string, kind: string, description: string)

  datatype File = File(mimeType: string, size: nat)

  datatype Field = ImageUrl | Title | Kind | Description

  const MaxFileSize: nat := 5 * 1024 * 1024
  const AllowedTypes: seq<string> := ["image/jpeg", "image/png", "image/webp"]
  const EmptySlide := Slide("", "", "", "")

  const TypeError := "Only JPG, PNG and WebP images are allowed"
  const SizeError := "File size should not exceed 5MB"
  const UploadError := "Error uploading image. Please try again."
  const TitleRequired := "Title is required"
  const KindRequired := "Type is required"
  const ImageRequired := "Image is required"

  datatype Page = Page(
    slides: seq<Slide>,
    open: bool,
    editIndex: Option<nat>,
    draft: Slide,
    deleteConfirmOpen: bool,
    deleteIndex: Option<nat>,
    previewUrl: string,
    error: Option<string>,
    uploading: bool)

  /** An edit index always names an existing slide, and only while the
      (modal) dialog is open. */
  predicate Valid(p: Page) {
    (p.editIndex.Some? ==> p.open && p.editIndex.value < |p.slides|)
  }

  function Initial(slides: seq<Slide>): (p: Page)
    ensures Valid(p) && p.slides == slides && !p.open && p.draft == EmptySlide
  {
    Page(slides, false, None, EmptySlide, false, None, "", None, false)
  }

  /** `handleOpen`: with a slide and its index the dialog edits it, else it
      starts an empty draft. */
  function Open(p: Page, target: Option<(Slide, nat)>): (r: Page)
    requires Valid(p)
    requires target.Some? ==> target.value.1 < |p.slides|
    ensures Valid(r) && r.open && r.error.None? && r.slides == p.slides
    ensures target.Some? ==> r.editIndex == Some(target.value.1) && r.draft == target.value.0 && r.previewUrl == target.value.0.imageUrl
    ensures target.None? ==> r.editIndex.None? && r.draft == EmptySlide && r.previewUrl == ""
  {
    match target
    case Some((slide, index)) => p.(error := None, editIndex := Some(index), draft := slide, previewUrl := slide.imageUrl, open := true)
    case None => p.(error := None, editIndex := None, draft := EmptySlide, previewUrl := "", open := true)
  }

  /** `handleClose`: everything the dialog held is reset. */
  function Close(p: Page): (r: Page)
    ensures Valid(r)
    ensures !r.open && r.editIndex.None? && r.draft == EmptySlide && r.previewUrl == "" && r.error.None?
    ensures r.slides == p.slides && r.deleteIndex == p.deleteIndex && r.uploading == p.uploading
  {
    p.(open := false, editIndex := None, draft := EmptySlide, previewUrl := "", error := None)
  }

  predicate UploadAccepted(f: File) {
    f.mimeType in AllowedTypes && f.size <= MaxFileSize
  }

  /** `handleImageUpload` up to its `await`: a rejected file sets its error
      and the `finally` clears the upload flag; an accepted file raises the
      flag and clears the error. Nothing else changes. */
  function UploadBegin(p: Page, file: File): (r: Page)
    requires Valid(p)
    ensures Valid(r)
    ensures r.slides == p.slides && r.editIndex == p.editIndex && r.open == p.open
    ensures r.draft == p.draft && r.previewUrl == p.previewUrl
    ensures r.deleteIndex == p.deleteIndex && r.deleteConfirmOpen == p.deleteConfirmOpen
    ensures r.uploading <==> UploadAccepted(file)
    ensures file.mimeType !in AllowedTypes ==> r.error == Some(TypeError)
    ensures file.mimeType in AllowedTypes && file.size > MaxFileSize ==> r.error == Some(SizeError)
    ensures UploadAccepted(file) ==> r.error.None?
  {
    if file.mimeType !in AllowedTypes then p.(error := Some(TypeError), uploading := false)
    else if file.size > MaxFileSize then p.(error := Some(SizeError), uploading := false)
    else p.(error := None, uploading := true)
  }

  /** The rest of `handleImageUpload`, once compression settles: the data
      URL becomes the preview and the image URL, or a failure sets the
      upload error; the `finally` clears the flag. */
  function UploadEnd(p: Page, compressed: Option<string>): (r: Page)
    requires Valid(p)
    ensures Valid(r) && !r.uploading
    ensures r.slides == p.slides && r.editIndex == p.editIndex && r.open == p.open
    ensures compressed.Some? ==>
              r.draft == p.draft.(imageUrl := compressed.value) && r.previewUrl == compressed.value && r.error == p.error
    ensures compressed.None? ==> r.draft == p.draft && r.previewUrl == p.previewUrl && r.error == Some(UploadError)
  {
    match compressed
    case Some(url) => p.(previewUrl := url, draft := p.draft.(imageUrl := url), uploading := false)
    case None => p.(error := Some(UploadError), uploading := false)
  }

  /** While an accepted file is being compressed the Save button is
      disabled, whatever the draft holds. */
  lemma SaveDisabledWhileUploading(p: Page, file: File)
    requires Valid(p) && UploadAccepted(file)
    ensures !SaveEnabled(UploadBegin(p, file))
  {
  }

  /** The whole of `handleImageUpload`: a rejected file sets its error and
      leaves the draft alone; an accepted one becomes the preview and the
      image URL unless compression fails. Whatever the file, the upload
      flag is clear afterwards. */
  function Upload(p: Page, file: Option<File>, compressed: Option<string>): (r: Page)
    requires Valid(p)
    ensures Valid(r) && r.slides == p.slides && r.editIndex == p.editIndex
    ensures file.None? ==> r == p
    ensures file.Some? ==> !r.uploading
    ensures file.Some? && file.value.mimeType !in AllowedTypes ==> r == p.(error := Some(TypeError), uploading := false)
    ensures file.Some? && file.value.mimeType in AllowedTypes && file.value.size > MaxFileSize ==>
              r == p.(error := Some(SizeError), uploading := false)
    ensures file.Some? && !UploadAccepted(file.value) ==> r.draft == p.draft && r.previewUrl == p.previewUrl
    ensures file.Some? && UploadAccepted(file.value) ==>
              && (compressed.Some? ==> r.draft == p.draft.(imageUrl := compressed.value) && r.previewUrl == compressed.value && r.error.None?)
              && (compressed.None? ==> r.draft == p.draft && r.error == Some(UploadError))
  {
    if file.None? then p
    else
      var begun := UploadBegin(p, file.value);
      if begun.uploading then UploadEnd(begun, compressed) else begun
  }

  /** The size limit is inclusive: exactly 5 MiB passes, one byte more fails. */
  lemma SizeLimitInclusive(mime: string)
    requires mime in AllowedTypes
    ensures UploadAccepted(File(mime, 5242880))
    ensures !UploadAccepted(File(mime, 5242881))
  {
  }

  function SetField(p: Page, field: Field, value: string): (r: Page)
    ensures r.slides == p.slides && r.editIndex == p.editIndex && r.open == p.open
    ensures field == ImageUrl ==> r.draft == p.draft.(imageUrl := value)
    ensures field == Title ==> r.draft == p.draft.(title := value)
    ensures field == Kind ==> r.draft == p.draft.(kind := value)
    ensures field == Description ==> r.draft == p.draft.(description := value)
  {
    match field
    case ImageUrl => p.(draft := p.draft.(imageUrl := value))
    case Title => p.(draft := p.draft.(title := value))
    case Kind => p.(draft := p.draft.(kind := value))
    case Description => p.(draft := p.draft.(description := value))
  }

  /** The first failing save check, in source order, or None. */
  function SaveError(d: Slide): (e: Option<string>)
    ensures e.None? <==> Text.Trim(d.title) != "" && Text.Trim(d.kind) != "" && d.imageUrl != ""
    ensures e == Some(TitleRequired) <==> Text.Trim(d.title) == ""
    ensures e == Some(KindRequired) <==> Text.Trim(d.title) != "" && Text.Trim(d.kind) == ""
    ensures e == Some(ImageRequired) <==> Text.Trim(d.title) != "" && Text.Trim(d.kind) != "" && d.imageUrl == ""
  {
    if Text.Trim(d.title) == "" then Some(TitleRequired)
    else if Text.Trim(d.kind) == "" then Some(KindRequired)
    else if d.imageUrl == "" then Some(ImageRequired)
    else None
  }

  /** `handleSave`: a failed check records its message and keeps the list;
      otherwise the draft replaces the edited slide or is appended, and the
      dialog closes. The untrimmed draft is what gets stored. */
  function Save(p: Page): (r: Page)
    requires Valid(p)
    ensures Valid(r)
    ensures SaveError(p.draft).Some? ==> r == p.(error := SaveError(p.draft))
    ensures SaveError(p.draft).None? ==>
              && !r.open && r.error.None? && r.draft == EmptySlide
              && (p.editIndex.Some? ==>
                    && |r.slides| == |p.slides|
                    && r.slides[p.editIndex.value] == p.draft
                    && (forall i :: 0 <= i < |p.slides| && i != p.editIndex.value ==> r.slides[i] == p.slides[i]))
              && (p.editIndex.None? ==> r.slides == p.slides + [p.draft])
  {
    var e := SaveError(p.draft);
    if e.Some? then p.(error := e)
    else Close(p.(slides := Store(p.slides, p.editIndex, p.draft)))
  }

  /** The list after a successful save: the slide at the edit index is
      replaced, or the draft is appended when there is none. */
  function Store(slides: seq<Slide>, editIndex: Option<nat>, draft: Slide): (r: seq<Slide>)
    requires editIndex.Some? ==> editIndex.value < |slides|
    ensures editIndex.Some? ==>
              && |r| == |slides|
              && r[editIndex.value] == draft
              && (forall i :: 0 <= i < |slides| && i != editIndex.value ==> r[i] == slides[i])
    ensures editIndex.None? ==> r == slides + [draft]
  {
    if editIndex.Some? then slides[editIndex.value := draft] else slides + [draft]
  }

  /** The Save button's enabling test is untrimmed. */
  predicate SaveEnabled(p: Page) {
    !p.uploading && p.previewUrl != "" && p.draft.title != "" && p.draft.kind != ""
  }

  /** A whitespace-only title enables the button yet the save is refused. */
  lemma BlankTitleEnabledButRefused(p: Page)
    requires Valid(p) && !p.uploading && p.previewUrl != ""
    requires p.draft.title == " " && p.draft.kind != ""
    ensures SaveEnabled(p)
    ensures Save(p) == p.(error := Some(TitleRequired))
  {
    assert Text.IsWhitespace(' ');
    Text.TrimEmpty(p.draft.title);
  }

  /** `handleDelete(index)`: remember the index and ask for confirmation;
      the list itself is untouched until `ConfirmDelete`. */
  function AskDelete(p: Page, index: nat): (r: Page)
    ensures r.deleteIndex == Some(index) && r.deleteConfirmOpen
    ensures r.slides == p.slides && r.open == p.open && r.editIndex == p.editIndex && r.draft == p.draft
    ensures r.previewUrl == p.previewUrl && r.error == p.error && r.uploading == p.uploading
    ensures Valid(p) ==> Valid(r)
  {
    p.(deleteIndex := Some(index), deleteConfirmOpen := true)
  }

  /** `confirmDelete`: drop exactly the slide at the pending index, keep the
      rest in order, then clear the pending index. */
  function ConfirmDelete(p: Page): (r: Page)
    requires Valid(p) && !p.open
    ensures Valid(r)
    ensures r.deleteIndex.None? && !r.deleteConfirmOpen
    ensures p.deleteIndex.None? ==> r.slides == p.slides
    ensures p.deleteIndex.Some? ==>
              && |r.slides| == (if p.deleteIndex.value < |p.slides| then |p.slides| - 1 else |p.slides|)
              && (forall i :: 0 <= i < |r.slides| ==>
                    r.slides[i] == if i < p.deleteIndex.value then p.slides[i] else p.slides[i + 1])
  {
    var slides := if p.deleteIndex.Some? then Seqs.RemoveAt(p.slides, p.deleteIndex.value) else p.slides;
    p.(slides := slides, deleteConfirmOpen := false, deleteIndex := None)
  }

  /** Asking to delete a slide and confirming removes exactly that slide:
      the list becomes the slides before it followed by the slides after
      it, and the confirmation closes. */
  lemma AskThenConfirmRemoves(p: Page, index: nat)
    requires Valid(p) && !p.open && index < |p.slides|
    ensures var r := ConfirmDelete(AskDelete(p, index));
            && r.slides == p.slides[..index] + p.slides[index + 1..]
            && !r.deleteConfirmOpen && r.deleteIndex.None?
  {
    var r := ConfirmDelete(AskDelete(p, index));
    assert |r.slides| == |p.slides[..index] + p.slides[index + 1..]|;
    forall i | 0 <= i < |r.slides|
      ensures r.slides[i] == (p.slides[..index] + p.slides[index + 1..])[i]
    {
      if i >= index {
        assert (p.slides[..index] + p.slides[index + 1..])[i] == p.slides[i + 1];
      }
    }
  }
}

=== FILE: testimonials_admin.dfy ===
/** The admin testimonial list (src/pages/admin/About/TestimonialsPage.tsx).
    Ids are optional, as for partners. */
module TestimonialsAdmin {
  import opened Wrappers
  import Seqs
  import Records

  datatype Testimonial = Testimonial(id: Option<int>, text: string, name: string, position: string)

  datatype Draft = Draft(text: string, name: string, position: string)

  const EmptyDraft := Draft("", "", "")

  datatype Page = Page(
    testimonials: seq<Testimonial>,
    editOpen: bool,
    deleteOpen: bool,
    addOpen: bool,
    selected: Option<Testimonial>,
    edited: Option<Testimonial>,
    draft: Draft)

  function TestimonialId(t: Testimonial): Option<int> { t.id }

  function IdOrZero(t: Testimonial): int { t.id.GetOr(0) }

  function EditClick(pg: Page, t: Testimonial): (q: Page)
    ensures q.selected == Some(t) && q.edited == Some(t) && q.editOpen && q.testimonials == pg.testimonials
  {
    pg.(selected := Some(t), edited := Some(t), editOpen := true)
  }

  function DeleteClick(pg: Page, t: Testimonial): (q: Page)
    ensures q.selected == Some(t) && q.deleteOpen && q.testimonials == pg.testimonials
  {
    pg.(selected := Some(t), deleteOpen := true)
  }

  function EditSave(pg: Page): (q: Page)
    ensures pg.edited.Some? && pg.selected.Some? ==>
              && |q.testimonials| == |pg.testimonials|
              && (forall i :: 0 <= i < |pg.testimonials| ==>
                    q.testimonials[i] == if pg.testimonials[i].id == pg.selected.value.id then pg.edited.value else pg.testimonials[i])
              && !q.editOpen
    ensures !(pg.edited.Some? && pg.selected.Some?) ==> q == pg
  {
    if pg.edited.Some? && pg.selected.Some? then
      pg.(testimonials := Records.ReplaceWhere(pg.testimonials, TestimonialId, pg.selected.value.id, pg.edited.value),
          editOpen := false)
    else pg
  }

  function Delete(pg: Page): (q: Page)
    ensures pg.selected.Some? ==>
              && (forall t :: t in q.testimonials <==> t in pg.testimonials && t.id != pg.selected.value.id)
              && q.testimonials == Records.RemoveWhere(pg.testimonials, TestimonialId, pg.selected.value.id)
              && !q.deleteOpen
              && q == pg.(testimonials := q.testimonials, deleteOpen := false)
    ensures pg.selected.None? ==> q == pg
  {
    if pg.selected.Some? then
      pg.(testimonials := Records.RemoveWhere(pg.testimonials, TestimonialId, pg.selected.value.id), deleteOpen := false)
    else pg
  }

  predicate DraftComplete(d: Draft) {
    d.text != "" && d.name != "" && d.position != ""
  }

  /** `Math.max(...testimonials.map(t => t.id || 0)) + 1`, with 1 for an
      empty list (see `Records.NextId`): above every defined id, so the new
      testimonial's id is fresh. */
  function NewId(testimonials: seq<Testimonial>): (r: int)
    ensures forall i :: 0 <= i < |testimonials| && testimonials[i].id.Some? ==> testimonials[i].id.value < r
    ensures |testimonials| == 0 ==> r == 1
  {
    var ids := Records.Keys(testimonials, IdOrZero);
    assert forall i :: 0 <= i < |testimonials| ==> ids[i] == IdOrZero(testimonials[i]);
    Records.NextId(ids)
  }

  function AddSave(pg: Page): (q: Page)
    ensures DraftComplete(pg.draft) ==>
              && |q.testimonials| == |pg.testimonials| + 1
              && q.testimonials[..|pg.testimonials|] == pg.testimonials
              && (var added := q.testimonials[|pg.testimonials|];
                  added.id == Some(NewId(pg.testimonials))
                  && (forall i :: 0 <= i < |pg.testimonials| ==> pg.testimonials[i].id != added.id)
                  && added.text == pg.draft.text && added.name == pg.draft.name && added.position == pg.draft.position)
              && q.draft == EmptyDraft && !q.addOpen
    ensures !DraftComplete(pg.draft) ==> q == pg
  {
    if DraftComplete(pg.draft) then
      var d := pg.draft;
      pg.(testimonials := pg.testimonials + [Testimonial(Some(NewId(pg.testimonials)), d.text, d.name, d.position)],
          addOpen := false, draft := EmptyDraft)
    else pg
  }

  /** Deleting the testimonial an add just created gives back the list as
      it was before the add. */
  lemma AddThenDeleteRestores(pg: Page)
    requires DraftComplete(pg.draft)
    ensures var q := AddSave(pg);
            Delete(DeleteClick(q, q.testimonials[|pg.testimonials|])).testimonials == pg.testimonials
  {
    var q := AddSave(pg);
    var added := q.testimonials[|pg.testimonials|];
    assert q.testimonials == pg.testimonials + [added];
    Records.AppendThenRemove(pg.testimonials, TestimonialId, added);
  }

  /** Opening a testimonial for edit and saving it unchanged leaves the list
      as it was, provided no other testimonial shares its id. */
  lemma EditUnchangedIsNoChange(pg: Page, t: Testimonial)
    requires forall i :: 0 <= i < |pg.testimonials| && pg.testimonials[i].id == t.id ==> pg.testimonials[i] == t
    ensures EditSave(EditClick(pg, t)).testimonials == pg.testimonials
  {
    Records.ReplaceWhereSame(pg.testimonials, TestimonialId, t.id, t);
  }
}

=== FILE: text.dfy ===
/** The JavaScript string operations the site relies on, over `seq<char>`:
    `indexOf`/`includes`, `startsWith`, `split` and `join` with a non-empty
    string separator, `trim`, and the anchored prefix/suffix removal that
    `replace(/^x|y$/g, "")` performs. */
module Text {
  import opened Wrappers

  /** `sep` occurs in `s` starting at position `i`. */
  predicate OccursAt(s: string, sep: string, i: int) {
    0 <= i <= |s| && sep <= s[i..]
  }

  lemma OccursShift(s: string, sep: string)
    requires |s| > 0
    ensures forall j :: 1 <= j ==> (OccursAt(s, sep, j) <==> OccursAt(s[1..], sep, j - 1))
  {
    forall j | 1 <= j <= |s| ensures s[1..][j - 1..] == s[j..] {
    }
  }

  /** `s.indexOf(sep)`: the first position where `sep` occurs, if any. */
  function IndexOf(s: string, sep: string): (r: Option<nat>)
    ensures r.Some? ==> OccursAt(s, sep, r.value)
    ensures r.Some? ==> forall j :: 0 <= j < r.value ==> !OccursAt(s, sep, j)
    ensures r.None? ==> forall j :: !OccursAt(s, sep, j)
    decreases |s|
  {
    if |s| < |sep| then None
    else if s[..|sep|] == sep then Some(0)
    else
      OccursShift(s, sep);
      match IndexOf(s[1..], sep)
      case None => None
      case Some(i) => Some(i + 1)
  }

  /** `s.includes(sub)`. */
  predicate Contains(s: string, sub: string) {
    IndexOf(s, sub).Some?
  }

  lemma ContainsIff(s: string, sub: string)
    ensures Contains(s, sub) <==> exists i :: OccursAt(s, sub, i)
  {
  }

  /** `s.split(sep)` for a non-empty separator: the pieces between the
      non-overlapping occurrences of `sep`, scanned left to right. */
  function Split(s: string, sep: string): (r: seq<string>)
    requires |sep| > 0
    ensures |r| >= 1
    decreases |s|
  {
    match IndexOf(s, sep)
    case None => [s]
    case Some(i) => [s[..i]] + Split(s[i + |sep|..], sep)
  }

  /** `parts.join(sep)`. */
  function Join(parts: seq<string>, sep: string): string {
    if |parts| == 0 then ""
    else if |parts| == 1 then parts[0]
    else parts[0] + sep + Join(parts[1..], sep)
  }

  /** Joining the pieces of a split with the same separator gives back the
      original string. */
  lemma {:induction false} JoinSplit(s: string, sep: string)
    requires |sep| > 0
    ensures Join(Split(s, sep), sep) == s
    decreases |s|
  {
    var found := IndexOf(s, sep);
    if found.Some? {
      var i := found.value;
      var rest := s[i + |sep|..];
      var tail := Split(rest, sep);
      JoinSplit(rest, sep);
      JoinCons(s[..i], tail, sep);
      assert OccursAt(s, sep, i);
      Reassemble(s, sep, i);
    }
  }

  lemma JoinCons(h: string, tail: seq<string>, sep: string)
    requires |tail| >= 1
    ensures Join([h] + tail, sep) == h + sep + Join(tail, sep)
  {
    assert ([h] + tail)[1..] == tail;
  }

  lemma Reassemble(s: string, sep: string, i: nat)
    requires OccursAt(s, sep, i)
    ensures s[..i] + sep + s[i + |sep|..] == s
  {
    assert s[i..] == sep + s[i + |sep|..];
    assert s == s[..i] + s[i..];
  }

  /** Number of non-overlapping occurrences of `sep` in `s`, counted by a
      left-to-right scan one character at a time. */
  function CountOccurrences(s: string, sep: string): nat
    requires |sep| > 0
    decreases |s|
  {
    if |s| < |sep| then 0
    else if s[..|sep|] == sep then 1 + CountOccurrences(s[|sep|..], sep)
    else CountOccurrences(s[1..], sep)
  }

  /** Skipping a prefix free of occurrences does not change the count. */
  lemma {:induction false} CountSkip(s: string, sep: string, i: nat)
    requires |sep| > 0 && i <= |s|
    requires forall j :: 0 <= j < i ==> !OccursAt(s, sep, j)
    ensures CountOccurrences(s, sep) == CountOccurrences(s[i..], sep)
    decreases i
  {
    if i > 0 {
      assert !OccursAt(s, sep, 0);
      if |s| >= |sep| {
        assert s[..|sep|] != sep;
      }
      OccursShift(s, sep);
      forall j | 0 <= j < i - 1 ensures !OccursAt(s[1..], sep, j) {
        assert !OccursAt(s, sep, j + 1);
      }
      CountSkip(s[1..], sep, i - 1);
      assert s[1..][i - 1..] == s[i..];
    }
  }

  /** A split yields one more piece than there are separators. */
  lemma {:induction false} SplitLength(s: string, sep: string)
    requires |sep| > 0
    ensures |Split(s, sep)| == CountOccurrences(s, sep) + 1
    decreases |s|
  {
    match IndexOf(s, sep)
    case None =>
      CountSkip(s, sep, |s|);
      assert s[|s|..] == "";
    case Some(i) =>
      CountSkip(s, sep, i);
      var t := s[i..];
      assert t[..|sep|] == sep;
      assert t[|sep|..] == s[i + |sep|..];
      SplitLength(s[i + |sep|..], sep);
  }

  /** `sep` does not start anywhere inside `p`, even straddling into a
      separator that follows it; then `p` comes back whole from a split. */
  ghost predicate SepFree(p: string, sep: string) {
    forall j :: 0 <= j < |p| ==> !OccursAt(p + sep, sep, j)
  }

  lemma SepFreeChar(p: string, c: char)
    ensures SepFree(p, [c]) <==> c !in p
  {
    if c in p {
      var j :| 0 <= j < |p| && p[j] == c;
      assert (p + [c])[j..][0] == c;
      assert OccursAt(p + [c], [c], j);
    } else {
      forall j | 0 <= j < |p| ensures !OccursAt(p + [c], [c], j) {
        assert (p + [c])[j..][0] == p[j];
      }
    }
  }

  lemma FirstPiece(p: string, sep: string, rest: string)
    requires |sep| > 0 && SepFree(p, sep)
    ensures IndexOf(p + sep + rest, sep) == Some(|p|)
  {
    var s := p + sep + rest;
    assert s[|p|..] == sep + rest;
    assert OccursAt(s, sep, |p|);
    forall j | 0 <= j < |p| ensures !OccursAt(s, sep, j) {
      if OccursAt(s, sep, j) {
        assert s[j..][..|sep|] == (p + sep)[j..][..|sep|];
        assert OccursAt(p + sep, sep, j);
      }
    }
  }

  lemma LastPiece(p: string, sep: string)
    requires |sep| > 0 && SepFree(p, sep)
    ensures IndexOf(p, sep) == None
  {
    forall j | 0 <= j <= |p| && OccursAt(p, sep, j) ensures OccursAt(p + sep, sep, j) {
      assert (p + sep)[j..][..|sep|] == p[j..][..|sep|];
    }
  }

  /** Splitting a join recovers the parts, provided none of them lets the
      separator start inside it. */
  lemma {:induction false} SplitJoin(parts: seq<string>, sep: string)
    requires |sep| > 0 && |parts| >= 1
    requires forall k :: 0 <= k < |parts| ==> SepFree(parts[k], sep)
    ensures Split(Join(parts, sep), sep) == parts
  {
    if |parts| == 1 {
      LastPiece(parts[0], sep);
    } else {
      var rest := Join(parts[1..], sep);
      FirstPiece(parts[0], sep, rest);
      var s := parts[0] + sep + rest;
      assert s[..|parts[0]|] == parts[0];
      assert s[|parts[0]| + |sep|..] == rest;
      SplitJoin(parts[1..], sep);
    }
  }

  /** `startsWith`. */
  predicate StartsWith(s: string, prefix: string) {
    prefix <= s
  }

  /** `s.replace(/^p/, "")`. */
  function StripPrefix(s: string, p: string): (r: string)
    ensures StartsWith(s, p) ==> s == p + r
    ensures !StartsWith(s, p) ==> r == s
  {
    if StartsWith(s, p) then s[|p|..] else s
  }

  predicate EndsWith(s: string, suffix: string) {
    |suffix| <= |s| && s[|s| - |suffix|..] == suffix
  }

  /** `s.replace(/p$/, "")`. */
  function StripSuffix(s: string, p: string): (r: string)
    ensures EndsWith(s, p) ==> s == r + p
    ensures !EndsWith(s, p) ==> r == s
  {
    if EndsWith(s, p) then s[..|s| - |p|] else s
  }

  /** The characters `String.prototype.trim` removes: the ECMAScript
      WhiteSpace and LineTerminator code points. */
  predicate IsWhitespace(c: char) {
    c == ' ' || c == '\t' || c == '\n' || c == '\r' || c == '\U{000B}' || c == '\U{000C}'
    || c == '\U{00A0}' || c == '\U{1680}' || ('\U{2000}' <= c <= '\U{200A}')
    || c == '\U{2028}' || c == '\U{2029}' || c == '\U{202F}' || c == '\U{205F}'
    || c == '\U{3000}' || c == '\U{FEFF}'
  }

  function TrimStart(s: string): (r: string)
    ensures |r| <= |s| && r == s[|s| - |r|..]
    ensures forall i :: 0 <= i < |s| - |r| ==> IsWhitespace(s[i])
    ensures r == "" || !IsWhitespace(r[0])
  {
    if s != [] && IsWhitespace(s[0]) then TrimStart(s[1..]) else s
  }

  function TrimEnd(s: string): (r: string)
    ensures |r| <= |s| && r == s[..|r|]
    ensures forall i :: |r| <= i < |s| ==> IsWhitespace(s[i])
    ensures r == "" || !IsWhitespace(r[|r| - 1])
  {
    if s != [] && IsWhitespace(s[|s| - 1]) then TrimEnd(s[..|s| - 1]) else s
  }

  /** `s.trim()`: the longest slice of `s` with no whitespace at either end,
      obtained by removing only whitespace. */
  function Trim(s: string): (r: string)
    ensures |r| <= |s|
    ensures var a := TrimmedLead(s);
            && a + |r| <= |s| && r == s[a..a + |r|]
            && (forall i :: 0 <= i < a ==> IsWhitespace(s[i]))
            && (forall i :: a + |r| <= i < |s| ==> IsWhitespace(s[i]))
    ensures r == "" || (!IsWhitespace(r[0]) && !IsWhitespace(r[|r| - 1]))
  {
    var t := TrimStart(s);
    var r := TrimEnd(t);
    SliceOfSlice(s, |s| - |t|, t, r);
    r
  }

  /** A prefix `r` of the suffix `t == s[a..]` is the slice `s[a..a + |r|]`,
      and what `t` has after `r` is what `s` has after that slice. */
  lemma SliceOfSlice(s: string, a: nat, t: string, r: string)
    requires a <= |s| && t == s[a..]
    requires |r| <= |t| && r == t[..|r|]
    requires forall i :: |r| <= i < |t| ==> IsWhitespace(t[i])
    ensures a + |r| <= |s| && r == s[a..a + |r|]
    ensures forall i :: a + |r| <= i < |s| ==> IsWhitespace(s[i])
  {
    forall i | a + |r| <= i < |s|
      ensures IsWhitespace(s[i])
    {
      assert s[i] == t[i - a];
    }
  }

  /** How many leading characters `trim` removes. */
  function TrimmedLead(s: string): nat {
    |s| - |TrimStart(s)|
  }

  /** A trimmed string is empty exactly when the input is all whitespace. */
  lemma TrimEmpty(s: string)
    ensures Trim(s) == "" <==> forall i :: 0 <= i < |s| ==> IsWhitespace(s[i])
  {
    if Trim(s) != "" {
      var r := Trim(s);
      var a := TrimmedLead(s);
      assert s[a] == r[0];
    }
  }

  /** A string without whitespace at its ends is left alone by `trim`. */
  lemma TrimNoEdges(s: string)
    requires s == "" || (!IsWhitespace(s[0]) && !IsWhitespace(s[|s| - 1]))
    ensures Trim(s) == s
  {
  }

  /** A leading whitespace character does not change the trimmed result. */
  lemma TrimSkipsLeadingWhitespace(c: char, t: string)
    requires IsWhitespace(c)
    ensures Trim([c] + t) == Trim(t)
  {
    assert ([c] + t)[1..] == t;
  }

  /** Splitting on one character: the first piece is the text before the
      first occurrence (or all of `s`), and when the character occurs the
      second piece is the text up to its next occurrence. */
  lemma SplitOnChar(s: string, c: char)
    ensures var parts := Split(s, [c]);
            var h := parts[0];
            && h <= s && c !in h
            && (|h| < |s| ==> s[|h|] == c)
            && (c in s <==> |parts| >= 2)
            && (|parts| >= 2 ==> |h| < |s| && parts[1] == Split(s[|h| + 1..], [c])[0])
  {
    var parts := Split(s, [c]);
    match IndexOf(s, [c])
    case None =>
      assert parts == [s];
      forall j | 0 <= j < |s| ensures s[j] != c {
        assert !OccursAt(s, [c], j);
      }
    case Some(i) =>
      var rest := s[i + 1..];
      assert parts == [s[..i]] + Split(rest, [c]);
      assert s[i] == c by { assert OccursAt(s, [c], i); }
      forall j | 0 <= j < i ensures s[j] != c {
        assert !OccursAt(s, [c], j);
      }
  }

  /** The first piece of a split does not contain the separator. */
  lemma FirstPieceClean(s: string, sep: string)
    requires |sep| > 0
    ensures !Contains(Split(s, sep)[0], sep)
  {
    var h := Split(s, sep)[0];
    forall j | OccursAt(h, sep, j) ensures false {
      assert h[j..][..|sep|] == s[j..][..|sep|];
      assert OccursAt(s, sep, j);
    }
  }

  /** A string without the separator's first character cannot hold the
      start of an occurrence. */
  lemma SepFreeWithoutHead(p: string, sep: string)
    requires |sep| > 0 && sep[0] !in p
    ensures SepFree(p, sep)
  {
    forall j | 0 <= j < |p| ensures !OccursAt(p + sep, sep, j) {
      assert (p + sep)[j..][0] == p[j];
    }
  }
}

=== FILE: who_are_we.dfy ===
/** The "Qui Sommes Nous ?" paragraph of the about page
    (src/components/AboutUsSection/WhoAreWe.tsx): the description is cut
    into sentences at ". ", each sentence is rendered on its own line with
    the separator put back except after the last one, and the company name
    inside a sentence is set in bold. */
module WhoAreWe {
  import Text

  const Brand := "SOMATRAP"
  const SentenceSep := ". "

  /** A sentence as the page renders it: plain, or the text before the
      company name, the name in bold, and the text after it. */
  datatype Piece = Plain(text: string) | Branded(before: string, after: string)

  function PieceText(p: Piece): string {
    match p
    case Plain(t) => t
    case Branded(b, a) => b + Brand + a
  }

  /** One rendered sentence: `sentence.split("SOMATRAP")[0]`,
      the bold name, then `sentence.split("SOMATRAP")[1]`. */
  function SentencePiece(s: string): (p: Piece)
    ensures p.Branded? <==> Text.Contains(s, Brand)
    ensures p.Plain? ==> p.text == s
    ensures p.Branded? ==> !Text.Contains(p.before, Brand)
    ensures p.Branded? ==> !Text.Contains(p.after, Brand)
    ensures p.Branded? ==> Text.StartsWith(s, PieceText(p))
    ensures p.Branded? ==> var rest := s[|PieceText(p)|..]; rest == "" || Text.StartsWith(rest, Brand)
  {
    if Text.Contains(s, Brand) then
      var parts := Text.Split(s, Brand);
      Text.FirstPieceClean(s, Brand);
      SplitPrefix(s);
      Branded(parts[0], parts[1])
    else Plain(s)
  }

  /** A branded sentence starts with its first two pieces joined by the
      name; the second piece holds no further mention, and whatever the
      sentence has beyond that prefix starts with the next mention. */
  lemma SplitPrefix(s: string)
    requires Text.Contains(s, Brand)
    ensures Text.StartsWith(s, Text.Split(s, Brand)[0] + Brand + Text.Split(s, Brand)[1])
    ensures !Text.Contains(Text.Split(s, Brand)[1], Brand)
    ensures var rest := s[|Text.Split(s, Brand)[0] + Brand + Text.Split(s, Brand)[1]|..];
            rest == "" || Text.StartsWith(rest, Brand)
  {
    var parts := Text.Split(s, Brand);
    var i := Text.IndexOf(s, Brand).value;
    assert parts[1] == Text.Split(s[i + |Brand|..], Brand)[0];
    Text.FirstPieceClean(s[i + |Brand|..], Brand);
    Text.JoinSplit(s, Brand);
    if |parts| > 2 {
      assert Text.Join(parts, Brand) == parts[0] + Brand + (parts[1] + Brand + Text.Join(parts[2..], Brand)) by {
        assert parts[1..][1..] == parts[2..];
      }
    } else {
      assert Text.Join(parts, Brand) == parts[0] + Brand + parts[1] by {
        assert parts[1..] == [parts[1]];
      }
    }
  }

  /** A sentence naming the company at most once is rendered in full. */
  lemma {:induction false} SingleBrandKeepsText(s: string)
    requires Text.CountOccurrences(s, Brand) <= 1
    ensures PieceText(SentencePiece(s)) == s
  {
    var parts := Text.Split(s, Brand);
    Text.SplitLength(s, Brand);
    Text.JoinSplit(s, Brand);
    if Text.Contains(s, Brand) {
      assert parts[1..] == [parts[1]];
    }
  }

  /** A sentence naming the company twice loses everything after the
      second mention. */
  lemma {:induction false} SecondBrandDropsText(s: string)
    requires Text.CountOccurrences(s, Brand) >= 2
    ensures |PieceText(SentencePiece(s))| < |s|
  {
    var parts := Text.Split(s, Brand);
    Text.SplitLength(s, Brand);
    Text.JoinSplit(s, Brand);
    Text.JoinCons(parts[0], parts[1..], Brand);
    assert parts[1..] == [parts[1]] + parts[2..];
    Text.JoinCons(parts[1], parts[2..], Brand);
    assert |s| == |parts[0] + Brand + parts[1]| + |Brand + Text.Join(parts[2..], Brand)|;
  }

  /** A concrete sentence: the words between the two mentions survive, the
      last word does not. */
  lemma SecondBrandExample()
    ensures var s := "SOMATRAP et SOMATRAP encore";
            PieceText(SentencePiece(s)) != s
  {
    var s := "SOMATRAP et SOMATRAP encore";
    assert s == "" + Brand + " et " + Brand + " encore";
    Text.SepFreeWithoutHead("", Brand);
    Text.SepFreeWithoutHead(" et ", Brand);
    Text.SepFreeWithoutHead(" encore", Brand);
    TwoMentionsCounted("", " et ", " encore");
    SecondBrandDropsText(s);
  }

  lemma TwoMentionsCounted(a: string, b: string, c: string)
    requires Text.SepFree(a, Brand) && Text.SepFree(b, Brand) && Text.SepFree(c, Brand)
    ensures Text.CountOccurrences(a + Brand + b + Brand + c, Brand) >= 2
  {
    var parts := [a, b, c];
    assert Text.Join(parts, Brand) == a + Brand + b + Brand + c by {
      assert [b, c][1..] == [c];
      assert Text.Join([b, c], Brand) == b + Brand + c;
      assert parts[1..] == [b, c];
      assert Text.Join(parts, Brand) == a + Brand + (b + Brand + c);
    }
    Text.SplitJoin(parts, Brand);
    Text.SplitLength(a + Brand + b + Brand + c, Brand);
  }

  /** A rendered line: its sentence and the separator that follows it. */
  datatype Line = Line(piece: Piece, separator: string)

  function LineText(l: Line): string {
    PieceText(l.piece) + l.separator
  }

  /** One line per sentence; ". " follows every line but the last. */
  function Lines(sentences: seq<string>): (r: seq<Line>)
    ensures |r| == |sentences|
    ensures forall i :: 0 <= i < |r| ==>
              r[i].piece == SentencePiece(sentences[i]) &&
              r[i].separator == (if i < |sentences| - 1 then SentenceSep else "")
    decreases |sentences|
  {
    if |sentences| == 0 then []
    else if |sentences| == 1 then [Line(SentencePiece(sentences[0]), "")]
    else [Line(SentencePiece(sentences[0]), SentenceSep)] + Lines(sentences[1..])
  }

  /** The paragraph for a description. */
  function Paragraph(description: string): (r: seq<Line>)
    ensures |r| == Text.CountOccurrences(description, SentenceSep) + 1
  {
    Text.SplitLength(description, SentenceSep);
    Lines(Text.Split(description, SentenceSep))
  }

  function Concat(lines: seq<Line>): string
    decreases |lines|
  {
    if lines == [] then "" else LineText(lines[0]) + Concat(lines[1..])
  }

  /** No sentence names the company more than once. */
  ghost predicate SingleMentions(sentences: seq<string>) {
    forall k :: 0 <= k < |sentences| ==> Text.CountOccurrences(sentences[k], Brand) <= 1
  }

  lemma {:induction false} LinesJoin(sentences: seq<string>)
    requires SingleMentions(sentences)
    ensures Concat(Lines(sentences)) == Text.Join(sentences, SentenceSep)
    decreases |sentences|
  {
    if |sentences| == 1 {
      SingleBrandKeepsText(sentences[0]);
      assert Lines(sentences)[1..] == [];
    } else if |sentences| > 1 {
      SingleBrandKeepsText(sentences[0]);
      assert SingleMentions(sentences[1..]) by {
        assert forall k :: 1 <= k < |sentences| ==> sentences[1..][k - 1] == sentences[k];
      }
      LinesJoin(sentences[1..]);
      assert Lines(sentences)[1..] == Lines(sentences[1..]);
    }
  }

  /** Reading the paragraph's lines in order gives back the description,
      as long as no sentence names the company twice. */
  lemma {:induction false} ParagraphKeepsDescription(description: string)
    requires SingleMentions(Text.Split(description, SentenceSep))
    ensures Concat(Paragraph(description)) == description
  {
    LinesJoin(Text.Split(description, SentenceSep));
    Text.JoinSplit(description, SentenceSep);
  }
}

=== FILE: wrappers.dfy ===
/** The optional value used throughout the model for JavaScript's
    `undefined` / `null`: a property that is absent, a lookup that found
    nothing, a nullable piece of React state. */
module Wrappers {

  datatype Option<+T> = None | Some(value: T) {

    /** The value, or `default` when there is none (JavaScript's `??`). */
    function GetOr(default: T): T {
      match this
      case Some(v) => v
      case None => default
    }
  }
}
